=== FILE: README.md ===
# Scholar-AI core in Dafny

Scholar-AI is a paper-writing application. A Next.js frontend keeps the paper in one client-side store and shows it through a set of side panels; a FastAPI backend offers detection of AI-generated text, outlines, journal templates, citation formatting, file analysis and rewriting. This project models the deterministic core of both halves as pure Dafny functions over immutable datatypes, and proves what that core promises.

Frontend:

- `paper.dfy`, `store.dfy` and `actions.dfy` model the store (`frontend/src/lib/store.ts`). Each action is a state transformer: the section and citation lists, the panel flags, the five-deep version history, the writing-session machine, the dismissed tips and the persisted projection. `actions.dfy` gathers the actions into one command type, so that facts about all of them are stated once.
- `format.dfy` models the formatters of `frontend/src/lib/utils.ts`: citations, durations, word counts, progress, the relative "saved" label, and the Markdown and LaTeX export.
- `dates.dfy` holds the ISO 8601 calendar dates and timestamps that the frontend writes, with their read-back.
- `analytics.dfy` models the statistics of the writing-analytics panel.
- `hooks.dfy` models the hooks: keyboard shortcuts, one auto-save step, the leave-page guard and the writing session.
- `sidebar.dfy`, `citation_manager.dfy`, `suggestions.dfy`, `export_modal.dfy`, `file_upload.dfy` and `detector_panel.dfy` model the panels' guards, the records they build and the store updates they make.
- `api.dfy` records which objects and methods the API client (`frontend/src/lib/api.ts`) exports. A panel's call to a name the client does not define fails like a failed request; four panels make such calls (see Findings).
- `routing.dfy` maps each client method to the path it requests, and lists the paths the backend application (`backend/app/main.py`) declares.

Backend:

- `detector.dfy`: the AI-content detector.
- `brainstorm.dfy`: the outline tables.
- `templates.dfy`: the journal template registry.
- `citation_service.dfy`: the citation formatter and the record shaped from a fetched DOI work.
- `file_analysis.dfy`: the uploaded-file analysis.
- `humanization.dfy`: the humanizer's change summary.
- `schemas.dfy`: the request and response schemas.
- `request_bodies.dfy`: two request bodies as JSON objects, checked against `DisclosureRequest` and `ExportRequest`.
- `config.dfy`: the CORS origin list.

`strings.dfy`, `numbers.dfy` and `wrappers.dfy` are shared helpers. They cover splitting, joining, trimming, words, case and decimal printing; exact integer forms of the sources' floating-point rounding; and `Result`/`Option`.

The clock, generated ids, backend answers, file decoders and the detector's regular-expression matches are all parameters. Where the code raises or refuses, the model returns an error value.

## Model

| member | source | states |
|---|---|---|
| Strings.Lower | frontend/src/lib/utils.ts:125 | lower-casing keeps the length and lower-cases every character |
| Strings.LowerIdempotent | frontend/src/lib/utils.ts:125 | lower-casing twice is lower-casing once |
| Strings.Trim | frontend/src/components/AIDetectorPanel.tsx:40 | the trimmed string is a slice of the input with only whitespace before and after it, and it neither starts nor ends with whitespace (which fixes the slice); it is empty exactly when the input is blank |
| Strings.TrimSlices | frontend/src/components/AIDetectorPanel.tsx:40 | removing leading and then trailing whitespace leaves a slice of the text with only whitespace cut off on either side |
| Strings.TrimInside | backend/app/services/detector_service.py:129 | stripping a slice of a text leaves a smaller slice of the same text, with only whitespace between them on either side |
| Strings.TrimFixedIffStripped | frontend/src/components/AIDetectorPanel.tsx:47 | trimming leaves a string unchanged exactly when it has no surrounding whitespace |
| Strings.SplitAt | backend/app/services/file_analysis_service.py:72 | splitting on a character gives one more piece than occurrences, none holding the separator |
| Strings.JoinSplit | backend/app/services/file_analysis_service.py:72 | joining the pieces with the separator gives back the string |
| Strings.SplitJoin | backend/app/services/file_analysis_service.py:72 | splitting a join of separator-free pieces gives back the pieces |
| Strings.SplitTrimJoin | frontend/src/components/AIDetectorPanel.tsx:47 | splitting a comma join of stripped, comma-free items and trimming each piece gives back the items |
| Strings.WordsCountRuns | frontend/src/lib/utils.ts:66-68 | the number of words equals the number of whitespace-separated runs of other characters |
| Strings.NatToString | backend/app/services/humanization_service.py:118 | a number prints as a non-empty string of decimal digits |
| Strings.ParseNatToString | backend/app/services/humanization_service.py:118 | reading the printed digits back gives the number |
| Strings.NatToStringInjective | backend/app/services/humanization_service.py:118 | distinct numbers print differently |
| Paper.MergeSection | frontend/src/lib/store.ts:209-213 | `{ ...s, ...updates }`: each field present in the update replaces the section's field, each absent field keeps its old value |
| Paper.MergeCitation | frontend/src/lib/store.ts:230-234 | the same spread for a citation, field by field, including the optional `doi` and the `type` |
| Paper.MergeSectionIdempotent | frontend/src/lib/store.ts:212 | spreading the same update twice gives what spreading it once gives |
| Paper.MergeCitationIdempotent | frontend/src/lib/store.ts:233 | the same for citations |
| Paper.CountId | frontend/src/lib/store.ts:221 | the number of entries with an id is at most the list length and is 0 exactly when no entry carries the id |
| Paper.FindFirst | frontend/src/lib/store.ts:281 | `find`: the index returned holds the id and no earlier entry does; no index exactly when no entry holds the id |
| Paper.ReplaceWhere | frontend/src/lib/store.ts:211-213 | `map` with an id test: same length, matching entries transformed, all others unchanged in place |
| Paper.RemoveId | frontend/src/lib/store.ts:221 | `filter(x.id !== id)`: the length drops by the number of matches, no survivor has the id, every non-matching entry survives |
| Paper.RemoveIdConcat | frontend/src/lib/store.ts:239 | filtering distributes over concatenation, so survivors keep their relative order |
| Paper.RemoveIdKeeps | frontend/src/lib/store.ts:221 | removal by id equals the list comprehension keeping every entry whose id differs, in order and with repeats |
| Paper.RemoveAbsentId | frontend/src/lib/store.ts:239 | filtering an id nobody carries leaves the list as it is |
| Paper.RemoveIdIdempotent | frontend/src/lib/store.ts:221 | filtering the same id twice equals filtering it once |
| Paper.ReplaceAbsentId | frontend/src/lib/store.ts:232-233 | mapping over an id nobody carries leaves the list as it is |
| Paper.AsDeclared | frontend/src/components/Sidebar.tsx:40-45 | a section the components build, read through the store's declared shape: same id, its name as the title, same content and word count, no goal |
| Api.Call | frontend/src/lib/api.ts:33-85 | a call to a method the client exports yields whatever the server answers; a call to any other name fails, whatever the server would have said |
| Api.CallSiteNames | frontend/src/lib/api.ts:33-75 | `exportAPI.toDocx`, `detectionAPI.detect`, `detectionAPI.generateDisclosure`, `fileAPI.exportFile` and `templateAPI.getByFormat` are not defined; `exportAPI.docx`, `detectorAPI.detect`, `detectorAPI.generateDisclosure`, `exportAPI.file` and `templateAPI.getByName` are |
| Routing.RoutesFollowMethods | frontend/src/lib/api.ts:33-85 | a method has a request path exactly when the client defines it |
| Routing.ServedMethods | backend/app/main.py:49-164 | the backend declares routes for the detector, template and Word-export requests, and none for the file export, upload, humanize, model-settings and citation requests |
| Store.TogglePanel | frontend/src/lib/store.ts:246-255 | a `toggleX` action flips the flag of its own panel and of no other |
| Store.UpdateSection | frontend/src/lib/store.ts:209-214 | only `sections` changes; its length is kept; sections with the id get the merged value, the others stay put |
| Store.AddSection | frontend/src/lib/store.ts:216-217 | only `sections` changes: the old list followed by the new section, with no check that its id is new |
| Store.DeleteSection | frontend/src/lib/store.ts:219-222 | only `sections` changes: every section with the id leaves, every other one stays, and the survivors are the filtered list in their original order |
| Store.UpdateCitation | frontend/src/lib/store.ts:230-235 | only `citations` changes; its length is kept; citations with the id get the merged value, the others stay put |
| Store.AddCitation | frontend/src/lib/store.ts:227-228 | only `citations` changes: the old list followed by the new citation |
| Store.DeleteCitation | frontend/src/lib/store.ts:237-240 | only `citations` changes: every citation with the id leaves, every other one stays, and the survivors are the filtered list in their original order |
| Store.UpdateUnknownSection | frontend/src/lib/store.ts:209-214 | an update for an id no section carries leaves the whole store identical |
| Store.UpdateUnknownCitation | frontend/src/lib/store.ts:230-235 | the same for citations |
| Store.UpdateSectionTwice | frontend/src/lib/store.ts:209-214 | repeating an update that keeps the id is the same as applying it once |
| Store.DeleteAfterAddSection | frontend/src/lib/store.ts:216-222 | deleting the id of a section just added gives what deleting it before the add gives |
| Store.AddThenDeleteNewSection | frontend/src/lib/store.ts:216-222 | adding a section with an unused id and then deleting it restores the store exactly |
| Store.DeleteAfterAddCitation | frontend/src/lib/store.ts:227-240 | deleting the id of a citation just added gives what deleting it before the add gives |
| Store.DeleteSectionTwice | frontend/src/lib/store.ts:219-222 | deleting the same id twice equals deleting it once |
| Store.Toggle | frontend/src/lib/store.ts:246-255 | a panel toggle changes only the panel flags, flipping one of them |
| Store.ToggleTwice | frontend/src/lib/store.ts:246-255 | toggling the same panel twice is the identity on the store |
| Store.ToggleDarkMode | frontend/src/lib/store.ts:257 | only `darkMode` changes, and it always changes |
| Store.ToggleDarkModeTwice | frontend/src/lib/store.ts:257 | toggling the theme twice gives back the same state |
| Store.DismissTip | frontend/src/lib/store.ts:319-322 | only `dismissedTips` changes, by appending the id |
| Store.ResetTips | frontend/src/lib/store.ts:324 | only `dismissedTips` changes, and afterwards no tip id counts as dismissed |
| Store.ResetAfterDismiss | frontend/src/lib/store.ts:319-324 | a reset cancels any earlier dismissal, and resetting twice is the same as once |
| Store.DismissTwiceKeepsDuplicates | frontend/src/lib/store.ts:319-322 | dismissing one id twice stores it twice: there is no de-duplication |
| Store.Take | frontend/src/lib/store.ts:275 | `slice(0, n)`: the first `min(len, n)` entries in order |
| Store.SaveVersion | frontend/src/lib/store.ts:266-277 | only `versions` changes: the snapshot of title and sections comes first, then the old history cut so at most 5 remain |
| Store.FindVersion | frontend/src/lib/store.ts:281 | `versions.find`: the first version with the id, or none when no version has it |
| Store.RestoreVersion | frontend/src/lib/store.ts:279-288 | only title and sections change, taken from the first version with the id; an unknown id changes nothing |
| Store.RestoreLatestSnapshot | frontend/src/lib/store.ts:266-288 | restoring `v-<now>` while that snapshot is newest brings back the title and sections saved at `now` |
| Store.RestoreKeepsBibliography | frontend/src/lib/store.ts:283-286 | restoring never touches citations, abstract, authors, keywords or the history |
| Store.SnapshotAt | frontend/src/lib/store.ts:275 | in a run of saves, the `i`-th snapshot from the front is the one taken at the `i`-th save from the end |
| Store.SaveAllVersions | frontend/src/lib/store.ts:266-277 | after a run of saves only `versions` has changed: the new snapshots newest first, then the old history, cut to 5 |
| Store.LastFiveSaves | frontend/src/lib/store.ts:275 | however many saves, at most 5 versions remain, and after 5 or more saves they are exactly the last 5, newest first |
| Store.StartSession | frontend/src/lib/store.ts:290-295 | only the session start and the word counter change; the session counts as running exactly when the start instant is not 0 |
| Store.UpdateSessionWords | frontend/src/lib/store.ts:315-317 | only the session word counter changes, to the value given |
| Store.UpdateSessionWordsLastWins | frontend/src/lib/store.ts:315-317 | the counter is overwritten, not added to: two updates equal the second alone, and an update never starts or stops a session |
| Store.EndSession | frontend/src/lib/store.ts:297-313 | with a truthy start it prepends one record (today, the words, the elapsed time, no AI use) and goes idle; with `null` or `0` it does nothing |
| Store.SessionCycle | frontend/src/lib/store.ts:290-317 | start, word update, end records exactly one session with the last word total and the elapsed time |
| Store.SessionStartedAtZeroIsLost | frontend/src/lib/store.ts:299 | a session started at instant 0 is never recorded, because 0 is falsy |
| Store.EndSessionTwice | frontend/src/lib/store.ts:297-313 | ending twice records one session only |
| Store.Rehydrate | frontend/src/lib/store.ts:326-345 | rehydration restores exactly the persisted fields and leaves every transient field at its initial value |
| Store.ReloadRoundTrip | frontend/src/lib/store.ts:329-345 | a reload keeps the 15 `partialize` fields and resets the panels, active section, saving flag, AI results and session counters |
| Store.ReloadSeesOnlyPersisted | frontend/src/lib/store.ts:329-345 | two stores that agree on the persisted fields reload to the same state |
| Store.TransientFieldsNotPersisted | frontend/src/lib/store.ts:329-345 | changing any of the eleven fields `partialize` leaves out, all at once or some of them, does not change what is persisted |
| Actions.Apply | frontend/src/lib/store.ts:202-324 | no action changes `paperId` |
| Actions.TransientKeepsPersisted | frontend/src/lib/store.ts:329-345 | an action on fields `partialize` leaves out (active section, template data, AI results, uploaded file, panels, saving flag, model list and provider, session start and words) never changes what a reload restores |
| Actions.TitleWriters | frontend/src/lib/store.ts:202-324 | only `setTitle` and `restoreVersion` change the title |
| Actions.SectionWriters | frontend/src/lib/store.ts:202-324 | only the five section actions and `restoreVersion` change the sections |
| Actions.SessionLogWriters | frontend/src/lib/store.ts:297-313 | only `endSession` changes the session log, and only by prepending one record |
| Actions.ApplyKeepsVersionBound | frontend/src/lib/store.ts:266-277 | no action lets the history grow past five versions |
| Actions.ApplyKeepsNoAi | frontend/src/lib/store.ts:297-313 | no action records AI assistance in the session log |
| Actions.ApplyKeepsGood | frontend/src/lib/store.ts:275 | every action keeps the history at 5 versions or fewer and every recorded session's AI use at 0 |
| Actions.ApplyAllKeepsGood | frontend/src/lib/store.ts:202-324 | the same holds after any sequence of actions |
| Actions.Reachable | frontend/src/lib/store.ts:151-324 | in every state reachable from the initial store, at most 5 versions are kept and the recorded AI use is 0 |
| Analytics.SumConcat | frontend/src/components/WritingAnalytics.tsx:11-16 | the reference sum is additive over concatenation |
| Analytics.SumNonNegative | frontend/src/components/WritingAnalytics.tsx:11 | a sum of non-negative terms is non-negative |
| Analytics.Reduce | frontend/src/components/WritingAnalytics.tsx:11-16 | the left-to-right `reduce` from 0 computes the reference sum |
| Analytics.TotalWords | frontend/src/components/WritingAnalytics.tsx:11 | the total words are the sum of the section word counts and never negative |
| Analytics.AverageWords | frontend/src/components/WritingAnalytics.tsx:15 | 0 without sessions; otherwise the words written divided by the session count, rounded half up as `Math.round` does |
| Analytics.AiUsageZero | frontend/src/components/WritingAnalytics.tsx:16 | when no session records AI assistance the AI-usage total is 0 |
| Analytics.InsertDescending | frontend/src/components/WritingAnalytics.tsx:21 | inserting a day keeps the list strictly newest first and holds exactly the old days and the new one |
| Analytics.DistinctDescending | frontend/src/components/WritingAnalytics.tsx:21 | `[...new Set(dates)].sort().reverse()`: strictly newest first, and holding exactly the days that occur |
| Analytics.Streak | frontend/src/components/WritingAnalytics.tsx:18-33 | with no session after today, the streak is the length of the run of consecutive days ending today: every day of the run has a session and the day before it has none; a session dated after today makes the streak 0 |
| Analytics.StreakEnds | frontend/src/components/WritingAnalytics.tsx:25-33 | once the walk stops at `n`, day `today - n` has no session |
| Analytics.WalkStops | frontend/src/components/WritingAnalytics.tsx:25-33 | where the walk over the distinct days stops: at 0 when a day lies after today, otherwise after the last day of the unbroken run ending today |
| Analytics.MostEdited | frontend/src/components/WritingAnalytics.tsx:35-39 | the first section with the largest word count, or "None" with 0 words when there are no sections |
| Format.StyleOf | frontend/src/lib/utils.ts:125 | a style selects the IEEE, APA or MLA branch exactly when its lower-cased name is `ieee`, `apa` or `mla` |
| Format.FormatCitation | frontend/src/lib/utils.ts:124-135 | IEEE is `[id] ` followed by the default form; APA is `A (Y). T. J.`; MLA is `A. "T." J, Y.`; an unknown style gives the default form; every style but IEEE starts with the author; every entry ends with a full stop |
| Format.FormatCitationCaseInsensitive | frontend/src/lib/utils.ts:125 | the style name is matched without regard to case |
| Format.UpperIeeeIsIeee | frontend/src/lib/utils.ts:125-127 | the style "IEEE" written in capitals selects the IEEE template |
| Format.FormatCitationIeeeExample | frontend/src/lib/utils.ts:126-127 | the entry with author A, title T, journal J, year Y and id 1 is `[1] A, "T," J, Y.` in IEEE style |
| Format.FormatCitationApaExample | frontend/src/lib/utils.ts:128-129 | the same entry is `A (Y). T. J.` in APA style |
| Format.FormatCitationMlaExample | frontend/src/lib/utils.ts:130-131 | the same entry is `A. "T." J, Y.` in MLA style |
| Format.FormatTime | frontend/src/lib/utils.ts:85-93 | hours and the minutes past the hour from one hour on, whole minutes from one minute on, whole seconds below that |
| Format.FormatTimeHoursExample | frontend/src/lib/utils.ts:85-93 | 5400000 ms is `1h 30m` |
| Format.FormatTimeMinutesExample | frontend/src/lib/utils.ts:85-93 | 125000 ms is `2m` |
| Format.FormatTimeSecondsExample | frontend/src/lib/utils.ts:85-93 | 59999 ms is `59s` |
| Format.AgeOf | frontend/src/lib/utils.ts:11-17 | the four thresholds (a minute, an hour, a day, a week) split elapsed time into disjoint bands, and each count is the whole number of units elapsed |
| Format.FormatDate | frontend/src/lib/utils.ts:8-20 | `just now` under a minute, `Nm ago`, `Nh ago`, `Nd ago` in the three bands, the locale date from a week on |
| Format.FormatDateShort | frontend/src/lib/utils.ts:14-17 | every relative label is at most eight characters long |
| Format.CountWords | frontend/src/lib/utils.ts:66-68 | the number of maximal runs of non-space characters, and 0 exactly when the text is blank |
| Format.BlankNoRuns | frontend/src/lib/utils.ts:67 | a text has no word runs exactly when it is blank |
| Format.CalculateProgress | frontend/src/lib/utils.ts:74-77 | 0 without a target; never above 100; exactly 100 once `current/target` rounds to 100 percent or more; otherwise the percentage rounded half up |
| Format.ProgressColor | frontend/src/lib/utils.ts:79-83 | red below 50, yellow from 50 below 80, green from 80 |
| Format.ProgressColorMonotone | frontend/src/lib/utils.ts:79-83 | more progress never gives a lower colour on the scale red, yellow, green |
| Format.BlocksConcat | frontend/src/lib/utils.ts:143-145 | the section blocks of a concatenation are the concatenation of the blocks |
| Format.ExportMarkdown | frontend/src/lib/utils.ts:137-148 | the loop's output starts with the title heading and is the header followed by one block per section in order |
| Format.ExportLatex | frontend/src/lib/utils.ts:150-167 | the loop's output starts with the document class, ends with `\end{document}`, and is the preamble, one `\section` block per section in order, and the footer |
| Format.MarkdownAppendSection | frontend/src/lib/utils.ts:143-147 | a section added at the end adds its block at the end of the Markdown |
| Format.LatexAppendSection | frontend/src/lib/utils.ts:160-164 | a section added at the end puts its block just before `\end{document}` |
| Hooks.ShortcutActions | frontend/src/lib/hooks.ts:32-53 | with Ctrl or Cmd held, `s` dispatches a save, `e` the export toggle and `/` the shortcut-list toggle; anything else dispatches nothing; at most one fires |
| Hooks.StepsAt | frontend/src/lib/hooks.ts:36-51 | each dispatched action is taken at the same clock reading, in order |
| Hooks.ShortcutDispatch | frontend/src/lib/hooks.ts:32-53 | the key handler's effect on the store is a version save, the export toggle, the shortcut-list toggle, or nothing when no shortcut matched |
| Hooks.FreshSaveLabel | frontend/src/lib/hooks.ts:15 | the label `formatDate(new Date())` gives right after saving is `just now` |
| Hooks.AutoSave | frontend/src/lib/hooks.ts:10-18 | one tick as written: a version is saved at the instant the timer fires, `lastSaved` becomes the text `just now`, and the saving flag is off again |
| Hooks.AutoSaveDispatch | frontend/src/lib/hooks.ts:10-18 | dispatching the tick's four store actions one by one gives that state |
| Hooks.BlocksUnload | frontend/src/lib/hooks.ts:62-71 | the page warns exactly when `lastSaved` parses as a date more than a minute before now; an unparsable value compares as `NaN` and never warns |
| Hooks.RelativeLabelNeverBlocks | frontend/src/lib/hooks.ts:64-67 | no relative label `formatDate` produces parses as a date, so such a `lastSaved` never warns |
| Hooks.InitialNeverBlocks | frontend/src/lib/hooks.ts:64-67 | the initial empty `lastSaved` never warns |
| Hooks.AutoSaveGuardNeverFires | frontend/src/lib/hooks.ts:15 | after an auto-save the leave-page warning never fires, however long the user waits |
| Hooks.AutoSaveGuardCounterexample | frontend/src/lib/hooks.ts:67 | two minutes after an auto-save the warning still does not fire |
| Hooks.AutoSaveStamped | frontend/src/lib/hooks.ts:10-18 | the tick with `lastSaved` set to the save instant as ISO text: the version is saved and the saving flag is off |
| Hooks.StampedGuardFiresAfterAMinute | frontend/src/lib/hooks.ts:60-71 | with the instant stored, the warning fires exactly when more than a minute has passed since the save |
| Hooks.SyncSessionWords | frontend/src/lib/hooks.ts:89-92 | the session counter receives the sum of the section word counts and nothing else changes |
| Hooks.Mount | frontend/src/lib/hooks.ts:78-92 | mounting starts the session now and sets its counter to the paper's total words; nothing else changes |
| Hooks.SessionRecordsTotalNotDelta | frontend/src/lib/hooks.ts:78-92 | the recorded session carries the paper's total at the last sync, not the words written during the session |
| Dates.DaysInMonth | frontend/src/lib/store.ts:302 | every month of the calendar behind `toISOString()` has 28 to 31 days |
| Dates.MonthsFillYear | frontend/src/lib/store.ts:302 | the twelve months fill the year exactly, leap years included |
| Dates.DaysBeforeNextYear | frontend/src/lib/store.ts:302 | the day count up to a year grows by that year's length |
| Dates.DaysBeforeYearMonotone | frontend/src/lib/store.ts:302 | an earlier year ends no later than a later year starts |
| Dates.DaysBeforeMonthMonotone | frontend/src/lib/store.ts:302 | an earlier month ends no later than a later month of the same year starts |
| Dates.EpochIsDayZero | frontend/src/lib/store.ts:302 | 1970-01-01 is day 0 |
| Dates.DayNumberOrder | frontend/src/components/WritingAnalytics.tsx:21 | a date before another has a smaller day number, so day numbers sort as the ISO date strings do |
| Dates.DayNumberInjective | frontend/src/components/WritingAnalytics.tsx:21 | distinct valid dates have distinct day numbers, so the `Set` of dates and the set of day numbers have the same size |
| Dates.PadDigits | frontend/src/lib/store.ts:270 | a zero-padded field has exactly the width asked for and only digits |
| Dates.ParsePadDigits | frontend/src/lib/hooks.ts:64 | reading back a padded field gives the number when it fits the width |
| Dates.FormatIsoDate | frontend/src/lib/store.ts:302 | the date part of `toISOString()` is ten characters |
| Dates.ParseIsoDate | frontend/src/lib/hooks.ts:64 | a text read as a bare date is ten characters and names a real calendar day of a four-digit year |
| Dates.ParseDigitsBound | frontend/src/lib/hooks.ts:64 | `k` digits read a number below `10^k` |
| Dates.ParseFormatIsoDate | frontend/src/lib/store.ts:302 | writing a date and reading it back gives the date |
| Dates.FormatTimeText | frontend/src/lib/store.ts:270 | the time part `THH:MM:SS.sssZ` is fourteen characters |
| Dates.ParseTimeText | frontend/src/lib/hooks.ts:64 | a time part that is read names a real time of day |
| Dates.ParseFormatTimeText | frontend/src/lib/store.ts:270 | writing a time of day and reading it back gives it |
| Dates.FormatTimestamp | frontend/src/lib/store.ts:270 | `toISOString()` writes 24 characters |
| Dates.ParseTimestamp | frontend/src/lib/hooks.ts:64 | of the texts the app writes, the 10-character date reads as UTC midnight and the 24-character timestamp as its instant; the model reads no other length (JavaScript reads more: see Left out) |
| Dates.ParseFormatTimestamp | frontend/src/lib/hooks.ts:64 | reading back a written timestamp gives its milliseconds since the epoch |
| Sidebar.TemplateChange | frontend/src/components/Sidebar.tsx:35-37 | the chosen option becomes the template and nothing else changes, so of the persisted fields only the template differs |
| Sidebar.NewSection | frontend/src/components/Sidebar.tsx:40-45 | a new section has the id `section-<now>`, the given title, no content, no words and no goal |
| Sidebar.AddSectionAndActivate | frontend/src/components/Sidebar.tsx:46-47 | the new section is appended and becomes the active one; nothing else changes |
| Sidebar.HandleAddSection | frontend/src/components/Sidebar.tsx:39-48 | the `+` button appends one blank section named "New Section" and activates it |
| Sidebar.AddRecommendedSection | frontend/src/components/Sidebar.tsx:151-163 | a recommended-section button appends a section with that name and activates it (the buttons exist only once template data is loaded, which as written never happens: see Findings) |
| Sidebar.AddedSectionHighlighted | frontend/src/components/Sidebar.tsx:114-127 | after an add the new section is highlighted, and exactly the sections carrying its id are |
| Sidebar.SameInstantDuplicateIds | frontend/src/components/Sidebar.tsx:41 | two adds in the same millisecond give two sections with one id, and deleting that id removes both |
| Sidebar.LoadTemplate | frontend/src/components/Sidebar.tsx:21-33 | only the template data changes: an answer is stored, a failure leaves the store as it was |
| Sidebar.RecommendedNeverShownAsWritten | frontend/src/components/Sidebar.tsx:25 | as written the load never stores anything, so from a fresh store the "Recommended Sections" list never appears, whatever the server would answer |
| Sidebar.LoadByNameFollowsServer | frontend/src/components/Sidebar.tsx:21-33 | with `templateAPI.getByName` the answer is stored and the list can appear |
| Templates.AllTemplates | backend/app/services/template_service.py:151-153 | the six templates, in the dictionary's insertion order |
| Templates.TemplateNames | backend/app/services/template_service.py:161-163 | the six keys, in the same order |
| Templates.GetTemplate | backend/app/services/template_service.py:155-159 | a key the dictionary holds gives the template stored under it; any other name gives the "not found" error naming it |
| Templates.RegistryKeyedByName | backend/app/services/template_service.py:11-149 | each key is the `name` of the template stored under it, and no key occurs twice |
| Templates.NamesMatchSidebar | frontend/src/components/Sidebar.tsx:63-68 | the registry's keys are exactly the sidebar's six options, in the same order |
| Templates.GetTemplateByName | backend/app/services/template_service.py:155-159 | a successful lookup returns the template whose name is the key asked for |
| Templates.NamesFollowTemplates | backend/app/services/template_service.py:151-163 | the names and the templates are listed in the same order, six of each |
| Templates.GetTemplateAt | backend/app/services/template_service.py:155-159 | looking up the key of any entry finds that entry's template |
| Templates.Limits | backend/app/services/template_service.py:11-149 | the word and abstract limits of the six journals; APA 7 and MLA 9 set no word limit, MLA 9 no abstract limit |
| Templates.SectionsOpenWithAbstract | backend/app/services/template_service.py:11-149 | every template lists sections, all but MLA 9 open with "Abstract", and MLA 9 opens with "Introduction" |
| Schemas.ParseResearchType | backend/app/models/schemas.py:7-13 | exactly the five wire values parse, each to the member carrying it |
| Schemas.ResearchTypeRoundTrip | backend/app/models/schemas.py:7-13 | parsing a member's value gives the member back |
| Schemas.ResearchTypeCount | backend/app/models/schemas.py:7-13 | five members, each listed once |
| Schemas.ParseAILevel | backend/app/models/schemas.py:16-20 | exactly `low`, `medium` and `high` parse |
| Schemas.AILevelRoundTrip | backend/app/models/schemas.py:16-20 | parsing a level's value gives the level back |
| Schemas.AILevelCount | backend/app/models/schemas.py:16-20 | three levels, each listed once |
| Schemas.ParseWritingAction | backend/app/models/schemas.py:23-30 | exactly the six action values parse |
| Schemas.WritingActionRoundTrip | backend/app/models/schemas.py:23-30 | parsing an action's value gives the action back |
| Schemas.WritingActionCount | backend/app/models/schemas.py:23-30 | six actions, each listed once |
| Schemas.ValidateDetection | backend/app/models/schemas.py:50-52 | a detection request is accepted exactly when its text is non-empty, and carries that text |
| Schemas.ValidateBrainstorm | backend/app/models/schemas.py:74-78 | accepted exactly when topic and field are non-empty and the research type is one of the five values; an empty topic is the error reported first |
| Schemas.ValidateWritingImprove | backend/app/models/schemas.py:90-93 | accepted exactly when the text is non-empty and the action is one of the six values |
| Schemas.ValidateChat | backend/app/models/schemas.py:113-116 | accepted exactly when the message is non-empty; the optional context is kept as sent |
| RequestBodies.ValidateDisclosure | backend/app/models/schemas.py:63-66 | a body is accepted exactly when `ai_tools_used` is a list of strings and `purpose` a string, and then carries them; without `ai_tools_used` it is refused for that field |
| RequestBodies.ValidateDocxExport | backend/app/models/schemas.py:124-132 | a body is accepted exactly when every declared field has its declared shape and `ai_disclosure` is absent or a string; then it carries the fields; a string `authors` after a valid title is refused as the wrong type |
| Strings.SplitTrim | backend/app/config.py:21-24 | one piece more than there are separators; piece i is piece i of the split with its surrounding whitespace removed, so it contains neither the separator nor whitespace at either end |
| Config.CorsOriginsRoundTrip | backend/app/config.py:21-24 | parsing a comma-joined list of clean origins gives the list back |
| Config.DefaultOrigins | backend/app/config.py:14 | the default setting allows the two local development servers, in order |
| Config.TrailingCommaKeepsEmptyOrigin | backend/app/config.py:24 | a space after a comma is stripped and a trailing comma adds an empty origin, which is kept |
| ExportModal.CanExportIffNotBlank | frontend/src/components/ExportModal.tsx:26-29 | the export proceeds exactly when the title is not blank |
| ExportModal.EnabledButtonPassesGuard | frontend/src/components/ExportModal.tsx:181 | an enabled export button (not loading, title not blank) always passes the guard |
| ExportModal.Payload | frontend/src/components/ExportModal.tsx:33-41 | one entry per section, in order, carrying its name and content; the disclosure is sent exactly when its checkbox is on; title, authors, abstract, keywords and template are the store's |
| ExportModal.PayloadIgnoresBookkeeping | frontend/src/components/ExportModal.tsx:38 | sections with the same names and contents give the same request: ids, word counts and goals are not sent |
| ExportModal.SafeChar | frontend/src/components/ExportModal.tsx:49 | a letter or digit is kept and every other character becomes `_` |
| ExportModal.SanitizeTitle | frontend/src/components/ExportModal.tsx:49 | same length; position by position, a letter or digit is kept and anything else becomes `_`; so only letters, digits and `_` remain and a character survives exactly when it is a letter, digit or `_` |
| ExportModal.SanitizeIdempotent | frontend/src/components/ExportModal.tsx:49 | sanitising twice gives what sanitising once gives |
| ExportModal.DownloadName | frontend/src/components/ExportModal.tsx:49 | the file name is the sanitised title followed by `.docx` |
| ExportModal.HandleExport | frontend/src/components/ExportModal.tsx:25-63 | a blank title is refused with its alert and nothing else; a successful request downloads the file and closes the dialog; a failed one leaves the store as it was and downloads nothing (as written the request never succeeds: see Findings) |
| ExportModal.SuccessfulExportClosesDialog | frontend/src/components/ExportModal.tsx:55-56 | a successful export from the open dialog closes it and changes nothing a reload restores (reachable only with the corrected request: see Findings) |
| ExportModal.ExportWithDocxFollowsServer | frontend/src/components/ExportModal.tsx:43-56 | with `exportAPI.docx`, a titled export downloads the file exactly when the server answers, and an answer closes the dialog; the answer is a parameter, and this repository's backend refuses the body (DocxBodyRefused) |
| ExportModal.ExportBody | frontend/src/components/ExportModal.tsx:33-41 | the posted JSON carries the title, authors and keywords as the store's strings, and the disclosure key exactly when the box is checked |
| ExportModal.DocxBodyRefused | backend/app/models/schemas.py:124-132 | every export body the dialog builds fails `ExportRequest` validation at `authors`, a string where a list is declared |
| ExportModal.ExportFailsAsWritten | frontend/src/components/ExportModal.tsx:43 | as written a titled export always ends in the failure alert: nothing is downloaded, the store is unchanged and the dialog stays open |
| CitationManager.BuildCitation | frontend/src/components/CitationManager.tsx:55-59 | the new citation gets the fresh id and the lower-cased template id as its type |
| CitationManager.BuildKeepsForm | frontend/src/components/CitationManager.tsx:57 | the citation carries every form field unchanged: reading them back gives the form |
| CitationManager.Submit | frontend/src/components/CitationManager.tsx:47-65 | a form missing author, title or year is refused with its toast and nothing changes; otherwise the citation is added, the form is cleared and hidden, and the success toast shows |
| CitationManager.SubmitAppends | frontend/src/components/CitationManager.tsx:55-61 | an accepted submit appends exactly one citation, holding the form's fields, the fresh id and the lower-cased template id, and changes nothing else in the store |
| CitationManager.BlankButNonEmptyAccepted | frontend/src/components/CitationManager.tsx:50 | fields holding only spaces pass the required-field check |
| CitationManager.SubmittedTypes | frontend/src/components/CitationManager.tsx:58 | under the sidebar's options the stored type is the template id itself, and only `ieee` is one of the declared `ieee`, `apa`, `mla` |
| CitationManager.TemplateIdStyles | frontend/src/components/CitationManager.tsx:345 | formatted under a template id, only `ieee` reaches a style of its own; the other five ids fall through to the default form |
| CitationManager.FetchFromDoi | frontend/src/components/CitationManager.tsx:22-45 | refused exactly when the DOI is empty; a failed look-up leaves the form; a successful one overwrites author, title, journal and year (missing ones with "") and keeps the DOI |
| CitationManager.FetchIdempotent | frontend/src/components/CitationManager.tsx:32-38 | merging the same response twice gives what merging it once gives |
| CitationManager.BibliographyEntries | frontend/src/components/CitationManager.tsx:345 | one entry per citation, in list order, the i-th numbered `[i+1]` |
| CitationManager.BibliographyAppend | frontend/src/components/CitationManager.tsx:345 | adding a citation adds one entry after a blank line at the end, numbered one past the last |
| CitationManager.BibliographySingle | frontend/src/components/CitationManager.tsx:345 | a single citation gives `[1] ` and its formatted text |
| DetectorPanel.CurrentSection | frontend/src/components/AIDetectorPanel.tsx:17 | the first section whose id is the active one; none when no section is active or none carries that id |
| DetectorPanel.HandleDetect | frontend/src/components/AIDetectorPanel.tsx:21-37 | a request is sent exactly when the active section has non-empty content, and it carries that content; a refusal alerts and changes nothing; a response is stored as the detection result; a failure alerts and changes nothing (as written every request fails: see Findings) |
| DetectorPanel.DetectWritesOnlyResult | frontend/src/components/AIDetectorPanel.tsx:30 | a detection writes only the store's detection result, so nothing a reload restores changes |
| DetectorPanel.ToolListRoundTrip | frontend/src/components/AIDetectorPanel.tsx:47 | a clean comma-joined list comes back as its items |
| DetectorPanel.ToolsTextSplits | backend/app/services/detector_service.py:194 | the backend joins the tools with ", ": splitting that text at commas and trimming, as the panel does, gives back the list of trimmed, comma-free tools |
| DetectorPanel.EmptyToolsKept | frontend/src/components/AIDetectorPanel.tsx:47 | a doubled or trailing comma yields an empty tool name, which is kept |
| DetectorPanel.GenerateDisclosure | frontend/src/components/AIDetectorPanel.tsx:39-57 | a request is sent exactly when both fields are non-blank and carries only the tool list; a statement is shown and the form closed; a refusal or failure alerts and leaves the form (as written every request fails: see Findings) |
| DetectorPanel.PurposeNotSent | frontend/src/components/AIDetectorPanel.tsx:48 | the purpose is checked but never sent: forms differing only in a non-blank purpose send the same request |
| DetectorPanel.GenerateNew | frontend/src/components/AIDetectorPanel.tsx:256-259 | "Generate New" clears the statement and reopens the form, keeping the tools and purpose |
| DetectorPanel.GenerateNewAfterSuccess | frontend/src/components/AIDetectorPanel.tsx:39-57 | after a successful request, "Generate New" gives back the form as it was, open and without text (reachable only with the corrected client name: see Findings) |
| DetectorPanel.DetectorPanelFailsAsWritten | frontend/src/components/AIDetectorPanel.tsx:6-57 | as written a detection never stores a result and always alerts, and a disclosure request always leaves the form as it was, whatever the server would answer |
| DetectorPanel.DetectorAPIFollowsServer | frontend/src/components/AIDetectorPanel.tsx:21-57 | with the exported `detectorAPI`, an answered detection stores its result and an answered disclosure request shows the statement and closes the form; the answers are parameters, and this repository's backend refuses the disclosure body (DisclosureBodyRefused) |
| DetectorPanel.DisclosureBody | frontend/src/lib/api.ts:40-41 | the posted JSON carries the tools under `ai_tools`, and neither `ai_tools_used` nor `purpose` |
| DetectorPanel.DisclosureBodyRefused | backend/app/models/schemas.py:63-66 | whatever tool list the panel sends, the disclosure body fails `DisclosureRequest` validation: `ai_tools_used` is missing |
| DetectorPanel.LevelColor | frontend/src/components/AIDetectorPanel.tsx:59-70 | `low`, `medium` and `high` each get a colour of their own, and every other string gets the neutral one |
| Suggestions.ActiveSectionName | frontend/src/components/SmartSuggestionsPanel.tsx:84-85 | the lower-cased title of the first section with the active id (no earlier section carries it), or "" when no section is active or none has that id; this reads the `title` the store declares (see Findings for the sections the components build) |
| Suggestions.LookupTipsAsWritten | frontend/src/components/SmartSuggestionsPanel.tsx:86 | as written: a table key gives its tips, any other name the introduction tips, except that `constructor` and `__proto__` reach `Object.prototype` and the later `.map` throws |
| Suggestions.PrototypeTitleBreaksPanel | frontend/src/components/SmartSuggestionsPanel.tsx:84-86 | an active section titled "Constructor" makes the panel throw instead of showing the introduction tips |
| Suggestions.ActiveSectionNameAsWritten | frontend/src/components/SmartSuggestionsPanel.tsx:84-85 | over the sections the components build, which have no `title`, the panel throws exactly when some section carries the active id; otherwise the name is "" |
| Suggestions.AddedSectionBreaksPanel | frontend/src/components/SmartSuggestionsPanel.tsx:85 | any section added and activated, as the sidebar and the brainstorm panel do, makes the panel throw |
| Suggestions.DeclaredSectionGivesName | frontend/src/components/SmartSuggestionsPanel.tsx:84-85 | read through the store's declared shape, the panel looks up the lower-cased name of the first section carrying the active id |
| Suggestions.TipsFor | frontend/src/components/SmartSuggestionsPanel.tsx:8-52 | the corrected lookup: a table key gives its own tips, every other name the introduction tips; four or five tips either way |
| Suggestions.LookupAgreesOffPrototype | frontend/src/components/SmartSuggestionsPanel.tsx:86 | the written lookup throws exactly on the two prototype names and agrees with the corrected one everywhere else |
| Suggestions.ActiveTips | frontend/src/components/SmartSuggestionsPanel.tsx:84-86 | with no active section the panel shows the introduction tips |
| Suggestions.AfterLastDash | frontend/src/components/SmartSuggestionsPanel.tsx:175 | the text after the last `-` is a dash-free suffix of the id |
| Suggestions.AfterLastDashOf | frontend/src/components/SmartSuggestionsPanel.tsx:175 | the suffix after `name-` is read back when it holds no dash |
| Suggestions.TipIdInjective | frontend/src/components/SmartSuggestionsPanel.tsx:175 | equal tip ids `section-<name>-<index>` have equal names and equal indices, so dismissing one tip hides no other |
| Suggestions.VisibleTips | frontend/src/components/SmartSuggestionsPanel.tsx:174-176 | the indices shown are exactly those below the tip count whose id is not dismissed, in increasing order |
| Suggestions.DismissHidesOneTip | frontend/src/components/SmartSuggestionsPanel.tsx:108-110 | dismissing a tip hides it and no other tip of any section |
| Suggestions.ResetShowsAll | frontend/src/components/SmartSuggestionsPanel.tsx:285 | after a reset every tip of a section is shown again |
| Suggestions.SortedBelowIsRange | frontend/src/components/SmartSuggestionsPanel.tsx:174 | an increasing list holding exactly the numbers below `n` has `n` entries |
| Suggestions.ResetButtonFollowsDismissals | frontend/src/components/SmartSuggestionsPanel.tsx:283 | the reset button shows after any dismissal and is gone after a reset |
| Suggestions.ToggleExpanded | frontend/src/components/SmartSuggestionsPanel.tsx:96-106 | toggling a group flips its own membership and no other |
| Suggestions.ToggleExpandedTwice | frontend/src/components/SmartSuggestionsPanel.tsx:96-106 | toggling a group twice restores the set |
| Suggestions.NextTipIndex | frontend/src/components/SmartSuggestionsPanel.tsx:91 | the next index of the rotating line stays within the four entries and steps by one until it wraps |
| Suggestions.RotationCycles | frontend/src/components/SmartSuggestionsPanel.tsx:62-67 | four ticks bring the rotating line back to where it started |
| FileUpload.AcceptsExamples | frontend/src/components/FileUploadPanel.tsx:24-33 | a listed extension in any case or a listed MIME type is accepted; a PowerPoint file is not |
| FileUpload.HandleFileUpload | frontend/src/components/FileUploadPanel.tsx:20-48 | no file changes nothing; a rejected file only shows the error; an accepted one becomes the panel's file, a returned analysis goes into the store with the success toast, and a failure leaves the store with the error toast |
| FileUpload.UploadNotPersisted | frontend/src/components/FileUploadPanel.tsx:40 | an upload writes nothing a reload restores |
| FileUpload.RunStart | frontend/src/components/FileUploadPanel.tsx:77 | the final run free of `.` and `/` starts where the character before it is one of them |
| FileUpload.ExtensionAtRunStart | frontend/src/components/FileUploadPanel.tsx:77 | a name has at most one extension the pattern can match, at the start of that final run |
| FileUpload.StripExtension | frontend/src/components/FileUploadPanel.tsx:77 | a final `.` followed by one or more characters other than `.` and `/` is removed with them; a name without one is kept whole |
| FileUpload.ExportTitle | frontend/src/components/FileUploadPanel.tsx:77 | the file name without its extension, or "Document" when there is no file or nothing is left; never empty |
| FileUpload.ExportTitleRoundTrip | frontend/src/components/FileUploadPanel.tsx:77 | a file named `base.ext` exports under the title `base` |
| FileUpload.DotBeforeSlashKept | frontend/src/components/FileUploadPanel.tsx:77 | a name whose last dot comes before a `/` is kept whole |
| FileUpload.FileDownloadName | frontend/src/components/FileUploadPanel.tsx:84 | the download name is the title, a dot and the format, and stripping its extension gives the title back |
| FileUpload.StripDotExtension | frontend/src/components/FileUploadPanel.tsx:77 | stripping `base.ext` gives `base` |
| FileUpload.HandleHumanize | frontend/src/components/FileUploadPanel.tsx:50-70 | nothing happens without an analysis; a returned text replaces the panel's humanized text with a success toast; a failure keeps the panel and shows an error toast |
| FileUpload.ExportRequestOf | frontend/src/components/FileUploadPanel.tsx:72-84 | refused exactly when there is neither humanized text nor an analysis; the content is the humanized text or "Original content"; the title is the file's stem; the download name strips back to the title |
| FileUpload.ExportRenamesExtension | frontend/src/components/FileUploadPanel.tsx:76-84 | an uploaded `report.pdf` exported as Word is named `report.docx` (as written the request never succeeds, so nothing is saved: see Findings) |
| FileUpload.HandleFileExport | frontend/src/components/FileUploadPanel.tsx:72-95 | a refused export does nothing; a file is saved exactly when the request passes the guard and succeeds, under the request's download name and with a toast naming the format in capitals; a failure shows the failure toast |
| FileUpload.FileExportFailsAsWritten | frontend/src/components/FileUploadPanel.tsx:79 | as written every export that passes the guard saves nothing and ends in the failure toast |
| FileUpload.FileExportFollowsServer | frontend/src/components/FileUploadPanel.tsx:72-92 | with `exportAPI.file` a file is saved exactly when the server answers, and its name strips back to the uploaded file's stem; the answer is a parameter, and this repository's backend has no route for it (FileExportRouteMissing) |
| FileUpload.FileExportRouteMissing | backend/app/main.py:164 | `exportAPI.file` is defined and posts to `/api/export/file`, a path the backend does not declare |
| FileUpload.DisplayedSuggestions | frontend/src/components/FileUploadPanel.tsx:188 | at most the first five suggestions are listed, in order |
| Detector.WeightedMatchesMonotone | backend/app/services/detector_service.py:79-82 | one more match of any pattern never lowers the weighted count |
| Detector.NonBlankCount | backend/app/services/detector_service.py:100 | exactly the number of pieces with text, i.e. the length of the list of pieces that are not blank |
| Detector.Bonus | backend/app/services/detector_service.py:91-104 | the heuristics add 0, 5 or 10, and nothing when the text has five or fewer `.`-pieces |
| Detector.NormalizedScore | backend/app/services/detector_service.py:107 | the score lies in 0..100; it is 100 exactly when the weighted total reaches a tenth of the word count (at least 10); below that it is the truncated percentage; no matches score 0 |
| Detector.NormalizedScoreMonotone | backend/app/services/detector_service.py:107 | a larger weighted total never gives a lower score |
| Detector.DetermineLevel | backend/app/services/detector_service.py:132-139 | low below 30, medium from 30 below 60, high from 60 |
| Detector.DetermineLevelMonotone | backend/app/services/detector_service.py:132-139 | a higher score never gives a lower level |
| Detector.LevelSuggestions | backend/app/services/detector_service.py:145-174 | two pieces of advice for low, three for medium, four for high |
| Detector.GenerateSuggestions | backend/app/services/detector_service.py:141-181 | the level's advice first, opening with the sentence that states the level, then one line naming the flagged count exactly when some sentences were flagged |
| Detector.SentenceAround | backend/app/services/detector_service.py:123-127 | the sentence runs from just after the last `.` before the match to the first `.` at or after its end, or to the end of the text, with no `.` in between |
| Detector.FindIgnoringCase | backend/app/services/detector_service.py:114-118 | the first position where the phrase occurs with letters compared without case; none exactly when it does not occur |
| Detector.SentenceOf | backend/app/services/detector_service.py:129 | the sentence around the match with its surrounding whitespace stripped: a slice of the text inside the sentence bounds, with only whitespace between it and either bound, empty exactly when the sentence is blank |
| Detector.Clip | backend/app/services/detector_service.py:130 | `[:200]`: the prefix of length min(len, 200), so the whole text when it is short |
| Detector.ExtractContext | backend/app/services/detector_service.py:111-130 | "" when the phrase does not occur; otherwise the clipped, stripped sentence around its first occurrence; never over 200 characters |
| Detector.ContextAt | backend/app/services/detector_service.py:120-130 | the clipped sentence around a match at a given position |
| Detector.FirstThree | backend/app/services/detector_service.py:84 | `matches[:3]`: the first three matches at most |
| Detector.ContextIn | backend/app/services/detector_service.py:87 | the context function bound to one text gives `_extract_context` of that text |
| Detector.Contexts | backend/app/services/detector_service.py:84-87 | one context per phrase, in order |
| Detector.ContextsAppend | backend/app/services/detector_service.py:79-89 | contexts are taken phrase by phrase across patterns |
| Detector.ContextsSnoc | backend/app/services/detector_service.py:84-89 | one more phrase adds its context at the end |
| Detector.DedupSpec | backend/app/services/detector_service.py:88-89 | the flagged list holds each non-empty context exactly once and nothing else |
| Detector.DedupSnoc | backend/app/services/detector_service.py:88-89 | one more context extends the flagged list only when it is non-empty and new |
| Detector.AddPatternContexts | backend/app/services/detector_service.py:84-89 | the inner loop over one pattern's first three matches extends the de-duplicated list by their contexts |
| Detector.CollectFlagged | backend/app/services/detector_service.py:79-89 | the loop over the patterns gives the de-duplicated contexts of all candidate phrases, in order of first appearance |
| Detector.ContextsShort | backend/app/services/detector_service.py:130 | every context is at most 200 characters |
| Detector.FlaggedSections | backend/app/services/detector_service.py:72-89 | the flagged sentences are distinct, non-empty and at most 200 characters each |
| Detector.Flagged | backend/app/services/detector_service.py:109 | `[:10]`: the first min(n, 10) of the n distinct contexts, each the context of a candidate phrase |
| Detector.Score | backend/app/services/detector_service.py:72-109 | the score of an analysed text lies in 0..100 |
| Detector.Detect | backend/app/services/detector_service.py:38-70 | a text under 50 characters once stripped gets score 0, low, nothing flagged and the short-text note; otherwise the normalised score, the level it implies, at most ten distinct flagged sentences and the level's suggestions; the result always satisfies the response schema |
| Detector.WeightedMatchesNone | backend/app/services/detector_service.py:79-82 | no match of any pattern gives a weighted count of 0 |
| Detector.NoMatchesScoresZero | backend/app/services/detector_service.py:38-109 | a text with no pattern match and no bonus scores 0 and is rated low |
| Detector.ScoreMonotone | backend/app/services/detector_service.py:72-107 | with the same sentence-shape flags, more matches of any pattern never lower the normalised score |
| Detector.DetectMonotone | backend/app/services/detector_service.py:72-109 | more matches of any pattern never lower the score or the level |
| Detector.ToolsText | backend/app/services/detector_service.py:194 | every tool is named; an empty list reads "AI writing assistance tools" |
| Detector.GenerateDisclosure | backend/app/services/detector_service.py:183-206 | the statement opens with the title and the tools, contains the purpose sentence, and ends with the fixed closing sentences |
| Detector.DisclosureNamesEveryTool | backend/app/services/detector_service.py:194-198 | every tool in the request appears in the statement |
| Brainstorm.StructuresTotal | backend/app/services/brainstorm_service.py:11-106 | the structure table has an entry for every research type |
| Brainstorm.StructureShape | backend/app/services/brainstorm_service.py:11-106 | every structure opens with "Abstract", closes with "References", and comes with five methodology points |
| Brainstorm.FillMentions | backend/app/services/brainstorm_service.py:153-193 | every f-string filled with the topic contains the topic |
| Brainstorm.TitleFrames | backend/app/services/brainstorm_service.py:153-193 | four title templates for each research type |
| Brainstorm.Titles | backend/app/services/brainstorm_service.py:153-193 | four title suggestions |
| Brainstorm.TitlesMentionTopic | backend/app/services/brainstorm_service.py:153-193 | every one of the four titles names the topic, whatever the research type |
| Brainstorm.TypePoints | backend/app/services/brainstorm_service.py:203-233 | three type-specific points for each research type |
| Brainstorm.KeyPoints | backend/app/services/brainstorm_service.py:195-234 | six key points: the three base points, then the type's three |
| Brainstorm.KeyPointsShareBase | backend/app/services/brainstorm_service.py:197-201 | all research types share the first three key points, and the first two name the topic |
| Brainstorm.TopicFrames | backend/app/services/brainstorm_service.py:236-246 | six reference-topic templates around the topic |
| Brainstorm.ReferenceTopics | backend/app/services/brainstorm_service.py:236-246 | eight reference topics |
| Brainstorm.ReferenceTopicsMention | backend/app/services/brainstorm_service.py:236-246 | the first six reference topics name the topic and the last two the field |
| Brainstorm.GenerateOutline | backend/app/services/brainstorm_service.py:108-151 | an outline exactly when the table holds the type, built from its structure, methodology points, titles, key points and reference topics; otherwise the unknown-type error |
| Brainstorm.OutlineShape | backend/app/services/brainstorm_service.py:108-151 | every valid research type gets an outline with 4 titles, a structure from the abstract to the references, 6 key points, 5 methodology points and 8 reference topics |
| CitationService.KeysRead | backend/app/services/citation_service.py:59-67 | each template reads the four required fields, the author first; APA reads the year before the title |
| CitationService.FirstMissing | backend/app/services/citation_service.py:58-71 | the first key the record lacks, with every earlier key present; none exactly when all are present |
| CitationService.FormatCitation | backend/app/services/citation_service.py:52-71 | the style is lower-cased; the answer is a formatted reference exactly when the record has author, title, journal and year, and then equals the frontend's reference for the same fields; otherwise the 400 answer naming the first missing field the chosen template reaches |
| CitationService.ToRecord | backend/app/services/citation_service.py:14-16 | a frontend entry sent as the request's citation carries all four required fields and its id |
| CitationService.AgreesWithFrontend | backend/app/services/citation_service.py:59-67 | backend and frontend format every entry identically in every style |
| CitationService.IeeeIdDefault | backend/app/services/citation_service.py:60 | an IEEE reference for a record without an id is numbered "[1]" |
| CitationService.MissingFieldOrder | backend/app/services/citation_service.py:60-71 | a record lacking title and year is refused for the year under APA and for the title under every other style |
| CitationService.Names | backend/app/services/citation_service.py:32 | one "family, given" name per author |
| CitationService.NameParts | backend/app/services/citation_service.py:32 | two parts per author, family then given |
| CitationService.Shown | backend/app/services/citation_service.py:32 | at most the first three authors are named; fewer are all named |
| CitationService.AuthorString | backend/app/services/citation_service.py:31-34 | the first three names joined by ", ", with " et al." appended exactly when there are more than three authors |
| CitationService.NamesJoinParts | backend/app/services/citation_service.py:32 | joining the names equals joining all their family and given parts |
| CitationService.CleanParts | backend/app/services/citation_service.py:32 | the parts of clean names have no comma and no surrounding whitespace |
| CitationService.AuthorStringRoundTrip | backend/app/services/citation_service.py:31-34 | splitting the author string of up to three clean authors on commas and trimming gives back their family and given names in order |
| CitationService.OnlyThreeNamed | backend/app/services/citation_service.py:32-34 | with more than three authors only the first three matter, and the string ends in " et al." |
| CitationService.FirstOr | backend/app/services/citation_service.py:36-37 | the first title when the list has one, "" when the key is absent, an error for an empty list |
| CitationService.YearText | backend/app/services/citation_service.py:38-44 | "" when the date parts are absent, the first number in decimal when present, an error when either list level is empty |
| CitationService.CitationFromWork | backend/app/services/citation_service.py:18-50 | a failed request is the 400 answer with the failure's text; an empty list the 500 answer; otherwise a record with exactly author, title, journal, year and doi, each derived from the work and the doi echoed |
| CitationService.FetchedRecordFormats | backend/app/services/citation_service.py:40-69 | every record the DOI route returns formats in every style, and its doi becomes the entry's doi |
| FileAnalysis.NonBlankParts | backend/app/services/file_analysis_service.py:21-24 | exactly the parts with text: every kept part has text and comes from the input, and every part with text is kept |
| Strings.KeepSnoc | backend/app/services/file_analysis_service.py:73 | filtering a list extended by one element appends that element exactly when it passes, so the filter keeps input order and multiplicity |
| FileAnalysis.NonBlankPartsSnoc | backend/app/services/file_analysis_service.py:21-24 | one more part is appended to the kept list exactly when it has text, so order and repetitions are those of the input |
| FileAnalysis.ExtractText | backend/app/services/file_analysis_service.py:52-68 | the name is refused exactly when its lower-cased form ends in none of .docx, .pdf, .txt; otherwise the matching decoder's output (DOCX paragraphs or PDF pages with text, joined by a blank line, or the decoded text) with its format, and a decoder failure as that decoder's error |
| FileAnalysis.ExtractAgreesWithUploadPanel | backend/app/services/file_analysis_service.py:59-68 | the backend accepts exactly the file names the upload panel accepts by extension |
| FileAnalysis.SplitParagraphsJoin | backend/app/services/file_analysis_service.py:73 | splitting on a blank line gives back the pieces of a blank-line join of pieces that hold no blank line and do not end in a line break |
| FileAnalysis.KeepImages | backend/app/services/file_analysis_service.py:81-84 | the kept images all pass the test, every passing image is kept, and nothing else is |
| FileAnalysis.KeepImagesSnoc | backend/app/services/file_analysis_service.py:81-84 | one more element appends its image exactly when the image passes, so images come out in input order, once per element |
| FileAnalysis.Headings | backend/app/services/file_analysis_service.py:80-84 | a stripped line is listed exactly when it is non-empty, upper case and at most five words long |
| FileAnalysis.HeadingsSnoc | backend/app/services/file_analysis_service.py:80-84 | one more line appends its stripped text exactly when that text is a heading, so headings come in line order, once per line |
| FileAnalysis.HeadingsStripped | backend/app/services/file_analysis_service.py:82-84 | every listed heading has no surrounding whitespace |
| FileAnalysis.EstimatedSections | backend/app/services/file_analysis_service.py:95 | `[:10]`: the first min(n, 10) of the n heading lines |
| FileAnalysis.WordCount | backend/app/services/file_analysis_service.py:76-77 | the backend's word count equals the editor's word count, with whitespace as the model defines it (see Left out) |
| FileAnalysis.AnalyzeStructure | backend/app/services/file_analysis_service.py:70-98 | one more line than line breaks; exactly as many paragraphs as blank-line pieces with text; the editor's word count; the first min(n, 10) of the n heading lines; and an abstract exactly when one of the first twenty lines mentions it in any case |
| FileAnalysis.ExtractedParagraphs | backend/app/services/file_analysis_service.py:21-73 | text extracted from DOCX or PDF parts has as many paragraphs as parts with text, when no part holds a blank line or ends with a line break |
| FileAnalysis.AbstractFirstLine | backend/app/services/file_analysis_service.py:97 | a text whose first line is "Abstract" has an abstract |
| FileAnalysis.TextInjective | backend/app/services/file_analysis_service.py:106-134 | different suggestions have different texts |
| FileAnalysis.When | backend/app/services/file_analysis_service.py:119-120 | the suggestion is listed exactly when its condition holds |
| FileAnalysis.LengthAdvice | backend/app/services/file_analysis_service.py:109-112 | "short" under 2000 words, "long" over 10000, nothing in between |
| FileAnalysis.SentenceAdvice | backend/app/services/file_analysis_service.py:114-117 | "long sentences" above an average of 30 words, "short sentences" below 10, nothing in between |
| FileAnalysis.AiAdvice | backend/app/services/file_analysis_service.py:126-129 | a revision request for a high or a medium detection level, nothing for low |
| FileAnalysis.Suggestions | backend/app/services/file_analysis_service.py:100-136 | between three and eight suggestions |
| FileAnalysis.SuggestionsListed | backend/app/services/file_analysis_service.py:100-136 | a suggestion is listed exactly when its rule holds for the structure, the average sentence length and the detection level |
| FileAnalysis.SuggestionsEndWithTips | backend/app/services/file_analysis_service.py:131-136 | the list ends with the three formatting reminders in order |
| FileAnalysis.AdviceExclusive | backend/app/services/file_analysis_service.py:109-117 | a document is never called both short and long, nor its sentences both long and short |
| FileAnalysis.Texts | backend/app/services/file_analysis_service.py:106-136 | one text per suggestion, in order |
| FileAnalysis.TextListed | backend/app/services/file_analysis_service.py:106-136 | a suggestion's text is listed exactly when the suggestion is |
| FileAnalysis.Report | backend/app/services/file_analysis_service.py:159-167 | the result carries the format, the detection result, the structure and its word count, and lists a suggestion's text exactly when its rule holds, ending with the three reminders |
| FileAnalysis.AnalyzeFile | backend/app/services/file_analysis_service.py:138-167 | an extraction error is returned unchanged; otherwise the report for the extracted text's structure, its detection result and its format |
| FileAnalysis.LowRatingNoAiAdvice | backend/app/services/file_analysis_service.py:126-129 | a detection rated low, which every text too short to analyse gets, never draws the AI revision requests |
| Humanization.RemovedPhrases | backend/app/services/humanization_service.py:100-102 | one entry per listed phrase present in the lower-cased original and absent from the lower-cased rewrite, and none otherwise |
| Humanization.RemovedPhrasesSnoc | backend/app/services/humanization_service.py:100-102 | one more listed phrase appends its entry exactly when the rewrite dropped it, so entries follow the list order, once per listed phrase |
| Humanization.SentenceChange | backend/app/services/humanization_service.py:104-109 | the restructure note exactly when the sentence counts differ by more than two |
| Humanization.WordChange | backend/app/services/humanization_service.py:111-120 | "added" when the rewrite has more than fifty more words, "removed" when more than fifty fewer, with the difference, nothing otherwise |
| Humanization.IdentifyChanges | backend/app/services/humanization_service.py:84-130 | never empty; exactly the three generic notes when no phrase was removed and neither count moved past its threshold; otherwise exactly the removed phrases plus the sentence and word notes |
| Humanization.UnchangedTextIsGeneric | backend/app/services/humanization_service.py:122-128 | an unchanged text gets the generic summary |
| Humanization.GenericOnlyAlone | backend/app/services/humanization_service.py:122-130 | generic notes never appear next to specific ones |
| Humanization.WordNoteSwaps | backend/app/services/humanization_service.py:111-120 | a rewrite that added n words, read backwards, removed n words, and n is over fifty |
| Humanization.NoteAsWrittenHasNoArrow | backend/app/services/humanization_service.py:109 | the restructure note as written contains no arrow, only three stray characters between the counts |
| Humanization.NoteShowsCounts | backend/app/services/humanization_service.py:109 | the corrected note shows "before → after" |
| Humanization.ChangeTexts | backend/app/services/humanization_service.py:84-130 | the summary with the corrected restructure note: never empty, and entry i is the text of change i (see Findings for line 109) |
| Humanization.ChangeTextsAsWritten | backend/app/services/humanization_service.py:84-130 | the summary as the route returns it: as long as the corrected one, and equal to it at every entry except exactly the restructure note |
| Humanization.DroppedPhraseReported | backend/app/services/humanization_service.py:98-102 | every listed phrase the rewrite dropped is reported by name |

## Left out

- Network and language-model calls are not modelled: the requests `api.ts` sends (only the names it exports and the paths they request are modelled, as `Api.Methods` and `Routing.Routes`), the panels' awaited requests, `llm_service.py`, `humanize_text`, the CrossRef request, routing in `main.py` beyond which paths it declares (`Routing.ServedMethods`), and `ModelSettings.tsx`. A backend answer enters the model as a parameter, with `None` or `Err` standing for a failed request.
- Library-backed rendering and decoding are not modelled: `docx_service.py`, `pdf_export_service.py`, and the DOCX, PDF, UTF-8 and Latin-1 decoders. `FileAnalysis.ExtractText` takes the decoders' readings as a parameter.
- DOM and widget code is not modelled: `sanitizeHTML`, `downloadFile`, `cn` and `Editor.tsx`. It has no behaviour beyond the browser.
- Timers, event listeners and request ordering are not modelled: `debounce`, the auto-save interval, the tip-rotation interval, toasts, and races between stale responses. Each hook is the sequence of store actions one firing dispatches.
- `generateId`, `Date.now()`, `Math.random()`, `toLocaleDateString()` and today's calendar day are not modelled. They are parameters: a `Clock` value, fresh ids, and a locale string.
- Timezones and daylight saving are not modelled. Days are day numbers counted in UTC.
- Regular expressions are not modelled. The detector's thirteen patterns come in as a `Scan` of match counts and candidate sentences. The two sentence-shape heuristics, which compare floating-point averages, arrive as booleans.
- `checkSimilarity`, `highlightProblematicPhrases` and `countCharacters` are not modelled. They are floating-point, regular-expression or trivial helpers that the modelled core does not call.
- Floating point is not modelled:
  - `Math.round` and `Math.floor` on quotients are exact integer functions (`Numbers.RoundDiv`, `Numbers.FloorDiv`).
  - The file analysis' `avg_sentence_length` is a `real` parameter rather than a computed and rounded average.
  - The templates' margins and line spacing are dropped.
- Sidebar.RecommendedListShown tells only whether the "Recommended Sections" block is drawn. The template data is an opaque value, so the section names it offers (Sidebar.tsx:145-171) are not modelled.
- Strings.Lower and Strings.Trim cover only ASCII: case maps `A`-`Z` only, and whitespace is the space and code points 9 to 13. JavaScript and Python define both over all of Unicode.
- Strings.IsUpperWord is an ASCII approximation of Python's `str.isupper()`: it counts only `A`-`Z` as upper case and only `a`-`z` as lower case, so FileAnalysis.Headings does not list an all-capitals line in another script, such as "ВВЕДЕНИЕ", which the service would list.
- Paper.Section has a `title` field, as the store declares. The sidebar, the brainstorm panel and the editor build and rename sections with a `name` key, and the export dialog sends `name`. The suggestions panel (SmartSuggestionsPanel.tsx:85) and the analytics panel (WritingAnalytics.tsx:197) read `title`. The model fills and reads `title` everywhere; `Paper.BuiltSection` and the Findings row for SmartSuggestionsPanel.tsx:85 cover the mismatch. The analytics panel then shows an empty name; that is not modelled.
- Dates.ParseTimestamp reads only the two forms the app writes, a 10-character date and a 24-character timestamp. JavaScript's `new Date` also reads other texts, such as "2024", "2024-01", "2024-01-05T10:00Z" and the output of `toLocaleDateString`. The model gives `None` for all of them.
- ExportModal.SanitizeTitle works on characters. JavaScript works on UTF-16 code units, so a character outside the Basic Multilingual Plane becomes `__` there and `_` here. Other string lengths in the model are also counted in characters, not UTF-16 units.
- FileAnalysis.WordCount, Format.CountWords, Detector.Score and Detector.Bonus split on the model's whitespace. Python's `split()` also splits on U+001C to U+001F and U+0085, and JavaScript's `\s` also matches U+FEFF. Texts holding those characters can count differently.
- Detector.NormalizedScore uses exact integer arithmetic. Python divides the weighted total by a tenth of the word count and multiplies by 100 in floating point before truncating. When the exact percentage is a whole number, rounding can land just below it: a total of 29 over 1000 words gives 28 there and 29 here. The level can differ only when that whole number is 30 or 60, the two level thresholds.
- `updateSection` follows its declared signature, which takes a partial record. Two components call it with a plain string instead.
- CitationService.FormatCitation models a record whose values are all strings. Other JSON values, and the generic 500 branch they could reach, are not modelled.
- Schemas.ValidateDetection and the other validators report the first field that fails. Pydantic reports every failing field.
- RequestBodies.ValidateDisclosure and RequestBodies.ValidateDocxExport check only the shape of each field (text, list of texts, list of records). Pydantic's coercions, such as a number accepted for a string, are not modelled. The backend declares no route for the upload, humanize, model-settings, citation and file-export requests (`Routing.ServedMethods`), so their answers stay parameters.
- Hooks.Unmount only states that unmounting ends the session. It dispatches exactly that one store action.
- `AIAssistantPanel.tsx` and `BrainstormPanel.tsx` are not modelled: they only pass requests on. `Header.tsx`, `page.tsx`, `layout.tsx`, `ToastContainer.tsx` and `KeyboardShortcutsPanel.tsx` are not modelled either: they are markup only.
- FileUpload.HandleHumanize does not model the text sent to be humanized. That text is a fixed placeholder, or "" when the analysis counted no words. The answer is a parameter.

## Findings

| source | as written | input that shows it | evidently intended | confidence | as-written member | corrected member |
|---|---|---|---|---|---|---|
| frontend/src/components/SmartSuggestionsPanel.tsx:86 | The tips are looked up with `SECTION_TIPS[name]` on a plain object literal, so a name that is an `Object.prototype` key finds an inherited function rather than `undefined`. `.map` then throws. No component writes a `title`, so as written line 85 throws first (the row for SmartSuggestionsPanel.tsx:85); this row concerns sections that do carry the `title` the store declares. | An active section titled "Constructor", lower-cased to "constructor". | Names the table does not hold fall back to the introduction tips. | not executed | Suggestions.PrototypeTitleBreaksPanel | Suggestions.LookupAgreesOffPrototype |
| frontend/src/components/SmartSuggestionsPanel.tsx:85 | The panel reads `activeSectionData?.title.toLowerCase()`, but every section the app builds carries `name` and no `title` (Sidebar.tsx:42 and :157, BrainstormPanel.tsx:52, Editor.tsx:226). `?.` guards only a failed find, so `toLowerCase` is called on `undefined` and throws. | Add a section with the sidebar's `+` button: it becomes the active section, and the panel throws on its next render. | The panel looks up the tips for the active section's name. | not executed | Suggestions.ActiveSectionNameAsWritten, Suggestions.AddedSectionBreaksPanel | Suggestions.DeclaredSectionGivesName |
| frontend/src/components/ExportModal.tsx:43 | The dialog calls `exportAPI.toDocx`, but the client defines only `exportAPI.docx` and `exportAPI.file`. The call throws inside the `try`, so the failure alert always shows. | Any export with a non-blank title, whatever the server would answer. | The dialog reaches the client method `exportAPI.docx`; the outcome then follows the server's answer, downloading and closing on an answer. This repository's backend still answers 422: the store sends authors and keywords as strings where `ExportRequest` declares lists (ExportModal.DocxBodyRefused). | not executed | ExportModal.HandleExportAsWritten, ExportModal.ExportFailsAsWritten | ExportModal.HandleExportWithDocx, ExportModal.ExportWithDocxFollowsServer, ExportModal.DocxBodyRefused |
| frontend/src/components/AIDetectorPanel.tsx:29 | The panel imports `detectionAPI`, but the client exports `detectorAPI`. The detection call throws inside the `try`, so no result is ever stored. | Detect on an active section with content. | The content reaches the client method `detectorAPI.detect`, whose route the backend declares (Routing.ServedMethods), and the answer is stored. | not executed | DetectorPanel.HandleDetectAsWritten, DetectorPanel.DetectorPanelFailsAsWritten | DetectorPanel.HandleDetect, DetectorPanel.DetectorAPIFollowsServer |
| frontend/src/components/AIDetectorPanel.tsx:48 | The disclosure request goes through the same undefined `detectionAPI`. It throws, so no statement is ever shown. | Generate a disclosure with both fields filled in. | The tool list reaches the client method `detectorAPI.generateDisclosure`; the outcome then follows the server's answer. This repository's backend still answers 422: the body carries `ai_tools` where `DisclosureRequest` requires `ai_tools_used` and `purpose` (DetectorPanel.DisclosureBodyRefused). | not executed | DetectorPanel.GenerateDisclosureAsWritten, DetectorPanel.DetectorPanelFailsAsWritten | DetectorPanel.GenerateDisclosure, DetectorPanel.DetectorAPIFollowsServer, DetectorPanel.DisclosureBodyRefused |
| frontend/src/components/FileUploadPanel.tsx:79 | The panel calls `fileAPI.exportFile`, which the client does not define. The call throws inside the `try`, so every export ends in the failure toast. | Export after an upload has been analysed. | The request reaches the client method `exportAPI.file`; the outcome then follows the server's answer. This repository's backend declares no `/api/export/file` route (FileUpload.FileExportRouteMissing), and `exportAPI.file` takes one argument where the panel passes three. | not executed | FileUpload.HandleFileExportAsWritten, FileUpload.FileExportFailsAsWritten | FileUpload.HandleFileExportWithFile, FileUpload.FileExportFollowsServer, FileUpload.FileExportRouteMissing |
| frontend/src/components/Sidebar.tsx:25 | The sidebar loads its template with `templateAPI.getByFormat`, which the client does not define. The error is only logged, so template data is never stored and the "Recommended Sections" buttons (Sidebar.tsx:145-171) never appear. | Open the app with any template selected. | The template is fetched with `templateAPI.getByName` and its sections are offered. | not executed | Sidebar.LoadTemplateAsWritten, Sidebar.RecommendedNeverShownAsWritten | Sidebar.LoadTemplate, Sidebar.LoadByNameFollowsServer |
| frontend/src/lib/hooks.ts:15 | The auto-save stores `lastSaved` as `formatDate(...)`, for example "just now". The leave-page guard parses that label with `new Date`, gets NaN, and never warns. | An auto-save followed by a wait of two minutes: the guard stays silent. | The guard warns when more than a minute has passed since the last save. | not executed | Hooks.AutoSaveGuardCounterexample | Hooks.StampedGuardFiresAfterAMinute |
| backend/app/services/humanization_service.py:109 | The restructure note holds the three characters "â†’", which is the UTF-8 encoding of "→" misread as Windows-1252. | An original of five sentences rewritten into one: the note reads "(5 â†’ 1)". | The note reads "(5 → 1)". | not executed | Humanization.NoteAsWrittenHasNoArrow, Humanization.ChangeTextsAsWritten | Humanization.NoteShowsCounts, Humanization.ChangeTexts |

=== FILE: actions.dfy ===
/**
 * The store's actions as one command type, so that facts about every action
 * (frontend/src/lib/store.ts, lines 202-324) can be stated and proved once.
 */
module Actions {

  import opened Wrappers
  import opened Paper
  import opened Store
  import opened Analytics

  /** Every action of the store. The ten `toggleX` actions share `TogglePanel`. */
  datatype Action =
    | SetTitle(title: string)
    | SetAuthors(authors: string)
    | SetKeywords(keywords: string)
    | SetAbstract(paperAbstract: string)
    | SetSections(sections: seq<Section>)
    | SetActiveSection(active: Option<string>)
    | UpdateSectionAction(id: string, updates: SectionPatch)
    | AddSectionAction(section: Section)
    | DeleteSectionAction(id: string)
    | SetSelectedTemplate(template: string)
    | SetTemplateData(data: Option<Blob>)
    | AddCitationAction(citation: Citation)
    | UpdateCitationAction(id: string, cupdates: CitationPatch)
    | DeleteCitationAction(id: string)
    | SetDetectionResult(result: Option<Blob>)
    | SetUploadedFile(file: Option<Blob>)
    | SetFileAnalysis(analysis: Option<Blob>)
    | TogglePanelAction(panel: Panel)
    | ToggleDarkModeAction
    | SetLastSaved(time: string)
    | SetIsSaving(saving: bool)
    | SetSelectedModel(model: string)
    | SetSmartModelSwitching(enabled: bool)
    | SetAvailableModels(models: seq<Blob>)
    | SetModelProvider(provider: string)
    | SaveVersionAction
    | RestoreVersionAction(id: string)
    | StartSessionAction
    | EndSessionAction
    | UpdateSessionWordsAction(words: int)
    | DismissTipAction(tipId: string)
    | ResetTipsAction

  /** One dispatched action and the clock reading at that moment. */
  datatype Step = Step(action: Action, clock: Clock)

  /** The actions that only assign the value they carry to one field. */
  predicate IsSetter(a: Action) {
    || a.SetTitle? || a.SetAuthors? || a.SetKeywords? || a.SetAbstract?
    || a.SetSections? || a.SetActiveSection? || a.SetSelectedTemplate?
    || a.SetTemplateData? || a.SetDetectionResult? || a.SetUploadedFile?
    || a.SetFileAnalysis? || a.SetLastSaved? || a.SetIsSaving?
    || a.SetSelectedModel? || a.SetSmartModelSwitching? || a.SetAvailableModels?
    || a.SetModelProvider?
  }

  /** A setter writes its one field and leaves the history, the session
      state and the id alone. */
  function ApplySetter(s: State, a: Action): (r: State)
    requires IsSetter(a)
    ensures r.paperId == s.paperId && r.versions == s.versions
    ensures r.writingSessions == s.writingSessions
    ensures !a.SetTitle? ==> r.title == s.title
    ensures !a.SetSections? ==> r.sections == s.sections
  {
    match a
    case SetTitle(t) => s.(title := t)
    case SetAuthors(x) => s.(authors := x)
    case SetKeywords(x) => s.(keywords := x)
    case SetAbstract(x) => s.(paperAbstract := x)
    case SetSections(xs) => s.(sections := xs)
    case SetActiveSection(x) => s.(activeSection := x)
    case SetSelectedTemplate(t) => s.(selectedTemplate := t)
    case SetTemplateData(d) => s.(templateData := d)
    case SetDetectionResult(x) => s.(detectionResult := x)
    case SetUploadedFile(x) => s.(uploadedFile := x)
    case SetFileAnalysis(x) => s.(fileAnalysis := x)
    case SetLastSaved(t) => s.(lastSaved := t)
    case SetIsSaving(b) => s.(isSaving := b)
    case SetSelectedModel(m) => s.(selectedModel := m)
    case SetSmartModelSwitching(b) => s.(smartModelSwitching := b)
    case SetAvailableModels(ms) => s.(availableModels := ms)
    case SetModelProvider(p) => s.(modelProvider := p)
    case _ => s
  }

  /** The six section and citation actions. */
  predicate IsListAction(a: Action) {
    || a.UpdateSectionAction? || a.AddSectionAction? || a.DeleteSectionAction?
    || a.UpdateCitationAction? || a.AddCitationAction? || a.DeleteCitationAction?
  }

  /** The list actions write one of the two lists. */
  function ApplyListAction(s: State, a: Action): (r: State)
    requires IsListAction(a)
    ensures r == s.(sections := r.sections, citations := r.citations)
    ensures a.UpdateCitationAction? || a.AddCitationAction? || a.DeleteCitationAction? ==>
      r.sections == s.sections
  {
    match a
    case UpdateSectionAction(id, u) => UpdateSection(s, id, u)
    case AddSectionAction(x) => AddSection(s, x)
    case DeleteSectionAction(id) => DeleteSection(s, id)
    case AddCitationAction(c) => AddCitation(s, c)
    case UpdateCitationAction(id, u) => UpdateCitation(s, id, u)
    case DeleteCitationAction(id) => DeleteCitation(s, id)
    case _ => s
  }

  /** The panel flags, dark mode and the dismissed tips. */
  predicate IsViewAction(a: Action) {
    a.TogglePanelAction? || a.ToggleDarkModeAction? || a.DismissTipAction? || a.ResetTipsAction?
  }

  function ApplyViewAction(s: State, a: Action): (r: State)
    requires IsViewAction(a)
    ensures r == s.(panels := r.panels, darkMode := r.darkMode, dismissedTips := r.dismissedTips)
    ensures a.TogglePanelAction? ==> r == s.(panels := r.panels)
  {
    match a
    case TogglePanelAction(p) => Toggle(s, p)
    case ToggleDarkModeAction => ToggleDarkMode(s)
    case DismissTipAction(t) => DismissTip(s, t)
    case ResetTipsAction => ResetTips(s)
    case _ => s
  }

  /** Saving and restoring a version. */
  function ApplyHistoryAction(s: State, a: Action, clock: Clock): (r: State)
    requires a.SaveVersionAction? || a.RestoreVersionAction?
    ensures r == s.(versions := r.versions, title := r.title, sections := r.sections)
    ensures a.SaveVersionAction? ==> r.title == s.title && r.sections == s.sections
    ensures a.RestoreVersionAction? ==> r.versions == s.versions
  {
    if a.SaveVersionAction? then SaveVersion(s, clock) else RestoreVersion(s, a.id)
  }

  /** The writing-session actions. */
  predicate IsSessionAction(a: Action) {
    a.StartSessionAction? || a.EndSessionAction? || a.UpdateSessionWordsAction?
  }

  function ApplySessionAction(s: State, a: Action, clock: Clock): (r: State)
    requires IsSessionAction(a)
    ensures r == s.(writingSessions := r.writingSessions,
      currentSessionStart := r.currentSessionStart, currentSessionWords := r.currentSessionWords)
    ensures !a.EndSessionAction? ==> r.writingSessions == s.writingSessions
    ensures r.writingSessions == s.writingSessions
      || (|r.writingSessions| == |s.writingSessions| + 1 && r.writingSessions[1..] == s.writingSessions)
  {
    match a
    case StartSessionAction => StartSession(s, clock)
    case EndSessionAction => EndSession(s, clock)
    case UpdateSessionWordsAction(w) => UpdateSessionWords(s, w)
    case _ => s
  }

  /** The actions with logic of their own in the store. */
  function ApplyOperation(s: State, a: Action, clock: Clock): (r: State)
    requires !IsSetter(a)
    ensures r.paperId == s.paperId
    ensures !a.SaveVersionAction? ==> r.versions == s.versions
    ensures !a.EndSessionAction? ==> r.writingSessions == s.writingSessions
    ensures !a.RestoreVersionAction? ==> r.title == s.title
    ensures (!a.UpdateSectionAction? && !a.AddSectionAction? && !a.DeleteSectionAction?
             && !a.RestoreVersionAction?) ==> r.sections == s.sections
  {
    if IsListAction(a) then ApplyListAction(s, a)
    else if IsViewAction(a) then ApplyViewAction(s, a)
    else if IsSessionAction(a) then ApplySessionAction(s, a, clock)
    else ApplyHistoryAction(s, a, clock)
  }

  /** One dispatched action: the store's `set(...)` for it. */
  function Apply(s: State, a: Action, clock: Clock): (r: State)
    ensures r.paperId == s.paperId
  {
    if IsSetter(a) then ApplySetter(s, a) else ApplyOperation(s, a, clock)
  }

  /** Dispatches the steps in order. */
  function ApplyAll(s: State, steps: seq<Step>): State
    decreases |steps|
  {
    if steps == [] then s
    else ApplyAll(Apply(s, steps[0].action, steps[0].clock), steps[1..])
  }

  lemma ApplyAllFirst(s: State, steps: seq<Step>)
    requires steps != []
    ensures ApplyAll(s, steps) == ApplyAll(Apply(s, steps[0].action, steps[0].clock), steps[1..])
  {
  }

  lemma ApplySetIsSaving(s: State, b: bool, clock: Clock)
    ensures Apply(s, SetIsSaving(b), clock) == s.(isSaving := b)
  {
    assert IsSetter(SetIsSaving(b));
  }

  lemma ApplySetLastSaved(s: State, t: string, clock: Clock)
    ensures Apply(s, SetLastSaved(t), clock) == s.(lastSaved := t)
  {
    assert IsSetter(SetLastSaved(t));
  }

  lemma ApplySaveVersion(s: State, clock: Clock)
    ensures Apply(s, SaveVersionAction, clock) == SaveVersion(s, clock)
  {
    assert !IsSetter(SaveVersionAction) && !IsListAction(SaveVersionAction);
    assert !IsViewAction(SaveVersionAction) && !IsSessionAction(SaveVersionAction);
  }

  lemma ApplyTogglePanel(s: State, p: Panel, clock: Clock)
    ensures Apply(s, TogglePanelAction(p), clock) == Toggle(s, p)
  {
    assert !IsSetter(TogglePanelAction(p)) && !IsListAction(TogglePanelAction(p));
    assert IsViewAction(TogglePanelAction(p));
  }

  /** Actions that touch only fields `partialize` leaves out. */
  predicate Transient(a: Action) {
    || a.SetActiveSection? || a.SetTemplateData? || a.SetDetectionResult?
    || a.SetUploadedFile? || a.SetFileAnalysis? || a.TogglePanelAction?
    || a.SetIsSaving? || a.SetAvailableModels? || a.SetModelProvider?
    || a.StartSessionAction? || a.UpdateSessionWordsAction?
  }

  lemma SetterKeepsPersisted(s: State, a: Action)
    requires IsSetter(a) && Transient(a)
    ensures Partialize(ApplySetter(s, a)) == Partialize(s)
  {
  }

  /** A transient action never changes what a reload restores. */
  lemma TransientKeepsPersisted(s: State, a: Action, clock: Clock)
    requires Transient(a)
    ensures Partialize(Apply(s, a, clock)) == Partialize(s)
  {
    var r := Apply(s, a, clock);
    if IsSetter(a) {
      SetterKeepsPersisted(s, a);
    } else if IsViewAction(a) {
      assert r == ApplyViewAction(s, a);
    } else {
      assert r == ApplySessionAction(s, a, clock);
    }
  }

  /** Only `setTitle` and `restoreVersion` write the title. */
  lemma TitleWriters(s: State, a: Action, clock: Clock)
    requires !a.SetTitle? && !a.RestoreVersionAction?
    ensures Apply(s, a, clock).title == s.title
  {
  }

  /** Only the five section actions and `restoreVersion` write the
      sections. */
  lemma SectionWriters(s: State, a: Action, clock: Clock)
    requires !a.SetSections? && !a.UpdateSectionAction? && !a.AddSectionAction?
    requires !a.DeleteSectionAction? && !a.RestoreVersionAction?
    ensures Apply(s, a, clock).sections == s.sections
  {
  }

  /** Only `endSession` writes the session log, and only by prepending one
      record. */
  lemma SessionLogWriters(s: State, a: Action, clock: Clock)
    ensures var r := Apply(s, a, clock);
      || r.writingSessions == s.writingSessions
      || (a.EndSessionAction? && r.writingSessions[1..] == s.writingSessions)
  {
  }

  /** What every reachable state satisfies: at most five versions, and a
      session log with no AI assistance recorded. */
  predicate Good(s: State) {
    |s.versions| <= MaxVersions && NoAiAssistance(s.writingSessions)
  }

  /** `endSession` prepends a record with no AI assistance. */
  lemma EndSessionKeepsNoAi(s: State, clock: Clock)
    requires NoAiAssistance(s.writingSessions)
    ensures NoAiAssistance(EndSession(s, clock).writingSessions)
  {
    var w := EndSession(s, clock).writingSessions;
    if SessionActive(s.currentSessionStart) {
      forall i | 0 <= i < |w|
        ensures w[i].aiAssistanceUsed == 0
      {
        if i > 0 {
          assert w[i] == s.writingSessions[i - 1];
        }
      }
    }
  }

  /** Only `saveVersion` writes the history, and it keeps five at most. */
  lemma ApplyKeepsVersionBound(s: State, a: Action, clock: Clock)
    requires |s.versions| <= MaxVersions
    ensures |Apply(s, a, clock).versions| <= MaxVersions
  {
    if a.SaveVersionAction? {
      assert Apply(s, a, clock).versions == SaveVersion(s, clock).versions;
    }
  }

  /** Only `endSession` writes the session log, and it records no AI
      assistance. */
  lemma ApplyKeepsNoAi(s: State, a: Action, clock: Clock)
    requires NoAiAssistance(s.writingSessions)
    ensures NoAiAssistance(Apply(s, a, clock).writingSessions)
  {
    if a.EndSessionAction? {
      assert Apply(s, a, clock).writingSessions == EndSession(s, clock).writingSessions;
      EndSessionKeepsNoAi(s, clock);
    }
  }

  lemma ApplyKeepsGood(s: State, a: Action, clock: Clock)
    requires Good(s)
    ensures Good(Apply(s, a, clock))
  {
    ApplyKeepsVersionBound(s, a, clock);
    ApplyKeepsNoAi(s, a, clock);
  }

  lemma {:induction false} ApplyAllKeepsGood(s: State, steps: seq<Step>)
    requires Good(s)
    ensures Good(ApplyAll(s, steps))
    decreases |steps|
  {
    if steps != [] {
      ApplyKeepsGood(s, steps[0].action, steps[0].clock);
      ApplyAllKeepsGood(Apply(s, steps[0].action, steps[0].clock), steps[1..]);
    }
  }

  /** In every state the store can reach from its initial state, the history
      holds at most five versions and the analytics panel's AI-usage total
      is 0, since `endSession` always records `aiAssistanceUsed: 0`. */
  lemma Reachable(paperId: string, steps: seq<Step>)
    ensures var s := ApplyAll(Init(paperId), steps);
      && |s.versions| <= MaxVersions
      && Sum(s.writingSessions, AiUsedOf) == 0
  {
    ApplyAllKeepsGood(Init(paperId), steps);
    AiUsageZero(ApplyAll(Init(paperId), steps).writingSessions);
  }
}

=== FILE: analytics.dfy ===
/**
 * The writing-statistics panel (frontend/src/components/WritingAnalytics.tsx):
 * totals over sections and sessions, the rounded average, the day streak and
 * the section with the most words. Calendar days are day numbers; the
 * component's ISO date strings sort the same way for four-digit years.
 */
module Analytics {

  import opened Paper
  import opened Numbers

  // ---------------------------------------------------------------------
  // Totals
  // ---------------------------------------------------------------------

  /** Reference sum of `f` over `xs`, peeling the last entry. */
  function Sum<T>(xs: seq<T>, f: T -> int): int {
    if xs == [] then 0 else Sum(xs[..|xs| - 1], f) + f(xs[|xs| - 1])
  }

  /** The sum is additive over concatenation. */
  lemma {:induction false} SumConcat<T>(xs: seq<T>, ys: seq<T>, f: T -> int)
    ensures Sum(xs + ys, f) == Sum(xs, f) + Sum(ys, f)
    decreases |ys|
  {
    if ys == [] {
      assert xs + ys == xs;
    } else {
      var init := ys[..|ys| - 1];
      assert (xs + ys)[..|xs + ys| - 1] == xs + init;
      SumConcat(xs, init, f);
    }
  }

  /** A sum of non-negative terms is non-negative. */
  lemma {:induction false} SumNonNegative<T>(xs: seq<T>, f: T -> int)
    requires forall i :: 0 <= i < |xs| ==> f(xs[i]) >= 0
    ensures Sum(xs, f) >= 0
    decreases |xs|
  {
    if xs != [] {
      SumNonNegative(xs[..|xs| - 1], f);
    }
  }

  /** `xs.reduce((sum, x) => sum + f(x), 0)`: a left-to-right accumulation. */
  method Reduce<T>(xs: seq<T>, f: T -> int) returns (total: int)
    ensures total == Sum(xs, f)
  {
    total := 0;
    var i := 0;
    while i < |xs|
      invariant 0 <= i <= |xs|
      invariant total == Sum(xs[..i], f)
    {
      assert xs[..i + 1][..i] == xs[..i];
      total := total + f(xs[i]);
      i := i + 1;
    }
    assert xs[..i] == xs;
  }

  function WordCountOf(s: Section): int { s.wordCount }
  function TimeSpentOf(w: WritingSession): int { w.timeSpent }
  function WordsWrittenOf(w: WritingSession): int { w.wordsWritten }
  function AiUsedOf(w: WritingSession): int { w.aiAssistanceUsed }

  /** Total words of the paper: never negative, since word counts are not. */
  method TotalWords(sections: seq<Section>) returns (total: int)
    ensures total == Sum(sections, WordCountOf)
    ensures total >= 0
  {
    total := Reduce(sections, WordCountOf);
    SumNonNegative(sections, WordCountOf);
  }

  /** `Math.round(totalWordsWritten / totalSessions)`, or 0 without sessions. */
  function AverageWords(sessions: seq<WritingSession>): (r: int)
    ensures |sessions| == 0 ==> r == 0
    ensures |sessions| > 0 ==>
      var n := |sessions|;
      var w := Sum(sessions, WordsWrittenOf);
      n * (2 * r - 1) <= 2 * w < n * (2 * r + 1)
  {
    if |sessions| > 0 then RoundDiv(Sum(sessions, WordsWrittenOf), |sessions|) else 0
  }

  /** Every session was recorded without AI assistance. */
  predicate NoAiAssistance(sessions: seq<WritingSession>) {
    forall i :: 0 <= i < |sessions| ==> sessions[i].aiAssistanceUsed == 0
  }

  /** When no session records assistance, the AI-usage figure is zero. */
  lemma {:induction false} AiUsageZero(sessions: seq<WritingSession>)
    requires NoAiAssistance(sessions)
    ensures Sum(sessions, AiUsedOf) == 0
    decreases |sessions|
  {
    if sessions != [] {
      AiUsageZero(sessions[..|sessions| - 1]);
    }
  }

  // ---------------------------------------------------------------------
  // Streak
  // ---------------------------------------------------------------------

  predicate StrictlyDescending(ds: seq<int>) {
    forall i, j :: 0 <= i < j < |ds| ==> ds[i] > ds[j]
  }

  /** Inserts `x` into a strictly descending list, keeping it so and
      dropping a duplicate. */
  function InsertDescending(x: int, ds: seq<int>): (r: seq<int>)
    requires StrictlyDescending(ds)
    ensures StrictlyDescending(r)
    ensures forall d :: d in r <==> d == x || d in ds
  {
    if ds == [] then [x]
    else if x > ds[0] then [x] + ds
    else if x == ds[0] then ds
    else
      var rest := InsertDescending(x, ds[1..]);
      assert forall d :: d in ds[1..] ==> d < ds[0];
      assert forall d :: d in rest ==> d < ds[0];
      var r := [ds[0]] + rest;
      assert forall j :: 0 < j < |r| ==> r[j] == rest[j - 1] && r[j] in rest;
      r
  }

  /** `[...new Set(dates)].sort().reverse()`: the distinct days, newest
      first. */
  function DistinctDescending(days: seq<int>): (r: seq<int>)
    ensures StrictlyDescending(r)
    ensures forall d :: d in r <==> d in days
  {
    if days == [] then []
    else
      var init := days[..|days| - 1];
      var r := InsertDescending(days[|days| - 1], DistinctDescending(init));
      assert days == init + [days[|days| - 1]];
      r
  }

  /** The loop of the component: walks the newest-first days while each
      equals the day being checked, which moves one day back per hit. */
  method Streak(days: seq<int>, today: int) returns (streak: nat)
    ensures streak <= |DistinctDescending(days)|
    ensures (exists d :: d in days && d > today) ==> streak == 0
    ensures (forall d :: d in days ==> d <= today) ==>
      (forall d :: today - streak < d <= today ==> d in days) && today - streak !in days
  {
    var unique := DistinctDescending(days);
    streak := 0;
    var check := today;
    while streak < |unique| && unique[streak] == check
      invariant 0 <= streak <= |unique|
      invariant check == today - streak
      invariant forall k :: 0 <= k < streak ==> unique[k] == today - k
    {
      streak := streak + 1;
      check := check - 1;
    }
    WalkStops(days, today, streak);
  }

  /** What the walk's stopping point `n` says about the days. */
  lemma WalkStops(days: seq<int>, today: int, n: nat)
    requires n <= |DistinctDescending(days)|
    requires forall k :: 0 <= k < n ==> DistinctDescending(days)[k] == today - k
    requires n == |DistinctDescending(days)| || DistinctDescending(days)[n] != today - n
    ensures (exists d :: d in days && d > today) ==> n == 0
    ensures (forall d :: d in days ==> d <= today) ==>
      (forall d :: today - n < d <= today ==> d in days) && today - n !in days
  {
    var unique := DistinctDescending(days);
    StreakEnds(unique, today, n);
    forall d | today - n < d <= today
      ensures d in days
    {
      assert unique[today - d] == d;
    }
    if exists d :: d in days && d > today {
      var d :| d in days && d > today;
      var j :| 0 <= j < |unique| && unique[j] == d;
      assert unique[0] >= unique[j];
    }
  }

  /** Once the walk stops at `n`, day `today - n` is not among the days, as
      long as none lies after `today`. */
  lemma StreakEnds(unique: seq<int>, today: int, n: nat)
    requires StrictlyDescending(unique)
    requires n <= |unique|
    requires forall k :: 0 <= k < n ==> unique[k] == today - k
    requires n == |unique| || unique[n] != today - n
    ensures (forall d :: d in unique ==> d <= today) ==> today - n !in unique
  {
    if forall d :: d in unique ==> d <= today {
      forall j | 0 <= j < |unique|
        ensures unique[j] != today - n
      {
        if j > n {
          if n > 0 {
            assert unique[n - 1] == today - (n - 1);
            assert unique[n] < unique[n - 1];
          } else {
            assert unique[0] in unique;
          }
          assert unique[j] < unique[n];
        }
      }
    }
  }

  // ---------------------------------------------------------------------
  // Most edited section
  // ---------------------------------------------------------------------

  /** The reduce that keeps the running maximum, replacing it only on a
      strictly larger word count: the first section with the most words,
      or the placeholder "None" with 0 words when there are no sections. */
  method MostEdited(sections: seq<Section>) returns (title: string, wordCount: nat)
    ensures |sections| == 0 ==> title == "None" && wordCount == 0
    ensures |sections| > 0 ==>
      exists k :: 0 <= k < |sections| && title == sections[k].title &&
        wordCount == sections[k].wordCount &&
        (forall j :: 0 <= j < |sections| ==> sections[j].wordCount <= wordCount) &&
        (forall j :: 0 <= j < k ==> sections[j].wordCount < wordCount)
  {
    if |sections| == 0 {
      return "None", 0;
    }
    var best := 0;
    var i := 1;
    while i < |sections|
      invariant 1 <= i <= |sections|
      invariant 0 <= best < i
      invariant forall j :: 0 <= j < i ==> sections[j].wordCount <= sections[best].wordCount
      invariant forall j :: 0 <= j < best ==> sections[j].wordCount < sections[best].wordCount
    {
      if sections[i].wordCount > sections[best].wordCount {
        best := i;
      }
      i := i + 1;
    }
    title := sections[best].title;
    wordCount := sections[best].wordCount;
  }
}

=== FILE: api.dfy ===
/**
 * The API client's surface (frontend/src/lib/api.ts): the objects the module
 * exports and the methods each one carries. The requests themselves are not
 * modelled; a server's answer is a parameter, `None` standing for a failed
 * request. A component that calls a name the client does not define never
 * reaches the server: the name reads as `undefined`, calling it throws a
 * TypeError inside the component's `try`, and its `catch` runs exactly as
 * for a failed request.
 */
module Api {

  import opened Wrappers

  /** The methods of each exported object; a name the module does not
      export has none. */
  function Methods(obj: string): set<string> {
    match obj
    case "templateAPI" => {"getAll", "getByName"}
    case "detectorAPI" => {"detect", "generateDisclosure"}
    case "brainstormAPI" => {"generate"}
    case "writingAPI" => {"improve", "generateSection"}
    case "chatAPI" => {"send"}
    case "exportAPI" => {"docx", "file"}
    case "fileAPI" => {"analyze", "humanize"}
    case "modelAPI" => {"getSettings"}
    case "citationAPI" => {"fetchFromDOI", "format"}
    case _ => {}
  }

  predicate Defined(obj: string, name: string) {
    name in Methods(obj)
  }

  /** `await obj.name(...)` inside a `try`: what the server answers when
      the client defines the method, and a failure whatever the server would
      have said when it does not. */
  function Call<T>(obj: string, name: string, reply: Option<T>): (r: Option<T>)
    ensures Defined(obj, name) ==> r == reply
    ensures !Defined(obj, name) ==> r.None?
    ensures r.Some? ==> r == reply
  {
    if Defined(obj, name) then reply else None
  }

  /** The names the components call that the client does not define, next
      to the ones it does define for the same requests. */
  lemma CallSiteNames()
    ensures !Defined("exportAPI", "toDocx") && Defined("exportAPI", "docx")
    ensures !Defined("detectionAPI", "detect") && Defined("detectorAPI", "detect")
    ensures !Defined("detectionAPI", "generateDisclosure") && Defined("detectorAPI", "generateDisclosure")
    ensures !Defined("fileAPI", "exportFile") && Defined("exportAPI", "file")
    ensures !Defined("templateAPI", "getByFormat") && Defined("templateAPI", "getByName")
  {
  }
}

=== FILE: brainstorm.dfy ===
/**
 * The outline generator (backend/app/services/brainstorm_service.py): a
 * fixed table of section structures and methodology points per research
 * type, and string templates for the titles, key points and reference
 * topics built around the topic and the field.
 */
module Brainstorm {

  import opened Wrappers
  import opened Strings
  import opened Schemas

  // ---------------------------------------------------------------------
  // The structure table
  // ---------------------------------------------------------------------

  datatype OutlineSection = OutlineSection(name: string, description: string)

  const AbstractName := "Abstract"
  const ReferencesName := "References"

  /** One entry of `research_structures`. */
  datatype StructureTemplate = StructureTemplate(
    sections: seq<OutlineSection>,
    methodologyFocus: seq<string>)

  const ExperimentalTemplate :=
    StructureTemplate(
      [ OutlineSection(AbstractName, "Brief summary of the experiment"),
        OutlineSection("Introduction", "Background and research question"),
        OutlineSection("Literature Review", "Related work and gap analysis"),
        OutlineSection("Methodology", "Experimental design and procedures"),
        OutlineSection("Results", "Data presentation and analysis"),
        OutlineSection("Discussion", "Interpretation and implications"),
        OutlineSection("Conclusion", "Summary and future work"),
        OutlineSection(ReferencesName, "Citations") ],
      [ "Define clear hypotheses",
        "Describe experimental setup and materials",
        "Explain data collection procedures",
        "Detail statistical analysis methods",
        "Address validity and reliability" ])

  const ReviewTemplate :=
    StructureTemplate(
      [ OutlineSection(AbstractName, "Overview of review scope"),
        OutlineSection("Introduction", "Review purpose and significance"),
        OutlineSection("Methodology", "Search strategy and selection criteria"),
        OutlineSection("Results", "Synthesis of findings"),
        OutlineSection("Discussion", "Analysis and critical evaluation"),
        OutlineSection("Conclusion", "Summary and recommendations"),
        OutlineSection(ReferencesName, "Comprehensive bibliography") ],
      [ "Define search strategy and databases",
        "Establish inclusion/exclusion criteria",
        "Describe screening process",
        "Explain synthesis methods",
        "Assess quality of reviewed studies" ])

  const CaseStudyTemplate :=
    StructureTemplate(
      [ OutlineSection(AbstractName, "Case overview"),
        OutlineSection("Introduction", "Context and research questions"),
        OutlineSection("Background", "Theoretical framework"),
        OutlineSection("Case Description", "Detailed case presentation"),
        OutlineSection("Analysis", "Data analysis and findings"),
        OutlineSection("Discussion", "Implications and lessons learned"),
        OutlineSection("Conclusion", "Key takeaways"),
        OutlineSection(ReferencesName, "Citations") ],
      [ "Define case selection criteria",
        "Describe data collection methods",
        "Explain analytical framework",
        "Address generalizability",
        "Ensure ethical considerations" ])

  const TheoreticalTemplate :=
    StructureTemplate(
      [ OutlineSection(AbstractName, "Theory overview"),
        OutlineSection("Introduction", "Motivation and objectives"),
        OutlineSection("Background", "Existing theories and concepts"),
        OutlineSection("Theoretical Framework", "Proposed theory or model"),
        OutlineSection("Analysis", "Theoretical development"),
        OutlineSection("Implications", "Theoretical and practical implications"),
        OutlineSection("Conclusion", "Contributions and future directions"),
        OutlineSection(ReferencesName, "Citations") ],
      [ "Define theoretical constructs",
        "Develop propositions or axioms",
        "Establish logical arguments",
        "Compare with existing theories",
        "Discuss theoretical contributions" ])

  const SurveyTemplate :=
    StructureTemplate(
      [ OutlineSection(AbstractName, "Survey summary"),
        OutlineSection("Introduction", "Research context and objectives"),
        OutlineSection("Literature Review", "Related research"),
        OutlineSection("Methodology", "Survey design and administration"),
        OutlineSection("Results", "Statistical analysis and findings"),
        OutlineSection("Discussion", "Interpretation and implications"),
        OutlineSection("Conclusion", "Summary and recommendations"),
        OutlineSection(ReferencesName, "Citations") ],
      [ "Design questionnaire and instruments",
        "Define target population and sampling",
        "Describe data collection procedures",
        "Explain statistical analysis methods",
        "Address response rate and bias" ])

  function TemplateOf(t: ResearchType): StructureTemplate {
    match t
    case Experimental => ExperimentalTemplate
    case Review => ReviewTemplate
    case CaseStudy => CaseStudyTemplate
    case Theoretical => TheoreticalTemplate
    case Survey => SurveyTemplate
  }

  /** `research_structures`, keyed by research type. */
  const Structures: map<ResearchType, StructureTemplate> :=
    map t: ResearchType | t in AllResearchTypes :: TemplateOf(t)

  /** The table has an entry for every research type. */
  lemma StructuresTotal(t: ResearchType)
    ensures t in Structures && Structures[t] == TemplateOf(t)
  {
    ResearchTypeCount();
  }

  /** Every structure opens with the abstract, closes with the references,
      and comes with five methodology points. */
  lemma StructureShape(t: ResearchType)
    ensures |TemplateOf(t).sections| >= 2
    ensures TemplateOf(t).sections[0].name == AbstractName
    ensures TemplateOf(t).sections[|TemplateOf(t).sections| - 1].name == ReferencesName
    ensures |TemplateOf(t).methodologyFocus| == 5
  {
    match t
    case Experimental =>
    case Review =>
    case CaseStudy =>
    case Theoretical =>
    case Survey =>
  }

  // ---------------------------------------------------------------------
  // Templates around the topic
  // ---------------------------------------------------------------------

  /** The text before and after the topic in one f-string. */
  datatype Frame = Frame(before: string, after: string)

  function Fill(f: Frame, topic: string): string {
    f.before + topic + f.after
  }

  /** Every filled frame names the topic. */
  lemma FillMentions(f: Frame, topic: string)
    ensures Contains(Fill(f, topic), topic)
  {
    ContainsMiddle(f.before, topic, f.after);
  }

  /** The frames of `_generate_titles`. */
  function TitleFrames(t: ResearchType, field: string): (r: seq<Frame>)
    ensures |r| == 4
  {
    match t
    case Experimental =>
      [ Frame("Experimental Analysis of ", " in " + field),
        Frame("Investigating ", ": An Experimental Study"),
        Frame("An Experimental Approach to ", ""),
        Frame("", ": Design, Implementation, and Evaluation") ]
    case Review =>
      [ Frame("A Systematic Review of ", " in " + field),
        Frame("", ": A Comprehensive Literature Review"),
        Frame("Recent Advances in ", ": A Review"),
        Frame("State of the Art in ", ": A Survey") ]
    case CaseStudy =>
      [ Frame("A Case Study of ", " in " + field),
        Frame("", ": Lessons from a Case Study Analysis"),
        Frame("Examining ", ": A Case-Based Investigation"),
        Frame("Real-World Application of ", ": A Case Study") ]
    case Theoretical =>
      [ Frame("A Theoretical Framework for ", ""),
        Frame("Towards a Theory of ", " in " + field),
        Frame("Conceptualizing ", ": A Theoretical Perspective"),
        Frame("Theoretical Foundations of ", "") ]
    case Survey =>
      [ Frame("A Survey Study on ", " in " + field),
        Frame("", ": Insights from a Comprehensive Survey"),
        Frame("Understanding ", ": A Survey-Based Analysis"),
        Frame("Empirical Investigation of ", ": Survey Results") ]
  }

  /** `_generate_titles`. */
  function Titles(topic: string, t: ResearchType, field: string): (r: seq<string>)
    ensures |r| == 4
  {
    var frames := TitleFrames(t, field);
    seq(4, i requires 0 <= i < 4 => Fill(frames[i], topic))
  }

  /** Four titles for every research type, each naming the topic. */
  lemma TitlesMentionTopic(topic: string, t: ResearchType, field: string)
    ensures |Titles(topic, t, field)| == 4
    ensures forall i :: 0 <= i < 4 ==> Contains(Titles(topic, t, field)[i], topic)
  {
    forall i | 0 <= i < 4 ensures Contains(Titles(topic, t, field)[i], topic) {
      FillMentions(TitleFrames(t, field)[i], topic);
    }
  }

  /** The three points every outline starts with. */
  function BasePoints(topic: string, field: string): seq<string> {
    [ Fill(Frame("Define the scope and significance of ", " in " + field), topic),
      Fill(Frame("Identify gaps in current research on ", ""), topic),
      "Establish clear research objectives and questions" ]
  }

  /** The three points `_generate_key_points` adds for each type. */
  function TypePoints(t: ResearchType): (r: seq<string>)
    ensures |r| == 3
  {
    match t
    case Experimental =>
      [ "Develop testable hypotheses",
        "Design rigorous experimental methodology",
        "Ensure reproducibility and validity" ]
    case Review =>
      [ "Define comprehensive search strategy",
        "Synthesize findings from multiple sources",
        "Identify trends and future directions" ]
    case CaseStudy =>
      [ "Provide rich contextual description",
        "Apply relevant theoretical frameworks",
        "Draw generalizable insights" ]
    case Theoretical =>
      [ "Develop novel theoretical constructs",
        "Establish logical propositions",
        "Discuss theoretical contributions" ]
    case Survey =>
      [ "Design valid and reliable instruments",
        "Ensure representative sampling",
        "Apply appropriate statistical methods" ]
  }

  /** `_generate_key_points`: the base points extended by the type's. */
  function KeyPoints(topic: string, t: ResearchType, field: string): (r: seq<string>)
    ensures |r| == 6
    ensures r[..3] == BasePoints(topic, field) && r[3..] == TypePoints(t)
  {
    BasePoints(topic, field) + TypePoints(t)
  }

  /** Two research types share their first three key points, and the first
      two name the topic. */
  lemma KeyPointsShareBase(topic: string, field: string, s: ResearchType, t: ResearchType)
    ensures KeyPoints(topic, s, field)[..3] == KeyPoints(topic, t, field)[..3]
    ensures Contains(KeyPoints(topic, t, field)[0], topic)
    ensures Contains(KeyPoints(topic, t, field)[1], topic)
  {
    FillMentions(Frame("Define the scope and significance of ", " in " + field), topic);
    FillMentions(Frame("Identify gaps in current research on ", ""), topic);
  }

  /** The frames of `_generate_reference_topics`: six around the topic,
      then two around the field. */
  function TopicFrames(field: string): (r: seq<Frame>)
    ensures |r| == 6
  {
    [ Frame("", " fundamentals"),
      Frame("", " in " + field),
      Frame("Recent advances in ", ""),
      Frame("", " applications"),
      Frame("", " challenges and limitations"),
      Frame("Future directions in ", "") ]
  }

  const FieldFrames: seq<Frame> := [Frame("", " research methodologies"), Frame("Related work in ", "")]

  /** `_generate_reference_topics`; the research type is not an input. */
  function ReferenceTopics(topic: string, field: string): (r: seq<string>)
    ensures |r| == 8
  {
    var frames := TopicFrames(field);
    seq(6, i requires 0 <= i < 6 => Fill(frames[i], topic))
      + [Fill(FieldFrames[0], field), Fill(FieldFrames[1], field)]
  }

  /** Eight reference topics: the first six name the topic, the last two
      the field. */
  lemma ReferenceTopicsMention(topic: string, field: string)
    ensures |ReferenceTopics(topic, field)| == 8
    ensures forall i :: 0 <= i < 6 ==> Contains(ReferenceTopics(topic, field)[i], topic)
    ensures forall i :: 6 <= i < 8 ==> Contains(ReferenceTopics(topic, field)[i], field)
  {
    var r := ReferenceTopics(topic, field);
    forall i | 0 <= i < 6 ensures Contains(r[i], topic) {
      FillMentions(TopicFrames(field)[i], topic);
    }
    forall i | 6 <= i < 8 ensures Contains(r[i], field) {
      FillMentions(FieldFrames[i - 6], field);
    }
  }

  // ---------------------------------------------------------------------
  // The outline
  // ---------------------------------------------------------------------

  datatype Outline = Outline(
    titleSuggestions: seq<string>,
    structure: seq<OutlineSection>,
    keyPoints: seq<string>,
    methodologySuggestions: seq<string>,
    referenceTopics: seq<string>)

  /** `raise ValueError(f"Unknown research type: ...")`. */
  datatype OutlineError = UnknownResearchType(t: ResearchType)

  /** `generate_outline`: the table entry for the type, or the error when
      the table has none. */
  function GenerateOutline(topic: string, t: ResearchType, field: string): (r: Result<Outline, OutlineError>)
    ensures r.Ok? <==> t in Structures
    ensures r.Ok? ==> r.value.structure == Structures[t].sections
                      && r.value.methodologySuggestions == Structures[t].methodologyFocus
    ensures r.Ok? ==> r.value.titleSuggestions == Titles(topic, t, field)
                      && r.value.keyPoints == KeyPoints(topic, t, field)
                      && r.value.referenceTopics == ReferenceTopics(topic, field)
  {
    if t !in Structures then Err(UnknownResearchType(t))
    else
      var template := Structures[t];
      Ok(Outline(Titles(topic, t, field), template.sections, KeyPoints(topic, t, field),
                 template.methodologyFocus, ReferenceTopics(topic, field)))
  }

  /** Every request that passed validation gets an outline: 4 titles, a
      structure from the abstract to the references, 6 key points, 5
      methodology points and 8 reference topics. */
  lemma OutlineShape(topic: string, t: ResearchType, field: string)
    ensures GenerateOutline(topic, t, field).Ok?
    ensures var o := GenerateOutline(topic, t, field).value;
      |o.titleSuggestions| == 4 && |o.keyPoints| == 6 && |o.methodologySuggestions| == 5
      && |o.referenceTopics| == 8 && |o.structure| >= 2
      && o.structure[0].name == AbstractName && o.structure[|o.structure| - 1].name == ReferencesName
  {
    StructuresTotal(t);
    StructureShape(t);
  }
}

=== FILE: citation_manager.dfy ===
/**
 * The citation panel (frontend/src/components/CitationManager.tsx): the add
 * form's validation and the record it builds, the DOI look-up's merge into
 * the form, and the copied bibliography. The DOI request itself is an input:
 * `None` when it failed, otherwise the fields of its response.
 */
module CitationManager {

  import opened Wrappers
  import opened Strings
  import opened Paper
  import opened Store
  import opened Format
  import opened Sidebar

  datatype FormData = FormData(author: string, title: string, journal: string, year: string, doi: string)

  const EmptyForm := FormData("", "", "", "", "")

  datatype PanelState = PanelState(form: FormData, showForm: bool)

  /** A toast: its kind and message. */
  datatype Notice = ErrorNotice(message: string) | SuccessNotice(message: string)

  /** Author, title and year must be non-empty; a value of spaces passes,
      and journal and DOI are optional. */
  predicate RequiredFilled(f: FormData) {
    f.author != "" && f.title != "" && f.year != ""
  }

  /** `{ id: generateId(), ...formData, type: selectedTemplate.toLowerCase() }`. */
  function BuildCitation(f: FormData, template: string, freshId: string): (c: Citation)
    ensures c.id == freshId && c.citationType == Lower(template)
  {
    Citation(freshId, f.author, f.title, f.journal, f.year, Some(f.doi), Lower(template))
  }

  /** The form fields a citation carries. */
  function FormOf(c: Citation): FormData {
    FormData(c.author, c.title, c.journal, c.year, c.doi.GetOr(""))
  }

  /** Building a citation keeps every form field: reading them back gives
      the form. */
  lemma BuildKeepsForm(f: FormData, template: string, freshId: string)
    ensures FormOf(BuildCitation(f, template, freshId)) == f
  {
  }

  datatype SubmitOutcome = SubmitOutcome(store: State, panel: PanelState, notice: Notice)

  /** `handleSubmit`. */
  function Submit(s: State, p: PanelState, freshId: string): (r: SubmitOutcome)
    ensures !RequiredFilled(p.form) ==>
      r == SubmitOutcome(s, p, ErrorNotice("Please fill in required fields"))
    ensures RequiredFilled(p.form) ==>
      && r.store == AddCitation(s, BuildCitation(p.form, s.selectedTemplate, freshId))
      && r.panel == PanelState(EmptyForm, false)
      && r.notice == SuccessNotice("Citation added successfully")
  {
    if !RequiredFilled(p.form) then SubmitOutcome(s, p, ErrorNotice("Please fill in required fields"))
    else
      SubmitOutcome(AddCitation(s, BuildCitation(p.form, s.selectedTemplate, freshId)),
                    PanelState(EmptyForm, false),
                    SuccessNotice("Citation added successfully"))
  }

  /** An accepted submit appends one citation, holding the form's fields,
      the fresh id and the lower-cased template id, and nothing else in the
      store changes. */
  lemma SubmitAppends(s: State, p: PanelState, freshId: string)
    requires RequiredFilled(p.form)
    ensures var r := Submit(s, p, freshId).store;
      && |r.citations| == |s.citations| + 1
      && r.citations[..|s.citations|] == s.citations
      && FormOf(r.citations[|s.citations|]) == p.form
      && r.citations[|s.citations|].id == freshId
      && r.citations[|s.citations|].citationType == Lower(s.selectedTemplate)
      && r == s.(citations := r.citations)
  {
  }

  /** Fields of spaces are accepted. */
  lemma BlankButNonEmptyAccepted(s: State, freshId: string)
    ensures |Submit(s, PanelState(FormData(" ", " ", "", " ", ""), true), freshId).store.citations|
         == |s.citations| + 1
  {
  }

  /** The types submitted under the selector's options: the template ids
      themselves, of which only "ieee" is one of 'ieee' | 'apa' | 'mla'. */
  lemma SubmittedTypes(f: FormData, freshId: string)
    ensures forall t :: t in TemplateOptions ==> BuildCitation(f, t, freshId).citationType == t
    ensures forall t :: t in TemplateOptions && t != "ieee" ==>
      t != "apa" && t != "mla"
  {
    forall t | t in TemplateOptions
      ensures Lower(t) == t
    {
      LowerOfLowerCase(t);
    }
  }

  /** Formatting under a template id: only "ieee" reaches a style of its
      own, the other five ids fall through to the plain form. */
  lemma TemplateIdStyles()
    ensures StyleOf("ieee") == Ieee
    ensures forall t :: t in TemplateOptions && t != "ieee" ==> StyleOf(t) == OtherStyle
  {
    forall t | t in TemplateOptions
      ensures Lower(t) == t
    {
      LowerOfLowerCase(t);
    }
  }

  /** The response of the DOI look-up; a field that is missing, null or
      empty is `None`. */
  datatype DoiResponse = DoiResponse(author: Option<string>, title: Option<string>,
                                     journal: Option<string>, year: Option<string>)

  datatype FetchOutcome = Refused(notice: Notice) | Fetched(form: FormData, notice: Notice)

  /** `handleFetchFromDOI`: refused without a DOI; on failure the form stays;
      on success the four fields are overwritten (missing ones with "")
      and the DOI is kept. */
  function FetchFromDoi(f: FormData, response: Option<DoiResponse>): (r: FetchOutcome)
    ensures f.doi == "" <==> r.Refused?
    ensures r.Fetched? ==> r.form.doi == f.doi
    ensures r.Fetched? && response.None? ==> r.form == f
    ensures r.Fetched? && response.Some? ==>
      && r.form.author == response.value.author.GetOr("")
      && r.form.title == response.value.title.GetOr("")
      && r.form.journal == response.value.journal.GetOr("")
      && r.form.year == response.value.year.GetOr("")
  {
    if f.doi == "" then Refused(ErrorNotice("Please enter a DOI"))
    else match response
      case None => Fetched(f, ErrorNotice("Failed to fetch citation details"))
      case Some(d) =>
        Fetched(f.(author := d.author.GetOr(""), title := d.title.GetOr(""),
                   journal := d.journal.GetOr(""), year := d.year.GetOr("")),
                SuccessNotice("Citation details fetched successfully"))
  }

  /** Fetching the same response twice gives the form of fetching once. */
  lemma FetchIdempotent(f: FormData, d: DoiResponse)
    requires f.doi != ""
    ensures FetchFromDoi(FetchFromDoi(f, Some(d)).form, Some(d)) == FetchFromDoi(f, Some(d))
  {
  }

  /** One bibliography line: `[i+1] ` and the formatted citation. */
  function BibliographyEntry(i: nat, c: Citation, template: string): string {
    "[" + NatToString(i + 1) + "] " + FormatCitation(c, template)
  }

  function BibliographyEntries(cs: seq<Citation>, template: string): (r: seq<string>)
    ensures |r| == |cs|
    ensures forall i :: 0 <= i < |cs| ==> r[i] == BibliographyEntry(i, cs[i], template)
  {
    seq(|cs|, i requires 0 <= i < |cs| => BibliographyEntry(i, cs[i], template))
  }

  /** The copied bibliography: the numbered entries joined by a blank
      line. */
  function Bibliography(cs: seq<Citation>, template: string): string {
    Join(BibliographyEntries(cs, template), "\n\n")
  }

  /** Adding a citation adds one entry at the end, numbered one past the
      last: the bibliography follows the list order. */
  lemma BibliographyAppend(cs: seq<Citation>, c: Citation, template: string)
    requires |cs| >= 1
    ensures Bibliography(cs + [c], template)
         == Bibliography(cs, template) + "\n\n" + BibliographyEntry(|cs|, c, template)
  {
    EntriesAppend(cs, c, template);
    JoinAppend(BibliographyEntries(cs, template), BibliographyEntry(|cs|, c, template), "\n\n");
  }

  lemma EntriesAppend(cs: seq<Citation>, c: Citation, template: string)
    ensures BibliographyEntries(cs + [c], template)
         == BibliographyEntries(cs, template) + [BibliographyEntry(|cs|, c, template)]
  {
    var es := BibliographyEntries(cs, template);
    assert BibliographyEntries(cs + [c], template) == es + [BibliographyEntry(|cs|, c, template)];
  }

  lemma BibliographySingle(c: Citation, template: string)
    ensures Bibliography([c], template) == "[1] " + FormatCitation(c, template)
  {
    assert BibliographyEntries([c], template) == [BibliographyEntry(0, c, template)];
  }
}

=== FILE: citation_service.dfy ===
/**
 * The backend citation routes (backend/app/services/citation_service.py):
 * `format_citation`, which fills one of four fixed templates from a
 * free-form record and answers 400 for a missing field, and the shaping of
 * an already-fetched CrossRef work into such a record.
 */
module CitationService {

  import opened Wrappers
  import opened Strings
  import opened Paper
  import Format

  /** The request's `citation` dictionary, with string values. */
  type Record = map<string, string>

  /** An `HTTPException`: status code and detail. */
  datatype HttpError = HttpError(status: nat, detail: string)

  const IdKey := "id"
  const AuthorKey := "author"
  const TitleKey := "title"
  const JournalKey := "journal"
  const YearKey := "year"
  const DoiKey := "doi"

  /** The four fields every template reads. */
  const RequiredKeys: set<string> := {AuthorKey, TitleKey, JournalKey, YearKey}

  /** The id an IEEE reference shows when the record has none. */
  const DefaultId := "1"

  /** The detail of the 400 answer: `str(KeyError(key))` quotes the key. */
  function MissingField(key: string): HttpError {
    HttpError(400, "Missing required field: '" + key + "'")
  }

  // ---------------------------------------------------------------------
  // format_citation
  // ---------------------------------------------------------------------

  /** The fields a template reads, in the order its f-string reads them;
      the APA template reads the year second. */
  function KeysRead(style: Format.Style): (r: seq<string>)
    ensures |r| == 4
    ensures forall k :: k in r <==> k in RequiredKeys
    ensures r[0] == AuthorKey
  {
    match style
    case Apa => [AuthorKey, YearKey, TitleKey, JournalKey]
    case _ => [AuthorKey, TitleKey, JournalKey, YearKey]
  }

  /** The first of `keys` the record lacks: the one whose `KeyError`
      escapes. */
  function FirstMissing(c: Record, keys: seq<string>): (r: Option<nat>)
    ensures r.None? <==> forall i :: 0 <= i < |keys| ==> keys[i] in c
    ensures r.Some? ==> r.value < |keys| && keys[r.value] !in c
    ensures r.Some? ==> forall j :: 0 <= j < r.value ==> keys[j] in c
  {
    if keys == [] then None
    else if keys[0] !in c then Some(0)
    else
      match FirstMissing(c, keys[1..])
      case None => None
      case Some(k) => Some(k + 1)
  }

  /** The frontend entry a complete record stands for; the id defaults to
      "1" as `citation.get('id', '1')` does. */
  function AsCitation(c: Record, style: string): Citation
    requires RequiredKeys <= c.Keys
  {
    Citation(
      if IdKey in c then c[IdKey] else DefaultId,
      c[AuthorKey], c[TitleKey], c[JournalKey], c[YearKey],
      if DoiKey in c then Some(c[DoiKey]) else None,
      Lower(style))
  }

  /** `format_citation`: the style is lower-cased and picks a template;
      a record without one of the four fields it reads gets the 400
      answer naming the first field the template reaches. Every formatted
      reference is the one the frontend's `formatCitation` builds from the
      same fields. */
  function FormatCitation(c: Record, style: string): (r: Result<string, HttpError>)
    ensures r.Ok? <==> RequiredKeys <= c.Keys
    ensures r.Ok? ==> r.value == Format.FormatCitation(AsCitation(c, style), style)
    ensures r.Err? ==>
      var keys := KeysRead(Format.StyleOf(style));
      exists i :: 0 <= i < 4 && keys[i] !in c && r.error == MissingField(keys[i])
        && forall j :: 0 <= j < i ==> keys[j] in c
  {
    var st := Format.StyleOf(style);
    var keys := KeysRead(st);
    match FirstMissing(c, keys)
    case Some(i) => Err(MissingField(keys[i]))
    case None =>
      assert forall k :: k in RequiredKeys ==> k in c by {
        assert forall k :: k in keys ==> k in c;
      }
      var id := if IdKey in c then c[IdKey] else DefaultId;
      var a, t, j, y := c[AuthorKey], c[TitleKey], c[JournalKey], c[YearKey];
      Ok(match st
        case Ieee => "[" + id + "] " + a + ", \"" + t + ",\" " + j + ", " + y + "."
        case Apa => a + " (" + y + "). " + t + ". " + j + "."
        case Mla => a + ". \"" + t + ".\" " + j + ", " + y + "."
        case OtherStyle => a + ", \"" + t + ",\" " + j + ", " + y + ".")
  }

  /** A frontend entry sent as a record. */
  function ToRecord(e: Citation): (r: Record)
    ensures RequiredKeys <= r.Keys && IdKey in r
  {
    map[IdKey := e.id, AuthorKey := e.author, TitleKey := e.title,
        JournalKey := e.journal, YearKey := e.year]
  }

  /** The backend and the frontend format an entry character for
      character alike, in every style. */
  lemma AgreesWithFrontend(e: Citation, style: string)
    ensures FormatCitation(ToRecord(e), style) == Ok(Format.FormatCitation(e, style))
  {
    var c := ToRecord(e);
    assert |IdKey| == 2 && |AuthorKey| == 6 && |TitleKey| == 5 && |JournalKey| == 7 && |YearKey| == 4;
    assert c[IdKey] == e.id && c[AuthorKey] == e.author && c[TitleKey] == e.title
      && c[JournalKey] == e.journal && c[YearKey] == e.year;
  }

  /** Without an id, an IEEE reference is numbered "[1]". */
  lemma IeeeIdDefault(c: Record, style: string)
    requires RequiredKeys <= c.Keys && IdKey !in c && Lower(style) == "ieee"
    ensures FormatCitation(c, style).Ok?
    ensures StartsWith(FormatCitation(c, style).value, "[1] ")
  {
  }

  /** A record lacking both the title and the year is refused for the
      year under APA and for the title under every other style. */
  lemma MissingFieldOrder(c: Record, style: string)
    requires AuthorKey in c && TitleKey !in c && YearKey !in c
    ensures Format.StyleOf(style) == Format.Apa ==> FormatCitation(c, style) == Err(MissingField(YearKey))
    ensures Format.StyleOf(style) != Format.Apa ==> FormatCitation(c, style) == Err(MissingField(TitleKey))
  {
    var keys := KeysRead(Format.StyleOf(style));
    var m := FirstMissing(c, keys);
    assert m == Some(1);
  }

  // ---------------------------------------------------------------------
  // The record built from a CrossRef work
  // ---------------------------------------------------------------------

  /** One entry of the work's `author` list; either name may be absent. */
  datatype Author = Author(family: Option<string>, given: Option<string>)

  /** `f"{a.get('family', '')}, {a.get('given', '')}"`. */
  function AuthorName(a: Author): string {
    a.family.GetOr("") + ", " + a.given.GetOr("")
  }

  function Names(authors: seq<Author>): (r: seq<string>)
    ensures |r| == |authors|
  {
    if authors == [] then [] else [AuthorName(authors[0])] + Names(authors[1..])
  }

  /** The family and given names, in order, two per author. */
  function NameParts(authors: seq<Author>): (r: seq<string>)
    ensures |r| == 2 * |authors|
  {
    if authors == [] then []
    else [authors[0].family.GetOr(""), authors[0].given.GetOr("")] + NameParts(authors[1..])
  }

  const MaxNamedAuthors := 3
  const EtAl := " et al."

  /** The first `MaxNamedAuthors` authors. */
  function Shown(authors: seq<Author>): (r: seq<Author>)
    ensures |r| <= MaxNamedAuthors
    ensures |authors| <= MaxNamedAuthors ==> r == authors
    ensures |authors| > MaxNamedAuthors ==> r == authors[..MaxNamedAuthors]
  {
    if |authors| <= MaxNamedAuthors then authors else authors[..MaxNamedAuthors]
  }

  /** The author string: the first three names joined by ", ", followed by
      " et al." exactly when there are more than three authors. */
  function AuthorString(authors: seq<Author>): (r: string)
    ensures |authors| <= MaxNamedAuthors ==> r == Join(Names(authors), ", ")
    ensures |authors| > MaxNamedAuthors ==> r == Join(Names(authors[..MaxNamedAuthors]), ", ") + EtAl
  {
    Join(Names(Shown(authors)), ", ") + (if |authors| > MaxNamedAuthors then EtAl else "")
  }

  /** Joining names joins their parts. */
  lemma {:induction false} NamesJoinParts(authors: seq<Author>)
    requires |authors| >= 1
    ensures Join(Names(authors), ", ") == Join(NameParts(authors), ", ")
    decreases |authors|
  {
    var a := authors[0];
    var f, g := a.family.GetOr(""), a.given.GetOr("");
    var parts := NameParts(authors);
    assert parts[1..] == [g] + NameParts(authors[1..]);
    if |authors| == 1 {
      assert parts[1..][1..] == [];
    } else {
      NamesJoinParts(authors[1..]);
      assert parts[1..][1..] == NameParts(authors[1..]);
    }
  }

  /** Names that are clean (no comma, no whitespace at either end). */
  predicate CleanNames(authors: seq<Author>) {
    forall i :: 0 <= i < |authors| ==>
      ',' !in authors[i].family.GetOr("") && Stripped(authors[i].family.GetOr(""))
      && ',' !in authors[i].given.GetOr("") && Stripped(authors[i].given.GetOr(""))
  }

  lemma {:induction false} CleanParts(authors: seq<Author>)
    requires CleanNames(authors)
    ensures forall i :: 0 <= i < |NameParts(authors)| ==>
      ',' !in NameParts(authors)[i] && Stripped(NameParts(authors)[i])
    decreases |authors|
  {
    if authors != [] {
      CleanParts(authors[1..]);
      var parts := NameParts(authors);
      assert forall i :: 2 <= i < |parts| ==> parts[i] == NameParts(authors[1..])[i - 2];
    }
  }

  /** Splitting the string of up to three clean authors on commas and
      trimming gives back their family and given names in order. */
  lemma AuthorStringRoundTrip(authors: seq<Author>)
    requires 1 <= |authors| <= MaxNamedAuthors && CleanNames(authors)
    ensures SplitTrim(AuthorString(authors), ',') == NameParts(authors)
  {
    NamesJoinParts(authors);
    CleanParts(authors);
    SplitTrimJoinSpaced(NameParts(authors), ',');
  }

  /** Beyond the third author only the fact that there are more counts. */
  lemma OnlyThreeNamed(authors: seq<Author>, others: seq<Author>)
    requires |authors| > MaxNamedAuthors && |others| > MaxNamedAuthors
    requires authors[..MaxNamedAuthors] == others[..MaxNamedAuthors]
    ensures AuthorString(authors) == AuthorString(others)
    ensures EndsWith(AuthorString(authors), EtAl)
  {
  }

  /** The parts of the work the route reads. A list that is present may be
      empty; `datePartsList` stands for `published.date-parts`, absent when
      either level is. */
  datatype Work = Work(
    authors: Option<seq<Author>>,
    titles: Option<seq<string>>,
    containerTitles: Option<seq<string>>,
    dateParts: Option<seq<seq<nat>>>)

  /** `str(e)` of the `IndexError` raised by `[0]` on an empty list. */
  const IndexErrorText := "list index out of range"

  function ProcessingError(): HttpError {
    HttpError(500, "Error processing DOI: " + IndexErrorText)
  }

  function FetchError(reason: string): HttpError {
    HttpError(400, "Failed to fetch DOI: " + reason)
  }

  /** `x.get(key, [""])[0]`: "" when absent, an error when empty. */
  function FirstOr(xs: Option<seq<string>>): (r: Option<string>)
    ensures r.None? <==> xs == Some([])
    ensures xs.None? ==> r == Some("")
    ensures xs.Some? && xs.value != [] ==> r == Some(xs.value[0])
  {
    match xs
    case None => Some("")
    case Some(s) => if s == [] then None else Some(s[0])
  }

  /** `str(... .get("date-parts", [[""]])[0][0])`: "" when absent, the
      first number in decimal otherwise, an error for an empty list. */
  function YearText(parts: Option<seq<seq<nat>>>): (r: Option<string>)
    ensures r.None? <==> parts.Some? && (parts.value == [] || parts.value[0] == [])
    ensures r == Some("") <==> parts.None?
    ensures r.Some? && parts.Some? ==>
      (forall i :: 0 <= i < |r.value| ==> IsDigit(r.value[i]))
      && ParseDigits(r.value) == parts.value[0][0]
  {
    match parts
    case None => Some("")
    case Some(p) =>
      if p == [] || p[0] == [] then None
      else
        ParseNatToString(p[0][0]);
        Some(NatToString(p[0][0]))
  }

  /** `fetch_citation_from_doi` after the request: a failed request is the
      400 answer with the failure's text, an empty title, container-title
      or date-parts list the 500 answer; otherwise the record of five
      fields, with the doi echoed. */
  function CitationFromWork(doi: string, response: Result<Work, string>): (r: Result<Record, HttpError>)
    ensures response.Err? ==> r == Err(FetchError(response.error))
    ensures response.Ok? ==>
      (r.Err? <==> FirstOr(response.value.titles).None? || FirstOr(response.value.containerTitles).None?
                   || YearText(response.value.dateParts).None?)
    ensures r.Err? && response.Ok? ==> r.error == ProcessingError()
    ensures r.Ok? ==> r.value.Keys == RequiredKeys + {DoiKey}
    ensures r.Ok? ==> r.value[DoiKey] == doi
    ensures r.Ok? ==> r.value[AuthorKey] == AuthorString(response.value.authors.GetOr([]))
    ensures r.Ok? ==> Some(r.value[TitleKey]) == FirstOr(response.value.titles)
    ensures r.Ok? ==> Some(r.value[JournalKey]) == FirstOr(response.value.containerTitles)
    ensures r.Ok? ==> Some(r.value[YearKey]) == YearText(response.value.dateParts)
  {
    match response
    case Err(reason) => Err(FetchError(reason))
    case Ok(w) =>
      var author := AuthorString(w.authors.GetOr([]));
      match (FirstOr(w.titles), FirstOr(w.containerTitles), YearText(w.dateParts))
      case (Some(title), Some(journal), Some(year)) =>
        assert |AuthorKey| == 6 && |TitleKey| == 5 && |JournalKey| == 7 && |YearKey| == 4 && |DoiKey| == 3;
        Ok(map[AuthorKey := author, TitleKey := title, JournalKey := journal, YearKey := year, DoiKey := doi])
      case _ => Err(ProcessingError())
  }

  /** Every record the DOI route returns can be formatted in every style,
      and its doi becomes the entry's doi. */
  lemma FetchedRecordFormats(doi: string, response: Result<Work, string>, style: string)
    requires CitationFromWork(doi, response).Ok?
    ensures FormatCitation(CitationFromWork(doi, response).value, style).Ok?
    ensures AsCitation(CitationFromWork(doi, response).value, style).doi == Some(doi)
  {
  }
}

=== FILE: config.dfy ===
/**
 * The backend settings' CORS origin list (backend/app/config.py): one
 * comma-separated setting, split on ',' with every piece stripped.
 */
module Config {

  import opened Strings

  const LocalFrontend := "http://localhost:3000"
  const LocalFrontendAlt := "http://localhost:3001"

  /** The setting's default, "http://localhost:3000,http://localhost:3001". */
  const DefaultCorsOrigins := LocalFrontend + "," + LocalFrontendAlt

  /** `cors_origins_list`: the comma-separated pieces, each stripped. */
  function CorsOriginsList(corsOrigins: string): seq<string> {
    SplitTrim(corsOrigins, ',')
  }

  /** Parsing a comma-joined list of clean origins gives them back. */
  lemma CorsOriginsRoundTrip(origins: seq<string>)
    requires |origins| >= 1
    requires forall i :: 0 <= i < |origins| ==> ',' !in origins[i] && Stripped(origins[i])
    ensures CorsOriginsList(Join(origins, ",")) == origins
  {
    SplitTrimJoin(origins, ',');
  }

  /** The default setting allows the two local development servers. */
  lemma DefaultOrigins()
    ensures CorsOriginsList(DefaultCorsOrigins) == [LocalFrontend, LocalFrontendAlt]
  {
    var origins := [LocalFrontend, LocalFrontendAlt];
    assert origins[1..] == [LocalFrontendAlt];
    CorsOriginsRoundTrip(origins);
  }

  /** A space after a comma is stripped, and a trailing comma adds an empty
      origin, which is kept. */
  lemma TrailingCommaKeepsEmptyOrigin(a: string, b: string)
    requires ',' !in a && ',' !in b && Stripped(a) && Stripped(b) && b != []
    ensures CorsOriginsList(a + ", " + b + ",") == [a, b, ""]
  {
    var pieces := [a, " " + b, ""];
    assert pieces[1..][1..] == [""];
    assert Join(pieces[1..], ",") == " " + b + "," + "";
    assert Join(pieces, ",") == a + ", " + b + ",";
    SplitJoin(pieces, ',');
    assert TrimStart(" " + b) == b by {
      assert (" " + b)[1..] == b;
    }
    TrimNoSpaceEnds(a);
  }
}

=== FILE: dates.dfy ===
/**
 * Calendar dates and timestamps in the ISO 8601 extended complete formats the
 * frontend writes (`toISOString()` and its date part), as the Date Time
 * String Format of ECMA-262 reads them back. Days are counted from
 * 1970-01-01 in the proleptic Gregorian calendar.
 */
module Dates {

  import opened Wrappers
  import opened Strings
  import opened Numbers

  datatype CalendarDate = CalendarDate(year: nat, month: nat, day: nat)

  predicate IsLeapYear(y: nat) {
    y % 4 == 0 && (y % 100 != 0 || y % 400 == 0)
  }

  function YearLength(y: nat): nat {
    if IsLeapYear(y) then 366 else 365
  }

  function DaysInMonth(y: nat, m: nat): (r: nat)
    requires 1 <= m <= 12
    ensures 28 <= r <= 31
  {
    if m == 2 then (if IsLeapYear(y) then 29 else 28)
    else if m == 4 || m == 6 || m == 9 || m == 11 then 30
    else 31
  }

  predicate ValidDate(c: CalendarDate) {
    1 <= c.month <= 12 && 1 <= c.day <= DaysInMonth(c.year, c.month)
  }

  /** Days of year `y` before the first of month `m` (13 meaning the end of
      the year). */
  function DaysBeforeMonth(y: nat, m: nat): nat
    requires 1 <= m <= 13
    decreases m
  {
    if m == 1 then 0 else DaysBeforeMonth(y, m - 1) + DaysInMonth(y, m - 1)
  }

  /** The twelve months fill the year exactly. */
  lemma MonthsFillYear(y: nat)
    ensures DaysBeforeMonth(y, 13) == YearLength(y)
  {
    var feb := DaysInMonth(y, 2);
    assert DaysBeforeMonth(y, 3) == 31 + feb;
    assert DaysBeforeMonth(y, 5) == 92 + feb;
    assert DaysBeforeMonth(y, 7) == 153 + feb;
    assert DaysBeforeMonth(y, 9) == 215 + feb;
    assert DaysBeforeMonth(y, 11) == 276 + feb;
  }

  /** Days from 0000-01-01 to the first of January of year `y`: 365 per
      year plus one per leap year before `y`. */
  function DaysBeforeYear(y: nat): nat {
    365 * y + (y + 3) / 4 - (y + 99) / 100 + (y + 399) / 400
  }

  /** Each year adds its own length. */
  lemma DaysBeforeNextYear(y: nat)
    ensures DaysBeforeYear(y + 1) == DaysBeforeYear(y) + YearLength(y)
  {
    DivStep(y, 4);
    DivStep(y, 100);
    DivStep(y, 400);
    CenturyDivisibility(y);
    var a, b, c := y % 4 == 0, y % 100 == 0, y % 400 == 0;
    assert YearLength(y) == 365 + (if a then 1 else 0) - (if b then 1 else 0) + (if c then 1 else 0);
  }

  /** A multiple of 400 is a multiple of 100, and a multiple of 100 is a
      multiple of 4. */
  lemma CenturyDivisibility(y: nat)
    ensures y % 400 == 0 ==> y % 100 == 0
    ensures y % 100 == 0 ==> y % 4 == 0
  {
    if y % 400 == 0 {
      DivUnique(y, 100, 4 * (y / 400), 0);
    }
    if y % 100 == 0 {
      DivUnique(y, 4, 25 * (y / 100), 0);
    }
  }

  /** Moving the numerator up by one from `y + k - 1` to `y + k` raises the
      quotient by `k` exactly when `k` divides `y`. */
  lemma DivStep(y: nat, k: nat)
    requires k > 0
    ensures (y + k) / k == (y + k - 1) / k + (if y % k == 0 then 1 else 0)
  {
    var q, r := y / k, y % k;
    assert y == k * q + r;
    DivUnique(y + k, k, q + 1, r);
    if r == 0 {
      DivUnique(y + k - 1, k, q, k - 1);
    } else {
      DivUnique(y + k - 1, k, q + 1, r - 1);
    }
  }

  lemma {:induction false} DaysBeforeYearMonotone(y1: nat, y2: nat)
    requires y1 < y2
    ensures DaysBeforeYear(y1) + YearLength(y1) <= DaysBeforeYear(y2)
    decreases y2 - y1
  {
    DaysBeforeNextYear(y1);
    if y1 + 1 < y2 {
      DaysBeforeYearMonotone(y1 + 1, y2);
    }
  }

  lemma {:induction false} DaysBeforeMonthMonotone(y: nat, m1: nat, m2: nat)
    requires 1 <= m1 < m2 <= 13
    ensures DaysBeforeMonth(y, m1) + DaysInMonth(y, m1) <= DaysBeforeMonth(y, m2)
    decreases m2 - m1
  {
    if m1 + 1 < m2 {
      DaysBeforeMonthMonotone(y, m1 + 1, m2);
    }
  }

  /** Days from 0000-01-01 to 1970-01-01. */
  const EpochDay: nat := 719528

  /** Days since 1970-01-01 (negative before it). */
  function DayNumber(c: CalendarDate): int
    requires ValidDate(c)
  {
    DaysBeforeYear(c.year) + DaysBeforeMonth(c.year, c.month) + c.day - 1 - EpochDay
  }

  lemma EpochIsDayZero()
    ensures DayNumber(CalendarDate(1970, 1, 1)) == 0
  {
  }

  /** Chronological order of calendar dates: by year, then month, then day. */
  predicate Before(a: CalendarDate, b: CalendarDate) {
    || a.year < b.year
    || (a.year == b.year && a.month < b.month)
    || (a.year == b.year && a.month == b.month && a.day < b.day)
  }

  /** Day numbers follow the calendar: a date before another has a smaller
      day number. */
  lemma DayNumberOrder(a: CalendarDate, b: CalendarDate)
    requires ValidDate(a) && ValidDate(b) && Before(a, b)
    ensures DayNumber(a) < DayNumber(b)
  {
    if a.year < b.year {
      DaysBeforeMonthMonotone(a.year, a.month, 13);
      MonthsFillYear(a.year);
      DaysBeforeYearMonotone(a.year, b.year);
    } else if a.month < b.month {
      DaysBeforeMonthMonotone(a.year, a.month, b.month);
    }
  }

  /** Distinct valid dates have distinct day numbers. */
  lemma DayNumberInjective(a: CalendarDate, b: CalendarDate)
    requires ValidDate(a) && ValidDate(b) && DayNumber(a) == DayNumber(b)
    ensures a == b
  {
    if Before(a, b) {
      DayNumberOrder(a, b);
    } else if Before(b, a) {
      DayNumberOrder(b, a);
    }
  }

  // ---------------------------------------------------------------------
  // Fixed-width digits
  // ---------------------------------------------------------------------

  function Pow10(k: nat): (r: nat)
    ensures r >= 1
  {
    if k == 0 then 1 else 10 * Pow10(k - 1)
  }

  /** The last `width` decimal digits of `n`, zero-padded. */
  function PadDigits(n: nat, width: nat): (r: string)
    ensures |r| == width
    ensures forall i :: 0 <= i < |r| ==> IsDigit(r[i])
  {
    if width == 0 then "" else PadDigits(n / 10, width - 1) + [DigitChar(n % 10)]
  }

  /** Reading back a zero-padded rendering gives the number when it fits. */
  lemma {:induction false} ParsePadDigits(n: nat, width: nat)
    requires n < Pow10(width)
    ensures ParseDigits(PadDigits(n, width)) == n
  {
    if width > 0 {
      ParsePadDigits(n / 10, width - 1);
      var r := PadDigits(n, width);
      assert r[..|r| - 1] == PadDigits(n / 10, width - 1);
    }
  }

  predicate AllDigits(s: string) {
    forall i :: 0 <= i < |s| ==> IsDigit(s[i])
  }

  /** The number written by the digits `s[i..j]`, when they all are
      digits. */
  function DigitsAt(s: string, i: nat, j: nat): Option<nat>
    requires i <= j <= |s|
  {
    if AllDigits(s[i..j]) then Some(ParseDigits(s[i..j])) else None
  }

  // ---------------------------------------------------------------------
  // Dates and timestamps as text
  // ---------------------------------------------------------------------

  /** `YYYY-MM-DD`, as `toISOString().split('T')[0]` writes a date of a
      four-digit year. */
  function FormatIsoDate(c: CalendarDate): (r: string)
    ensures |r| == 10
  {
    PadDigits(c.year, 4) + "-" + PadDigits(c.month, 2) + "-" + PadDigits(c.day, 2)
  }

  /** Reads `YYYY-MM-DD`: four, two and two digits, separated by '-', naming
      a real calendar day. */
  function ParseIsoDate(s: string): (r: Option<CalendarDate>)
    ensures r.Some? ==> ValidDate(r.value) && r.value.year < 10000
    ensures r.Some? ==> |s| == 10
  {
    if |s| != 10 || s[4] != '-' || s[7] != '-' then None
    else
      match (DigitsAt(s, 0, 4), DigitsAt(s, 5, 7), DigitsAt(s, 8, 10))
      case (Some(y), Some(m), Some(d)) =>
        var c := CalendarDate(y, m, d);
        if ValidDate(c) then (ParseDigitsBound(s[0..4]); Some(c)) else None
      case _ => None
  }

  /** `k` digits read less than `10^k`. */
  lemma {:induction false} ParseDigitsBound(s: string)
    requires AllDigits(s)
    ensures ParseDigits(s) < Pow10(|s|)
    decreases |s|
  {
    if s != [] {
      ParseDigitsBound(s[..|s| - 1]);
    }
  }

  /** Writing a date and reading it back gives the date. */
  lemma ParseFormatIsoDate(c: CalendarDate)
    requires ValidDate(c) && c.year < 10000
    ensures ParseIsoDate(FormatIsoDate(c)) == Some(c)
  {
    var s := FormatIsoDate(c);
    assert s[0..4] == PadDigits(c.year, 4);
    assert s[5..7] == PadDigits(c.month, 2);
    assert s[8..10] == PadDigits(c.day, 2);
    ParsePadDigits(c.year, 4);
    ParsePadDigits(c.month, 2);
    ParsePadDigits(c.day, 2);
    assert DigitsAt(s, 0, 4) == Some(c.year);
    assert DigitsAt(s, 5, 7) == Some(c.month);
    assert DigitsAt(s, 8, 10) == Some(c.day);
  }

  /** The time of day of a timestamp, to the millisecond. */
  datatype TimeOfDay = TimeOfDay(hour: nat, minute: nat, second: nat, milli: nat)

  predicate ValidTime(t: TimeOfDay) {
    t.hour < 24 && t.minute < 60 && t.second < 60 && t.milli < 1000
  }

  function MillisOfDay(t: TimeOfDay): nat {
    ((t.hour * 60 + t.minute) * 60 + t.second) * 1000 + t.milli
  }

  const MillisPerDay: nat := 86400000

  /** `THH:MM:SS.sssZ`, the part of `toISOString()` after the date. */
  function FormatTimeText(t: TimeOfDay): (r: string)
    ensures |r| == 14
  {
    "T" + PadDigits(t.hour, 2) + ":" + PadDigits(t.minute, 2) + ":"
      + PadDigits(t.second, 2) + "." + PadDigits(t.milli, 3) + "Z"
  }

  function ParseTimeText(u: string): (r: Option<TimeOfDay>)
    ensures r.Some? ==> ValidTime(r.value)
  {
    if |u| == 14 && u[0] == 'T' && u[3] == ':' && u[6] == ':' && u[9] == '.' && u[13] == 'Z' then
      match (DigitsAt(u, 1, 3), DigitsAt(u, 4, 6), DigitsAt(u, 7, 9), DigitsAt(u, 10, 13))
      case (Some(h), Some(m), Some(sec), Some(ms)) =>
        var t := TimeOfDay(h, m, sec, ms);
        if ValidTime(t) then Some(t) else None
      case _ => None
    else None
  }

  lemma ParseFormatTimeText(t: TimeOfDay)
    requires ValidTime(t)
    ensures ParseTimeText(FormatTimeText(t)) == Some(t)
  {
    var u := FormatTimeText(t);
    assert u[1..3] == PadDigits(t.hour, 2);
    assert u[4..6] == PadDigits(t.minute, 2);
    assert u[7..9] == PadDigits(t.second, 2);
    assert u[10..13] == PadDigits(t.milli, 3);
    ParsePadDigits(t.hour, 2);
    ParsePadDigits(t.minute, 2);
    ParsePadDigits(t.second, 2);
    ParsePadDigits(t.milli, 3);
    assert DigitsAt(u, 1, 3) == Some(t.hour);
    assert DigitsAt(u, 4, 6) == Some(t.minute);
    assert DigitsAt(u, 7, 9) == Some(t.second);
    assert DigitsAt(u, 10, 13) == Some(t.milli);
  }

  /** `YYYY-MM-DDTHH:MM:SS.sssZ`, the output of `toISOString()`. */
  function FormatTimestamp(c: CalendarDate, t: TimeOfDay): (r: string)
    ensures |r| == 24
  {
    FormatIsoDate(c) + FormatTimeText(t)
  }

  /** `new Date(s).getTime()` for the two ISO forms: a bare date means UTC
      midnight. Any other text is `NaN`, here `None`. */
  function ParseTimestamp(s: string): (r: Option<int>)
    ensures |s| != 10 && |s| != 24 ==> r.None?
  {
    if |s| == 10 then
      match ParseIsoDate(s)
      case Some(c) => Some(DayNumber(c) * MillisPerDay)
      case None => None
    else if |s| == 24 then
      match (ParseIsoDate(s[..10]), ParseTimeText(s[10..]))
      case (Some(c), Some(t)) => Some(DayNumber(c) * MillisPerDay + MillisOfDay(t))
      case _ => None
    else None
  }

  /** Reading back a written timestamp gives its milliseconds since the
      epoch. */
  lemma ParseFormatTimestamp(c: CalendarDate, t: TimeOfDay)
    requires ValidDate(c) && c.year < 10000 && ValidTime(t)
    ensures ParseTimestamp(FormatTimestamp(c, t)) == Some(DayNumber(c) * MillisPerDay + MillisOfDay(t))
  {
    var s := FormatTimestamp(c, t);
    assert s[..10] == FormatIsoDate(c);
    assert s[10..] == FormatTimeText(t);
    ParseFormatIsoDate(c);
    ParseFormatTimeText(t);
  }
}

=== FILE: detector.dfy ===
/**
 * The backend's AI-content detector (backend/app/services/detector_service.py):
 * the short-text cut-off, the weighted pattern score and its normalisation,
 * the level thresholds, the flagged sentences, the suggestion list, and the
 * disclosure statement.
 *
 * The regular-expression engine is not modelled: a `Scan` says what each of
 * the thirteen patterns matched, and the two sentence-shape heuristics, which
 * compare floating-point averages, arrive as booleans.
 */
module Detector {

  import opened Wrappers
  import opened Strings
  import opened Numbers
  import opened Schemas

  // ---------------------------------------------------------------------
  // Patterns and the raw score
  // ---------------------------------------------------------------------

  /** The weight of each of the thirteen patterns, in table order. */
  const Weights: seq<nat> := [2, 1, 3, 2, 2, 2, 3, 1, 1, 1, 2, 3, 3]

  /** What the regular expressions found in the lower-cased text: for each
      pattern the matched phrases in order (the first group for the grouped
      patterns), and the outcome of the two sentence-shape checks. */
  datatype Scan = Scan(
    matches: seq<seq<string>>,
    averageInBand: bool,   // 20 <= mean words per '.'-piece <= 25
    lowVariance: bool)     // variance of the non-blank pieces' lengths < 30

  predicate ValidScan(sc: Scan) { |sc.matches| == |Weights| }

  /** Sum of (number of matches × weight) over the first `n` patterns. */
  function WeightedMatches(matches: seq<seq<string>>, n: nat): (t: nat)
    requires n <= |matches| == |Weights|
  {
    if n == 0 then 0 else WeightedMatches(matches, n - 1) + |matches[n - 1]| * Weights[n - 1]
  }

  /** One more match of any pattern never lowers the weighted count. */
  lemma {:induction false} WeightedMatchesMonotone(a: seq<seq<string>>, b: seq<seq<string>>, n: nat)
    requires n <= |a| == |b| == |Weights|
    requires forall i :: 0 <= i < |a| ==> |a[i]| <= |b[i]|
    ensures WeightedMatches(a, n) <= WeightedMatches(b, n)
  {
    if n > 0 {
      WeightedMatchesMonotone(a, b, n - 1);
      assert |a[n - 1]| * Weights[n - 1] <= |b[n - 1]| * Weights[n - 1] by {
        MulMonotone(Weights[n - 1], |a[n - 1]|, |b[n - 1]|);
      }
    }
  }

  /** Number of strings that are not blank. */
  function NonBlankCount(xs: seq<string>): (r: nat)
    ensures r <= |xs|
    ensures r == |Keep(xs, HasText)|
  {
    if xs == [] then 0
    else
      var init := xs[..|xs| - 1];
      assert xs == init + [xs[|xs| - 1]];
      KeepSnoc(init, xs[|xs| - 1], HasText);
      NonBlankCount(init) + (if IsBlank(xs[|xs| - 1]) then 0 else 1)
  }

  /** The two +5 bonuses: only when the text has more than five '.'-pieces,
      and the second only when more than five of them are non-blank. */
  function Bonus(text: string, sc: Scan): (b: nat)
    ensures b == 0 || b == 5 || b == 10
    ensures Count(text, '.') + 1 <= 5 ==> b == 0
  {
    var sentences := SplitAt(text, '.');
    if |sentences| <= 5 then 0
    else
      (if sc.averageInBand then 5 else 0)
      + (if NonBlankCount(sentences) > 5 && sc.lowVariance then 5 else 0)
  }

  // ---------------------------------------------------------------------
  // Normalisation
  // ---------------------------------------------------------------------

  /** `min(100, int((total / max(words * 0.1, 10)) * 100))`, computed
      exactly: the quotient is 1000·total / max(words, 100). */
  function NormalizedScore(total: nat, words: nat): (r: int)
    ensures 0 <= r <= 100
    ensures r == 100 <==> 1000 * total >= 100 * Max(words, 100)
    ensures r < 100 ==> r * Max(words, 100) <= 1000 * total < (r + 1) * Max(words, 100)
    ensures total == 0 ==> r == 0
  {
    var d := Max(words, 100);
    var m := 1000 * total;
    var q := m / d;
    assert m == d * q + m % d && 0 <= m % d < d;
    assert q >= 0 by {
      MulAwayFromZero(d, q);
    }
    if q >= 100 then
      assert m >= 100 * d by {
        MulMonotone(d, 100, q);
      }
      100
    else
      assert m < 100 * d by {
        MulMonotone(d, q + 1, 100);
      }
      assert total == 0 ==> q == 0 by {
        MulAwayFromZero(d, q);
      }
      q
  }

  /** More weighted matches never give a lower score. */
  lemma NormalizedScoreMonotone(t1: nat, t2: nat, words: nat)
    requires t1 <= t2
    ensures NormalizedScore(t1, words) <= NormalizedScore(t2, words)
  {
    var d := Max(words, 100);
    var r1, r2 := NormalizedScore(t1, words), NormalizedScore(t2, words);
    if r2 < 100 {
      assert r1 * d <= 1000 * t1 <= 1000 * t2 < (r2 + 1) * d;
      MulCancel(d, r1, r2 + 1);
    }
  }

  // ---------------------------------------------------------------------
  // Level and suggestions
  // ---------------------------------------------------------------------

  /** `_determine_level`. */
  function DetermineLevel(score: int): (l: AILevel)
    ensures l == Low <==> score < 30
    ensures l == Medium <==> 30 <= score < 60
    ensures l == High <==> 60 <= score
  {
    if score < 30 then Low else if score < 60 then Medium else High
  }

  function LevelRank(l: AILevel): nat {
    match l
    case Low => 0
    case Medium => 1
    case High => 2
  }

  /** A higher score never gives a lower level. */
  lemma DetermineLevelMonotone(s1: int, s2: int)
    requires s1 <= s2
    ensures LevelRank(DetermineLevel(s1)) <= LevelRank(DetermineLevel(s2))
  {
  }

  const ShortTextSuggestion := "Text too short for reliable analysis"

  const LowReading := "Text shows low indicators of AI generation. Minimal AI disclosure may be needed."
  const LowAdvice := "Consider disclosing any AI tools used for editing, proofreading, or brainstorming."
  const MediumReading := "Text shows moderate indicators of AI generation. Consider reviewing flagged sections."
  const MediumAdvice := "Recommend including an AI disclosure statement describing how AI tools were used."
  const MediumReview := "Review flagged sections for overly formal or generic language and add personal insights."
  const HighReading := "Text shows high indicators of AI generation. Thorough review recommended."
  const HighRequired := "REQUIRED: Include comprehensive AI disclosure statement for journal submission."
  const HighRewrite := "Strongly recommend rewriting flagged sections to add original analysis and insights."
  const HighAttribution := "Ensure all AI-generated content is properly attributed and meets journal guidelines."

  function LevelSuggestions(level: AILevel): (r: seq<string>)
    ensures level == Low ==> |r| == 2
    ensures level == Medium ==> |r| == 3
    ensures level == High ==> |r| == 4
  {
    match level
    case Low => [LowReading, LowAdvice]
    case Medium => [MediumReading, MediumAdvice, MediumReview]
    case High => [HighReading, HighRequired, HighRewrite, HighAttribution]
  }

  /** The opening sentence that states the level. */
  function Reading(level: AILevel): string {
    match level
    case Low => LowReading
    case Medium => MediumReading
    case High => HighReading
  }

  function FlaggedReview(numFlagged: nat): string {
    "Review " + NatToString(numFlagged) + " flagged section(s) for common AI-generated phrases and patterns."
  }

  /** `_generate_suggestions`: the level's fixed advice, then a line naming
      the number of flagged sentences when there are any. */
  function GenerateSuggestions(level: AILevel, numFlagged: nat): (r: seq<string>)
    ensures |r| == |LevelSuggestions(level)| + (if numFlagged > 0 then 1 else 0)
    ensures r[..|LevelSuggestions(level)|] == LevelSuggestions(level)
    ensures numFlagged > 0 ==> r[|r| - 1] == FlaggedReview(numFlagged)
    ensures r[0] == Reading(level)
  {
    LevelSuggestions(level) + (if numFlagged > 0 then [FlaggedReview(numFlagged)] else [])
  }

  // ---------------------------------------------------------------------
  // Context of a match
  // ---------------------------------------------------------------------

  /** The piece of `text` between the last '.' before `start` and the first
      '.' at or after `end` (or the end of the text). */
  function SentenceAround(text: string, start: nat, end: nat): (r: (nat, nat))
    requires start <= end <= |text|
    ensures r.0 <= start && end <= r.1 <= |text|
    ensures r.0 == 0 || text[r.0 - 1] == '.'
    ensures forall j :: r.0 <= j < start ==> text[j] != '.'
    ensures r.1 == |text| || text[r.1] == '.'
    ensures forall j :: end <= j < r.1 ==> text[j] != '.'
  {
    (AfterLastCharBefore(text, '.', start), FindCharFrom(text, '.', end))
  }

  /** The first position where `phrase` occurs in `text`, letters compared
      without regard to case (`re.search(re.escape(phrase), text, re.I)`). */
  function FindIgnoringCase(text: string, phrase: string): (r: Option<nat>)
    ensures r.Some? ==> r.value + |phrase| <= |text|
                        && Lower(text[r.value..r.value + |phrase|]) == Lower(phrase)
    ensures r.Some? ==> forall j :: 0 <= j < r.value ==> !StartsWith(Lower(text)[j..], Lower(phrase))
    ensures r.None? <==> !Contains(Lower(text), Lower(phrase))
  {
    var r := IndexOf(Lower(text), Lower(phrase));
    if r.Some? then
      assert Lower(text[r.value..r.value + |phrase|]) == Lower(text)[r.value..r.value + |phrase|];
      r
    else r
  }

  /** The stripped sentence around `text[start..end]`. */
  function SentenceOf(text: string, start: nat, end: nat): (r: string)
    requires start <= end <= |text|
    ensures Stripped(r) && |r| <= |text|
    ensures r == [] <==> IsBlank(text[SentenceAround(text, start, end).0..SentenceAround(text, start, end).1])
    ensures exists i, j :: SentenceAround(text, start, end).0 <= i <= j <= SentenceAround(text, start, end).1
                           && r == text[i..j] && IsBlank(text[SentenceAround(text, start, end).0..i])
                           && IsBlank(text[j..SentenceAround(text, start, end).1])
  {
    var bounds := SentenceAround(text, start, end);
    var r := Trim(text[bounds.0..bounds.1]);
    assert exists i, j :: bounds.0 <= i <= j <= bounds.1 && r == text[i..j]
                          && IsBlank(text[bounds.0..i]) && IsBlank(text[j..bounds.1]) by {
      TrimInside(text, bounds.0, bounds.1);
    }
    r
  }

  /** `context[:200]`. */
  function Clip(s: string): (r: string)
    ensures |r| <= 200 && |r| <= |s| && r == s[..|r|]
    ensures |s| <= 200 ==> r == s
    ensures r == [] <==> s == []
    ensures |r| == Min(|s|, 200)
  {
    s[..Min(|s|, 200)]
  }

  /** `_extract_context`: the first case-insensitive occurrence of the
      phrase, widened to its sentence, stripped and cut to 200 characters;
      "" when the phrase does not occur. */
  function ExtractContext(text: string, phrase: string): (r: string)
    ensures |r| <= 200
    ensures FindIgnoringCase(text, phrase).None? ==> r == ""
    ensures FindIgnoringCase(text, phrase).Some? ==> r == ContextAt(text, FindIgnoringCase(text, phrase).value, |phrase|)
  {
    var m := FindIgnoringCase(text, phrase);
    if m.None? then "" else ContextAt(text, m.value, |phrase|)
  }

  /** The clipped sentence around a match of length `len` at `start`. */
  function ContextAt(text: string, start: nat, len: nat): (r: string)
    ensures |r| <= 200
    ensures start + len <= |text| ==> r == Clip(SentenceOf(text, start, start + len))
  {
    if start + len <= |text| then Clip(SentenceOf(text, start, start + len)) else ""
  }

  // ---------------------------------------------------------------------
  // Flagged sections
  // ---------------------------------------------------------------------

  /** At most the first three matches of each pattern are looked at. */
  function FirstThree(xs: seq<string>): (r: seq<string>)
    ensures |r| == Min(|xs|, 3) && r == xs[..|r|]
  {
    xs[..Min(|xs|, 3)]
  }

  /** The phrases looked at, pattern by pattern. */
  function Candidates(matches: seq<seq<string>>): seq<string> {
    if matches == [] then []
    else Candidates(matches[..|matches| - 1]) + FirstThree(matches[|matches| - 1])
  }

  /** `_extract_context` bound to one text. */
  function ContextIn(text: string): (ctx: string -> string)
    ensures forall phrase :: ctx(phrase) == ExtractContext(text, phrase)
  {
    phrase => ExtractContext(text, phrase)
  }

  /** The context of every phrase, in order. */
  function Contexts(ctx: string -> string, phrases: seq<string>): (r: seq<string>)
    ensures |r| == |phrases|
    ensures forall i :: 0 <= i < |r| ==> r[i] == ctx(phrases[i])
  {
    seq(|phrases|, i requires 0 <= i < |phrases| => ctx(phrases[i]))
  }

  /** Contexts are taken phrase by phrase. */
  lemma ContextsAppend(ctx: string -> string, a: seq<string>, b: seq<string>)
    ensures Contexts(ctx, a + b) == Contexts(ctx, a) + Contexts(ctx, b)
  {
    assert forall i :: 0 <= i < |a + b| ==> (a + b)[i] == if i < |a| then a[i] else b[i - |a|];
  }

  /** One more phrase adds its context at the end. */
  lemma ContextsSnoc(ctx: string -> string, phrases: seq<string>, j: nat)
    requires j < |phrases|
    ensures Contexts(ctx, phrases[..j + 1]) == Contexts(ctx, phrases[..j]) + [ctx(phrases[j])]
  {
    var a, b := Contexts(ctx, phrases[..j + 1]), Contexts(ctx, phrases[..j]) + [ctx(phrases[j])];
    forall i | 0 <= i < |a| ensures a[i] == b[i] {
      assert phrases[..j + 1][i] == phrases[i];
    }
  }

  /** `if context and context not in flagged_sections: append`. */
  function AddNew(acc: seq<string>, x: string): seq<string> {
    if x == "" || x in acc then acc else acc + [x]
  }

  /** The contexts kept, in order of first appearance: empty ones and
      repeats are dropped. */
  function Dedup(xs: seq<string>): seq<string> {
    if xs == [] then []
    else AddNew(Dedup(xs[..|xs| - 1]), xs[|xs| - 1])
  }

  predicate Distinct(xs: seq<string>) {
    forall i, j :: 0 <= i < j < |xs| ==> xs[i] != xs[j]
  }

  /** The kept list holds each non-empty input exactly once and nothing
      else. */
  lemma {:induction false} DedupSpec(xs: seq<string>)
    ensures Distinct(Dedup(xs))
    ensures forall x :: x in Dedup(xs) <==> x != "" && x in xs
    decreases |xs|
  {
    if xs != [] {
      var init := xs[..|xs| - 1];
      DedupSpec(init);
      assert xs == init + [xs[|xs| - 1]];
    }
  }

  /** Adding one more context to the input extends the kept list by
      `AddNew`. */
  lemma DedupSnoc(xs: seq<string>, x: string)
    ensures Dedup(xs + [x]) == AddNew(Dedup(xs), x)
  {
    assert (xs + [x])[..|xs|] == xs;
  }

  /** The inner loop of `_calculate_score`: the first three matches of one
      pattern, each context appended unless it is empty or already flagged. */
  method AddPatternContexts(ctx: string -> string, flagged: seq<string>, ghost done: seq<string>, ms: seq<string>)
    returns (result: seq<string>)
    requires flagged == Dedup(done)
    ensures result == Dedup(done + Contexts(ctx, FirstThree(ms)))
  {
    result := flagged;
    ghost var seen := done;
    var j := 0;
    assert done + Contexts(ctx, ms[..0]) == done;
    while j < |ms| && j < 3
      invariant 0 <= j <= Min(|ms|, 3)
      invariant seen == done + Contexts(ctx, ms[..j])
      invariant result == Dedup(seen)
    {
      var context := ctx(ms[j]);
      ContextsSnoc(ctx, ms, j);
      DedupSnoc(seen, context);
      if context != "" && context !in result {
        result := result + [context];
      }
      seen := seen + [context];
      j := j + 1;
    }
    assert ms[..j] == FirstThree(ms);
  }

  /** The loop over the patterns, with the context function a parameter. */
  method CollectFlagged(ctx: string -> string, matches: seq<seq<string>>) returns (flagged: seq<string>)
    ensures flagged == Dedup(Contexts(ctx, Candidates(matches)))
  {
    flagged := [];
    var p := 0;
    while p < |matches|
      invariant 0 <= p <= |matches|
      invariant flagged == Dedup(Contexts(ctx, Candidates(matches[..p])))
    {
      assert matches[..p + 1][..p] == matches[..p];
      ContextsAppend(ctx, Candidates(matches[..p]), FirstThree(matches[p]));
      flagged := AddPatternContexts(ctx, flagged, Contexts(ctx, Candidates(matches[..p])), matches[p]);
      p := p + 1;
    }
    assert matches[..p] == matches;
  }

  /** Every context is at most 200 characters long. */
  lemma ContextsShort(text: string, phrases: seq<string>)
    ensures forall x :: x in Contexts(ContextIn(text), phrases) ==> |x| <= 200
  {
    var cs := Contexts(ContextIn(text), phrases);
    forall x | x in cs ensures |x| <= 200 {
      var i :| 0 <= i < |cs| && cs[i] == x;
      assert x == ExtractContext(text, phrases[i]);
    }
  }

  /** The flagged sentences of `_calculate_score`, as the nested loop over
      patterns and their first three matches builds them. */
  method FlaggedSections(text: string, matches: seq<seq<string>>) returns (flagged: seq<string>)
    ensures flagged == Dedup(Contexts(ContextIn(text), Candidates(matches)))
    ensures Distinct(flagged)
    ensures forall x :: x in flagged ==> x != "" && |x| <= 200
  {
    flagged := CollectFlagged(ContextIn(text), matches);
    DedupSpec(Contexts(ContextIn(text), Candidates(matches)));
    ContextsShort(text, Candidates(matches));
  }

  const MaxFlagged := 10

  /** `flagged_sections[:10]`: distinct, non-empty sentences of at most 200
      characters, each the context of a candidate phrase. */
  function Flagged(text: string, matches: seq<seq<string>>): (r: seq<string>)
    ensures |r| <= MaxFlagged && Distinct(r)
    ensures |r| == Min(|Dedup(Contexts(ContextIn(text), Candidates(matches)))|, MaxFlagged)
    ensures r == Dedup(Contexts(ContextIn(text), Candidates(matches)))[..|r|]
    ensures forall x :: x in r ==> x != "" && |x| <= 200 && x in Contexts(ContextIn(text), Candidates(matches))
  {
    var cs := Contexts(ContextIn(text), Candidates(matches));
    var all := Dedup(cs);
    var r := all[..Min(|all|, MaxFlagged)];
    DedupSpec(cs);
    ContextsShort(text, Candidates(matches));
    PrefixDistinct(all, |r|);
    r
  }

  /** A prefix of a distinct list is distinct and holds only its items. */
  lemma PrefixDistinct(xs: seq<string>, n: nat)
    requires n <= |xs| && Distinct(xs)
    ensures Distinct(xs[..n])
    ensures forall x :: x in xs[..n] ==> x in xs
  {
  }

  // ---------------------------------------------------------------------
  // The detector
  // ---------------------------------------------------------------------

  /** The normalised score of a text long enough to be analysed. */
  function Score(text: string, sc: Scan): (r: int)
    requires ValidScan(sc)
    ensures 0 <= r <= 100
  {
    NormalizedScore(WeightedMatches(sc.matches, |Weights|) + Bonus(text, sc), |Words(text)|)
  }

  /** `detect`: short texts are not analysed; otherwise the weighted pattern
      score plus the bonuses is normalised by the word count, and the first
      ten distinct flagged sentences are reported. */
  function Detect(text: string, sc: Scan): (r: DetectionResult)
    requires ValidScan(sc)
    ensures ValidDetectionResult(r)
    ensures r.level == DetermineLevel(r.score)
    ensures |Trim(text)| < 50 ==> r == DetectionResult(0, Low, [], [ShortTextSuggestion])
    ensures |Trim(text)| >= 50 ==> r.score == Score(text, sc)
    ensures |Trim(text)| >= 50 ==> r.flaggedSections == Flagged(text, sc.matches)
    ensures |Trim(text)| >= 50 ==>
      r.suggestions == GenerateSuggestions(r.level, |r.flaggedSections|)
    ensures |r.flaggedSections| <= MaxFlagged && Distinct(r.flaggedSections)
  {
    if |Trim(text)| < 50 then DetectionResult(0, Low, [], [ShortTextSuggestion])
    else
      var score := Score(text, sc);
      var flagged := Flagged(text, sc.matches);
      var level := DetermineLevel(score);
      DetectionResult(score, level, flagged, GenerateSuggestions(level, |flagged|))
  }

  /** No match of any pattern gives a weighted count of 0. */
  lemma {:induction false} WeightedMatchesNone(matches: seq<seq<string>>, n: nat)
    requires n <= |matches| == |Weights|
    requires forall i :: 0 <= i < |matches| ==> matches[i] == []
    ensures WeightedMatches(matches, n) == 0
  {
    if n > 0 {
      WeightedMatchesNone(matches, n - 1);
    }
  }

  /** Text with no pattern match and no bonus scores 0 and is rated low. */
  lemma NoMatchesScoresZero(text: string, sc: Scan)
    requires ValidScan(sc)
    requires forall i :: 0 <= i < |sc.matches| ==> sc.matches[i] == []
    requires !sc.averageInBand && !sc.lowVariance
    ensures Detect(text, sc).score == 0 && Detect(text, sc).level == Low
  {
    WeightedMatchesNone(sc.matches, |Weights|);
    assert Bonus(text, sc) == 0;
    assert Score(text, sc) == 0;
  }

  /** More matches of any pattern never lower the score of a text. */
  lemma DetectMonotone(text: string, a: Scan, b: Scan)
    requires ValidScan(a) && ValidScan(b)
    requires forall i :: 0 <= i < |a.matches| ==> |a.matches[i]| <= |b.matches[i]|
    requires a.averageInBand == b.averageInBand && a.lowVariance == b.lowVariance
    ensures Detect(text, a).score <= Detect(text, b).score
    ensures LevelRank(Detect(text, a).level) <= LevelRank(Detect(text, b).level)
  {
    ScoreMonotone(text, a, b);
    DetermineLevelMonotone(Detect(text, a).score, Detect(text, b).score);
  }

  lemma ScoreMonotone(text: string, a: Scan, b: Scan)
    requires ValidScan(a) && ValidScan(b)
    requires forall i :: 0 <= i < |a.matches| ==> |a.matches[i]| <= |b.matches[i]|
    requires a.averageInBand == b.averageInBand && a.lowVariance == b.lowVariance
    ensures Score(text, a) <= Score(text, b)
  {
    BonusOfFlags(text, a, b);
    WeightedMatchesMonotone(a.matches, b.matches, |Weights|);
    NormalizedScoreMonotone(WeightedMatches(a.matches, |Weights|) + Bonus(text, a),
                            WeightedMatches(b.matches, |Weights|) + Bonus(text, b), |Words(text)|);
  }

  /** The bonus depends only on the text and the two sentence-shape flags. */
  lemma BonusOfFlags(text: string, a: Scan, b: Scan)
    requires a.averageInBand == b.averageInBand && a.lowVariance == b.lowVariance
    ensures Bonus(text, a) == Bonus(text, b)
  {
  }

  // ---------------------------------------------------------------------
  // Disclosure statement
  // ---------------------------------------------------------------------

  const DisclosureTitle := "AI Disclosure Statement"
  const DisclosureOpening := DisclosureTitle + "\n\nThe authors acknowledge the use of "
  const DisclosureClosing :=
    "The authors take full responsibility for the content of this publication and confirm that all AI-generated suggestions were reviewed, validated, and integrated appropriately. "
    + "The final manuscript reflects the authors' original research, analysis, and conclusions. "
    + "All uses of AI tools comply with the ethical guidelines and policies of the submitting journal."

  /** `", ".join(ai_tools) if ai_tools else "AI writing assistance tools"`. */
  function ToolsText(tools: seq<string>): (r: string)
    ensures |tools| > 0 ==> forall i :: 0 <= i < |tools| ==> Contains(r, tools[i])
    ensures |tools| == 0 ==> r == "AI writing assistance tools"
  {
    if |tools| > 0 then
      var r := Join(tools, ", ");
      assert forall i :: 0 <= i < |tools| ==> Contains(r, tools[i]) by {
        forall i | 0 <= i < |tools| ensures Contains(r, tools[i]) {
          JoinContains(tools, ", ", i);
        }
      }
      r
    else "AI writing assistance tools"
  }

  /** The purpose sentence that follows the tools. */
  function PurposeSentence(purpose: string): string {
    " for " + purpose + ". "
  }

  /** `generate_disclosure`: the title line and the opening words, the
      tools, the purpose sentence, then three fixed sentences. */
  function GenerateDisclosure(tools: seq<string>, purpose: string): (r: string)
    ensures StartsWith(r, DisclosureTitle)
    ensures StartsWith(r, DisclosureOpening + ToolsText(tools))
    ensures EndsWith(r, DisclosureClosing)
    ensures Contains(r, PurposeSentence(purpose))
  {
    var tt := ToolsText(tools);
    var r := DisclosureOpening + tt + PurposeSentence(purpose) + DisclosureClosing;
    Framed(DisclosureOpening + tt, PurposeSentence(purpose), DisclosureClosing);
    StartsWithPrefix(r, DisclosureOpening + tt, PurposeSentence(purpose));
    StartsWithPrefix(r, DisclosureOpening, tt);
    StartsWithPrefix(r, DisclosureTitle, DisclosureOpening[|DisclosureTitle|..]);
    ContainsMiddle(DisclosureOpening + tt, PurposeSentence(purpose), DisclosureClosing);
    r
  }

  /** Every tool named in the request appears in the statement. */
  lemma DisclosureNamesEveryTool(tools: seq<string>, purpose: string, i: nat)
    requires i < |tools|
    ensures Contains(GenerateDisclosure(tools, purpose), tools[i])
  {
    var tt := ToolsText(tools);
    ContainsAfter(DisclosureOpening, tt, tools[i]);
    ContainsBefore(DisclosureOpening + tt, PurposeSentence(purpose), tools[i]);
    ContainsBefore(DisclosureOpening + tt + PurposeSentence(purpose), DisclosureClosing, tools[i]);
  }
}

=== FILE: detector_panel.dfy ===
/**
 * The AI-detector side panel (frontend/src/components/AIDetectorPanel.tsx):
 * the guard in front of a detection request, the guard and the tool list of
 * a disclosure request, the disclosure form's view state, and the colour
 * class of a detection level. The backend's answers are parameters
 * (`None` stands for a failed request).
 */
module DetectorPanel {

  import opened Wrappers
  import opened Strings
  import opened Paper
  import opened Store
  import Api
  import Detector
  import RequestBodies

  // ---------------------------------------------------------------------
  // The section a detection request reads
  // ---------------------------------------------------------------------

  /** `sections.find((s) => s.id === activeSection)`: no section matches a
      null `activeSection`. */
  function CurrentSection(s: State): (r: Option<Section>)
    ensures s.activeSection.None? ==> r.None?
    ensures s.activeSection.Some? ==>
      (r.None? <==> !HasId(s.sections, SectionId, s.activeSection.value))
    ensures r.Some? ==> r.value in s.sections && r.value.id == s.activeSection.value
  {
    match s.activeSection
    case None => None
    case Some(id) =>
      match FindFirst(s.sections, SectionId, id)
      case None => None
      case Some(k) => Some(s.sections[k])
  }

  /** What a click on "Detect" leaves behind: the store, the alert shown,
      and the text sent to the backend. */
  datatype DetectOutcome = DetectOutcome(
    store: State,
    alert: Option<string>,
    request: Option<string>)

  const SelectSectionAlert := "Please select a section with content first"
  const DetectFailedAlert := "Failed to analyze content. Please try again."

  /** `handleDetect`: refused unless the active section has non-empty
      content; otherwise that content is sent and a response is stored with
      `setDetectionResult`. */
  function HandleDetect(s: State, response: Option<Blob>): (r: DetectOutcome)
    ensures r.request.Some? <==> CurrentSection(s).Some? && CurrentSection(s).value.content != ""
    ensures r.request.Some? ==> r.request.value == CurrentSection(s).value.content
    ensures r.request.None? ==> r.store == s && r.alert == Some(SelectSectionAlert)
    ensures r.request.Some? && response.Some? ==>
      r.store == s.(detectionResult := response) && r.alert.None?
    ensures r.request.Some? && response.None? ==>
      r.store == s && r.alert == Some(DetectFailedAlert)
  {
    match CurrentSection(s)
    case None => DetectOutcome(s, Some(SelectSectionAlert), None)
    case Some(sec) =>
      if sec.content == "" then DetectOutcome(s, Some(SelectSectionAlert), None)
      else if response.Some? then DetectOutcome(s.(detectionResult := response), None, Some(sec.content))
      else DetectOutcome(s, Some(DetectFailedAlert), Some(sec.content))
  }

  /** Only the store's `detectionResult` is ever written by a detection. */
  lemma DetectWritesOnlyResult(s: State, response: Option<Blob>)
    ensures HandleDetect(s, response).store == s.(detectionResult := HandleDetect(s, response).store.detectionResult)
    ensures Partialize(HandleDetect(s, response).store) == Partialize(s)
  {
  }

  // ---------------------------------------------------------------------
  // The disclosure form
  // ---------------------------------------------------------------------

  /** The panel's local state for the disclosure statement. */
  datatype DisclosureForm = DisclosureForm(
    aiTools: string,
    purpose: string,
    disclosureText: string,
    showForm: bool)

  const InitialForm := DisclosureForm("", "", "", false)

  const FillBothAlert := "Please fill in both fields"
  const DisclosureFailedAlert := "Failed to generate disclosure. Please try again."

  /** `aiTools.split(',').map((t) => t.trim())`. */
  function ToolList(aiTools: string): seq<string> {
    SplitTrim(aiTools, ',')
  }

  /** A clean comma-separated list comes back as its items. */
  lemma ToolListRoundTrip(tools: seq<string>)
    requires |tools| >= 1
    requires forall i :: 0 <= i < |tools| ==> ',' !in tools[i] && Stripped(tools[i])
    ensures ToolList(Join(tools, ",")) == tools
  {
    SplitTrimJoin(tools, ',');
  }

  /** The backend names the tools joined with ", " (detector_service.py:194);
      splitting that text the panel's way gives back the list of clean
      tools it was sent. */
  lemma ToolsTextSplits(tools: seq<string>)
    requires |tools| > 0
    requires forall i :: 0 <= i < |tools| ==> ',' !in tools[i] && Stripped(tools[i])
    ensures ToolList(Detector.ToolsText(tools)) == tools
  {
    assert ", " == [',', ' '];
    SplitTrimJoinSpaced(tools, ',');
  }

  /** A doubled or trailing comma yields an empty tool name; it is kept. */
  lemma EmptyToolsKept()
    ensures ToolList("ChatGPT,,Grammarly,") == ["ChatGPT", "", "Grammarly", ""]
  {
    var tools := ["ChatGPT", "", "Grammarly", ""];
    assert Join(tools, ",") == "ChatGPT,,Grammarly,";
    ToolListRoundTrip(tools);
  }

  datatype DisclosureOutcome = DisclosureOutcome(
    form: DisclosureForm,
    alert: Option<string>,
    request: Option<seq<string>>)

  /** `handleGenerateDisclosure`: refused unless both fields are non-blank;
      the request carries the tool list only. A returned statement is shown
      and the form closed; a failure changes nothing. */
  function GenerateDisclosure(f: DisclosureForm, statement: Option<string>): (r: DisclosureOutcome)
    ensures r.request.Some? <==> !IsBlank(f.aiTools) && !IsBlank(f.purpose)
    ensures r.request.Some? ==> r.request.value == ToolList(f.aiTools)
    ensures r.request.None? ==> r.form == f && r.alert == Some(FillBothAlert)
    ensures r.request.Some? && statement.Some? ==>
      r.form == f.(disclosureText := statement.value, showForm := false) && r.alert.None?
    ensures r.request.Some? && statement.None? ==>
      r.form == f && r.alert == Some(DisclosureFailedAlert)
  {
    if Trim(f.aiTools) == "" || Trim(f.purpose) == "" then
      DisclosureOutcome(f, Some(FillBothAlert), None)
    else
      var request := Some(ToolList(f.aiTools));
      match statement
      case Some(text) => DisclosureOutcome(f.(disclosureText := text, showForm := false), None, request)
      case None => DisclosureOutcome(f, Some(DisclosureFailedAlert), request)
  }

  /** The purpose is checked but never sent: two forms that differ only in a
      non-blank purpose send the same request. */
  lemma PurposeNotSent(f: DisclosureForm, otherPurpose: string, statement: Option<string>)
    requires !IsBlank(f.purpose) && !IsBlank(otherPurpose)
    ensures GenerateDisclosure(f, statement).request
         == GenerateDisclosure(f.(purpose := otherPurpose), statement).request
  {
  }

  /** "Generate New": clears the statement and reopens the form. */
  function GenerateNew(f: DisclosureForm): (r: DisclosureForm)
    ensures r.disclosureText == "" && r.showForm
    ensures r.aiTools == f.aiTools && r.purpose == f.purpose
  {
    f.(disclosureText := "", showForm := true)
  }

  /** After a successful request, "Generate New" leaves the form as it was
      before the request, except that it is open and empty of text. */
  lemma GenerateNewAfterSuccess(f: DisclosureForm, text: string)
    requires !IsBlank(f.aiTools) && !IsBlank(f.purpose)
    ensures GenerateNew(GenerateDisclosure(f, Some(text)).form) == f.(disclosureText := "", showForm := true)
  {
  }

  // ---------------------------------------------------------------------
  // The client object the panel imports
  // ---------------------------------------------------------------------

  /** Both requests as written: the panel imports `detectionAPI`, a name the
      client does not export (it exports `detectorAPI`), so each call throws
      inside its `try`. */
  function HandleDetectAsWritten(s: State, response: Option<Blob>): DetectOutcome {
    HandleDetect(s, Api.Call("detectionAPI", "detect", response))
  }

  function GenerateDisclosureAsWritten(f: DisclosureForm, statement: Option<string>): DisclosureOutcome {
    GenerateDisclosure(f, Api.Call("detectionAPI", "generateDisclosure", statement))
  }

  /** As written, a detection never stores a result and always ends in an
      alert, and a disclosure request never fills in a statement: the form
      comes back unchanged, whatever the server would have answered. */
  lemma DetectorPanelFailsAsWritten(s: State, response: Option<Blob>,
                                    f: DisclosureForm, statement: Option<string>)
    ensures HandleDetectAsWritten(s, response).store == s
    ensures HandleDetectAsWritten(s, response).alert.Some?
    ensures GenerateDisclosureAsWritten(f, statement).form == f
    ensures GenerateDisclosureAsWritten(f, statement).alert.Some?
  {
    Api.CallSiteNames();
  }

  /** With the exported `detectorAPI` the outcome follows the server: a
      detection answered by the server stores its result, and an answered
      disclosure request shows the statement. The answers are left open
      here: this repository's backend refuses the disclosure body, see
      `DisclosureBodyRefused`. */
  lemma DetectorAPIFollowsServer(s: State, response: Option<Blob>,
                                 f: DisclosureForm, statement: Option<string>)
    ensures var r := HandleDetect(s, Api.Call("detectorAPI", "detect", response));
      r.request.Some? && response.Some? ==> r.store.detectionResult == response
    ensures var r := GenerateDisclosure(f, Api.Call("detectorAPI", "generateDisclosure", statement));
      r.request.Some? && statement.Some? ==> r.form.disclosureText == statement.value && !r.form.showForm
  {
    Api.CallSiteNames();
  }

  /** The JSON body `detectorAPI.generateDisclosure(toolsList)` posts
      (api.ts:40-41): the tools under `ai_tools`; the panel passes no
      sections, so `sections_used` is `undefined` and left out. */
  function DisclosureBody(tools: seq<string>): (b: RequestBodies.Body)
    ensures "ai_tools" in b && b["ai_tools"] == RequestBodies.JTexts(tools)
    ensures "ai_tools_used" !in b && "purpose" !in b
  {
    map["ai_tools" := RequestBodies.JTexts(tools)]
  }

  /** Even through `detectorAPI` the backend refuses every disclosure
      request, whatever tool list the panel sends: `DisclosureRequest`
      declares `ai_tools_used` and `purpose`, and the body carries neither
      (a 422 answer). */
  lemma DisclosureBodyRefused(tools: seq<string>)
    ensures RequestBodies.ValidateDisclosure(DisclosureBody(tools)) == Err(RequestBodies.Missing("ai_tools_used"))
  {
  }

  // ---------------------------------------------------------------------
  // Level colours
  // ---------------------------------------------------------------------

  const GreenClasses := "text-green-600 bg-green-50 border-green-200"
  const YellowClasses := "text-yellow-600 bg-yellow-50 border-yellow-200"
  const RedClasses := "text-red-600 bg-red-50 border-red-200"
  const NeutralClasses := "text-secondary-600 bg-secondary-50 border-secondary-200"

  /** `getLevelColor` (also defined, identically, in FileUploadPanel.tsx):
      each of the three levels has a colour of its own, and every other
      string gets the neutral one. */
  function LevelColor(level: string): (r: string)
    ensures r == GreenClasses <==> level == "low"
    ensures r == YellowClasses <==> level == "medium"
    ensures r == RedClasses <==> level == "high"
    ensures r == NeutralClasses <==> level != "low" && level != "medium" && level != "high"
  {
    assert |GreenClasses| == 43 && |YellowClasses| == 46 && |RedClasses| == 37 && |NeutralClasses| == 55;
    match level
    case "low" => GreenClasses
    case "medium" => YellowClasses
    case "high" => RedClasses
    case _ => NeutralClasses
  }
}

=== FILE: export_modal.dfy ===
/**
 * The export dialog (frontend/src/components/ExportModal.tsx): the title
 * guard, the request payload, the download file name and the store update on
 * success. The export request itself is an input: whether it succeeded.
 */
module ExportModal {

  import opened Wrappers
  import opened Strings
  import opened Paper
  import opened Store
  import Api
  import RequestBodies

  /** `title.trim()` is non-empty. */
  predicate CanExport(title: string) {
    Trim(title) != ""
  }

  lemma CanExportIffNotBlank(title: string)
    ensures CanExport(title) <==> !IsBlank(title)
  {
  }

  /** The export button is disabled while loading or when the title is
      blank, so an enabled button always passes the guard. */
  predicate ExportDisabled(loading: bool, title: string) {
    loading || !CanExport(title)
  }

  lemma EnabledButtonPassesGuard(loading: bool, title: string)
    ensures !ExportDisabled(loading, title) ==> CanExport(title)
  {
  }

  datatype ExportSection = ExportSection(name: string, content: string)

  datatype ExportPayload = ExportPayload(
    title: string,
    authors: string,
    paperAbstract: string,
    keywords: string,
    sections: seq<ExportSection>,
    templateFormat: string,
    aiDisclosure: Option<string>)

  /** The request body: the paper's text fields, each section reduced to its
      name and content, the template, and the disclosure iff its checkbox is
      on. */
  function Payload(s: State, aiDisclosure: string, includeDisclosure: bool): (p: ExportPayload)
    ensures |p.sections| == |s.sections|
    ensures forall i :: 0 <= i < |s.sections| ==>
      p.sections[i] == ExportSection(s.sections[i].title, s.sections[i].content)
    ensures p.aiDisclosure.Some? <==> includeDisclosure
    ensures includeDisclosure ==> p.aiDisclosure == Some(aiDisclosure)
    ensures p.title == s.title && p.templateFormat == s.selectedTemplate
    ensures p.authors == s.authors && p.paperAbstract == s.paperAbstract && p.keywords == s.keywords
  {
    ExportPayload(
      s.title, s.authors, s.paperAbstract, s.keywords,
      seq(|s.sections|, i requires 0 <= i < |s.sections| =>
        ExportSection(s.sections[i].title, s.sections[i].content)),
      s.selectedTemplate,
      if includeDisclosure then Some(aiDisclosure) else None)
  }

  /** Sections with the same names and contents give the same payload
      sections: ids, word counts and goals are not sent. */
  lemma PayloadIgnoresBookkeeping(s: State, t: State, d: string, inc: bool)
    requires s == t.(sections := s.sections)
    requires |s.sections| == |t.sections|
    requires forall i :: 0 <= i < |s.sections| ==>
      s.sections[i].title == t.sections[i].title && s.sections[i].content == t.sections[i].content
    ensures Payload(s, d, inc) == Payload(t, d, inc)
  {
  }

  /** `c` as `[^a-z0-9]` with the `i` flag replaces it. */
  function SafeChar(c: char): (r: char)
    ensures IsAlnum(r) || r == '_'
    ensures IsAlnum(c) ==> r == c
    ensures !IsAlnum(c) ==> r == '_'
  {
    if IsAlnum(c) then c else '_'
  }

  /** `title.replace(/[^a-z0-9]/gi, '_')`. */
  function SanitizeTitle(title: string): (r: string)
    ensures |r| == |title|
    ensures forall i :: 0 <= i < |r| ==> IsAlnum(r[i]) || r[i] == '_'
    ensures forall i :: 0 <= i < |r| ==> (r[i] == title[i] <==> IsAlnum(title[i]) || title[i] == '_')
    ensures forall i :: 0 <= i < |r| ==> r[i] == (if IsAlnum(title[i]) then title[i] else '_')
  {
    seq(|title|, i requires 0 <= i < |title| => SafeChar(title[i]))
  }

  lemma SanitizeIdempotent(title: string)
    ensures SanitizeTitle(SanitizeTitle(title)) == SanitizeTitle(title)
  {
  }

  /** The downloaded file's name: the sanitised title and `.docx`. */
  function DownloadName(title: string): (r: string)
    ensures |r| == |title| + 5
    ensures EndsWith(r, ".docx")
    ensures r[..|title|] == SanitizeTitle(title)
  {
    SanitizeTitle(title) + ".docx"
  }

  datatype ExportOutcome = ExportOutcome(store: State, alert: string, downloaded: Option<string>)

  /** `handleExport`: a blank title is refused with an alert; a successful
      request downloads the file and closes the dialog; a failed one leaves
      the store as it was. */
  function HandleExport(s: State, succeeded: bool): (r: ExportOutcome)
    ensures !CanExport(s.title) ==> r == ExportOutcome(s, "Please add a title to your paper", None)
    ensures CanExport(s.title) && succeeded ==>
      r.store == Toggle(s, Export) && r.downloaded == Some(DownloadName(s.title))
    ensures CanExport(s.title) && !succeeded ==> r.store == s && r.downloaded.None?
  {
    if !CanExport(s.title) then ExportOutcome(s, "Please add a title to your paper", None)
    else if succeeded then
      ExportOutcome(Toggle(s, Export), "Paper exported successfully!", Some(DownloadName(s.title)))
    else ExportOutcome(s, "Failed to export paper. Please try again.", None)
  }

  /** Exporting from the open dialog closes it, and nothing a reload
      restores changes. */
  lemma SuccessfulExportClosesDialog(s: State)
    requires Export in s.panels && !IsBlank(s.title)
    ensures Export !in HandleExport(s, true).store.panels
    ensures Partialize(HandleExport(s, true).store) == Partialize(s)
  {
    CanExportIffNotBlank(s.title);
  }

  /** `handleExport` with the request it evidently means, `exportAPI.docx`:
      the outcome follows the server's answer. */
  function HandleExportWithDocx(s: State, reply: Option<Blob>): ExportOutcome {
    HandleExport(s, Api.Call("exportAPI", "docx", reply).Some?)
  }

  /** With a title and an answering server the export downloads the file and
      closes the dialog; without an answer it fails and keeps the dialog.
      The answer is left open here: this repository's backend refuses the
      body, see `DocxBodyRefused`. */
  lemma ExportWithDocxFollowsServer(s: State, reply: Option<Blob>)
    requires Export in s.panels && !IsBlank(s.title)
    ensures reply.Some? ==> Export !in HandleExportWithDocx(s, reply).store.panels
    ensures reply.Some? <==> HandleExportWithDocx(s, reply).downloaded == Some(DownloadName(s.title))
  {
    CanExportIffNotBlank(s.title);
    Api.CallSiteNames();
  }

  /** The JSON body `exportAPI.docx` posts for a payload: the store's author
      and keyword strings go as strings, each section as a `{name, content}`
      object, and an unchecked disclosure (`undefined`) is left out. */
  function ExportBody(p: ExportPayload): (b: RequestBodies.Body)
    ensures "authors" in b && b["authors"] == RequestBodies.JText(p.authors)
    ensures "keywords" in b && b["keywords"] == RequestBodies.JText(p.keywords)
    ensures "title" in b && b["title"] == RequestBodies.JText(p.title)
    ensures "ai_disclosure" in b <==> p.aiDisclosure.Some?
  {
    var fields := map[
      "title" := RequestBodies.JText(p.title),
      "authors" := RequestBodies.JText(p.authors),
      "abstract" := RequestBodies.JText(p.paperAbstract),
      "keywords" := RequestBodies.JText(p.keywords),
      "sections" := RequestBodies.JRecords(seq(|p.sections|, i requires 0 <= i < |p.sections| =>
        map["name" := p.sections[i].name, "content" := p.sections[i].content])),
      "template_format" := RequestBodies.JText(p.templateFormat)];
    match p.aiDisclosure
    case None => fields
    case Some(d) => fields["ai_disclosure" := RequestBodies.JText(d)]
  }

  /** Even through `exportAPI.docx` the backend refuses every export: the
      store holds authors and keywords as strings where `ExportRequest`
      declares lists, so validation stops at `authors` (a 422 answer). */
  lemma DocxBodyRefused(s: State, aiDisclosure: string, includeDisclosure: bool)
    ensures RequestBodies.ValidateDocxExport(ExportBody(Payload(s, aiDisclosure, includeDisclosure)))
         == Err(RequestBodies.WrongType("authors"))
  {
  }

  /** `handleExport` as written: line 43 calls `exportAPI.toDocx`, a method
      the client does not define, so the `catch` always runs. */
  function HandleExportAsWritten(s: State, reply: Option<Blob>): ExportOutcome {
    HandleExport(s, Api.Call("exportAPI", "toDocx", reply).Some?)
  }

  /** As written, no export ever succeeds: with a title the failure alert is
      shown, nothing is downloaded and the dialog stays open, whatever the
      server would have answered. */
  lemma ExportFailsAsWritten(s: State, reply: Option<Blob>)
    requires Export in s.panels && !IsBlank(s.title)
    ensures HandleExportAsWritten(s, reply) == ExportOutcome(s, "Failed to export paper. Please try again.", None)
    ensures Export in HandleExportAsWritten(s, reply).store.panels
  {
    CanExportIffNotBlank(s.title);
    Api.CallSiteNames();
  }
}

=== FILE: file_analysis.dfy ===
/**
 * The uploaded-file analysis (backend/app/services/file_analysis_service.py):
 * text extraction dispatched on the file name, the structure heuristics,
 * and the rule-based improvement suggestions. The DOCX, PDF and text
 * decoders are libraries; their readings of the file are parameters.
 */
module FileAnalysis {

  import opened Wrappers
  import opened Strings
  import opened Numbers
  import opened Schemas
  import Format
  import Detector
  import FileUpload

  // ---------------------------------------------------------------------
  // Extraction
  // ---------------------------------------------------------------------

  datatype DetectedFormat = DocxFormat | PdfFormat | TxtFormat

  /** What the three decoders make of the uploaded bytes: the DOCX
      paragraphs' texts, the PDF pages' texts, and the UTF-8 (or Latin-1)
      decoding; each may fail with the library's message. */
  datatype Decoded = Decoded(
    docxParagraphs: Result<seq<string>, string>,
    pdfPages: Result<seq<string>, string>,
    plainText: Result<string, string>)

  /** The `ValueError`s `extract_text` raises. */
  datatype ExtractError =
    | UnsupportedFormat
    | DocxFailed(reason: string)
    | PdfFailed(reason: string)
    | TxtFailed(reason: string)

  const BlankLine := "\n\n"

  /** The parts with text, in order. */
  function NonBlankParts(parts: seq<string>): (r: seq<string>)
    ensures forall i :: 0 <= i < |r| ==> HasText(r[i])
    ensures forall x :: x in r ==> x in parts
    ensures forall x :: x in parts && HasText(x) ==> x in r
  {
    Keep(parts, HasText)
  }

  /** One more part adds itself at the end exactly when it has text. */
  lemma NonBlankPartsSnoc(parts: seq<string>, x: string)
    ensures NonBlankParts(parts + [x]) == NonBlankParts(parts) + (if HasText(x) then [x] else [])
  {
    KeepSnoc(parts, x, HasText);
  }

  /** `"\n\n".join(p for p in parts if p.strip())`: the DOCX paragraphs or
      PDF pages with text, separated by a blank line. */
  function JoinParts(parts: seq<string>): string {
    Join(NonBlankParts(parts), BlankLine)
  }

  /** `extract_text`: the lower-cased name's suffix picks the decoder; any
      other name is refused before a decoder runs. */
  function ExtractText(filename: string, d: Decoded): (r: Result<(string, DetectedFormat), ExtractError>)
    ensures r == Err(UnsupportedFormat) <==>
      !EndsWith(Lower(filename), ".docx") && !EndsWith(Lower(filename), ".pdf")
      && !EndsWith(Lower(filename), ".txt")
    ensures r.Ok? && r.value.1 == DocxFormat ==>
      EndsWith(Lower(filename), ".docx") && d.docxParagraphs.Ok?
      && r.value.0 == JoinParts(d.docxParagraphs.value)
    ensures r.Ok? && r.value.1 == PdfFormat ==>
      EndsWith(Lower(filename), ".pdf") && d.pdfPages.Ok? && r.value.0 == JoinParts(d.pdfPages.value)
    ensures r.Ok? && r.value.1 == TxtFormat ==>
      EndsWith(Lower(filename), ".txt") && d.plainText.Ok? && r.value.0 == d.plainText.value
  {
    var name := Lower(filename);
    if EndsWith(name, ".docx") then
      match d.docxParagraphs
      case Ok(ps) => Ok((JoinParts(ps), DocxFormat))
      case Err(e) => Err(DocxFailed(e))
    else if EndsWith(name, ".pdf") then
      match d.pdfPages
      case Ok(ps) => Ok((JoinParts(ps), PdfFormat))
      case Err(e) => Err(PdfFailed(e))
    else if EndsWith(name, ".txt") then
      match d.plainText
      case Ok(t) => Ok((t, TxtFormat))
      case Err(e) => Err(TxtFailed(e))
    else Err(UnsupportedFormat)
  }

  /** The backend decodes exactly the names the upload panel accepts by
      their extension. */
  lemma ExtractAgreesWithUploadPanel(filename: string, d: Decoded)
    ensures ExtractText(filename, d) != Err(UnsupportedFormat) <==>
      FileUpload.HasAcceptedExtension(filename)
  {
  }

  // ---------------------------------------------------------------------
  // Paragraphs: splitting on a blank line
  // ---------------------------------------------------------------------

  /** `s.split("\n\n")`: the pieces between non-overlapping occurrences,
      found left to right. */
  function SplitParagraphs(s: string): (r: seq<string>)
    ensures |r| >= 1
    decreases |s|
  {
    if s == [] then [""]
    else if |s| >= 2 && s[0] == '\n' && s[1] == '\n' then [""] + SplitParagraphs(s[2..])
    else
      var rest := SplitParagraphs(s[1..]);
      [[s[0]] + rest[0]] + rest[1..]
  }

  /** Every line break in `s` is followed, within `s`, by another
      character: `s` neither holds a blank line nor ends with a break, so a
      blank line after it cannot start early. */
  predicate NoBreakRun(s: string) {
    forall i :: 0 <= i < |s| && s[i] == '\n' ==> i + 1 < |s| && s[i + 1] != '\n'
  }

  lemma {:induction false} SplitParagraphsSingle(x: string)
    requires NoBreakRun(x)
    ensures SplitParagraphs(x) == [x]
    decreases |x|
  {
    if x != [] {
      assert NoBreakRun(x[1..]);
      SplitParagraphsSingle(x[1..]);
      assert [x[0]] + x[1..] == x;
    }
  }

  lemma {:induction false} SplitParagraphsAfter(x: string, rest: string)
    requires NoBreakRun(x)
    ensures SplitParagraphs(x + BlankLine + rest) == [x] + SplitParagraphs(rest)
    decreases |x|
  {
    var s := x + BlankLine + rest;
    if x == [] {
      assert s[2..] == rest;
    } else {
      assert !(s[0] == '\n' && s[1] == '\n') by {
        if x[0] == '\n' { assert 1 < |x| && x[1] != '\n'; }
      }
      assert NoBreakRun(x[1..]);
      assert s[1..] == x[1..] + BlankLine + rest;
      SplitParagraphsAfter(x[1..], rest);
      assert [x[0]] + x[1..] == x;
    }
  }

  /** Splitting a blank-line join of break-free pieces gives them back. */
  lemma {:induction false} SplitParagraphsJoin(xs: seq<string>)
    requires |xs| >= 1
    requires forall i :: 0 <= i < |xs| ==> NoBreakRun(xs[i])
    ensures SplitParagraphs(Join(xs, BlankLine)) == xs
    decreases |xs|
  {
    if |xs| == 1 {
      SplitParagraphsSingle(xs[0]);
    } else {
      SplitParagraphsJoin(xs[1..]);
      SplitParagraphsAfter(xs[0], Join(xs[1..], BlankLine));
      assert [xs[0]] + xs[1..] == xs;
    }
  }

  /** `len([p for p in pieces if p.strip()])`. */
  function CountNonBlank(pieces: seq<string>): (r: nat)
    ensures r <= |pieces|
  {
    |Keep(pieces, HasText)|
  }

  // ---------------------------------------------------------------------
  // Headings and the abstract
  // ---------------------------------------------------------------------

  /** A stripped line that looks like a heading: non-empty, upper case in
      Python's sense, at most five words. */
  predicate IsHeading(t: string) {
    t != [] && IsUpperWord(t) && |Words(t)| <= 5
  }

  /** `[f(x) for x in xs if p(f(x))]`. */
  function KeepImages<T>(xs: seq<T>, f: T -> T, p: T -> bool): (r: seq<T>)
    ensures |r| <= |xs|
    ensures forall i :: 0 <= i < |r| ==> p(r[i])
    ensures forall i :: 0 <= i < |xs| && p(f(xs[i])) ==> f(xs[i]) in r
    ensures forall x :: x in r ==> exists i :: 0 <= i < |xs| && f(xs[i]) == x
  {
    if xs == [] then []
    else
      var rest := KeepImages(xs[1..], f, p);
      assert forall i :: 1 <= i < |xs| ==> xs[i] == xs[1..][i - 1];
      if p(f(xs[0])) then [f(xs[0])] + rest else rest
  }

  /** One more element adds its image at the end exactly when the image
      passes: images come out in input order, once per element. */
  lemma {:induction false} KeepImagesSnoc<T>(xs: seq<T>, x: T, f: T -> T, p: T -> bool)
    ensures KeepImages(xs + [x], f, p) == KeepImages(xs, f, p) + (if p(f(x)) then [f(x)] else [])
    decreases |xs|
  {
    if xs == [] {
      assert [x][1..] == [];
    } else {
      assert (xs + [x])[0] == xs[0];
      assert (xs + [x])[1..] == xs[1..] + [x];
      KeepImagesSnoc(xs[1..], x, f, p);
    }
  }

  /** The stripped heading lines, in order. */
  function Headings(lines: seq<string>): (r: seq<string>)
    ensures |r| <= |lines|
    ensures forall i :: 0 <= i < |r| ==> IsHeading(r[i])
    ensures forall i :: 0 <= i < |lines| && IsHeading(Trim(lines[i])) ==> Trim(lines[i]) in r
    ensures forall x :: x in r ==> exists i :: 0 <= i < |lines| && Trim(lines[i]) == x
  {
    KeepImages(lines, Trim, IsHeading)
  }

  /** One more line adds its trimmed text at the end exactly when that text
      is a heading. */
  lemma {:induction false} HeadingsSnoc(lines: seq<string>, line: string)
    ensures Headings(lines + [line]) == Headings(lines) + (if IsHeading(Trim(line)) then [Trim(line)] else [])
  {
    KeepImagesSnoc(lines, line, Trim, IsHeading);
  }

  /** Every heading is a stripped line. */
  lemma HeadingsStripped(lines: seq<string>)
    ensures forall i :: 0 <= i < |Headings(lines)| ==> Stripped(Headings(lines)[i])
  {
    forall i | 0 <= i < |Headings(lines)| ensures Stripped(Headings(lines)[i]) {
      var x := Headings(lines)[i];
      assert x in Headings(lines);
      var k :| 0 <= k < |lines| && Trim(lines[k]) == x;
    }
  }

  const MaxSections := 10

  /** `potential_sections[:10]`. */
  function EstimatedSections(lines: seq<string>): (r: seq<string>)
    ensures |r| <= MaxSections && |r| <= |Headings(lines)|
    ensures r == Headings(lines)[..|r|]
    ensures |Headings(lines)| <= MaxSections ==> r == Headings(lines)
    ensures |r| == Min(|Headings(lines)|, MaxSections)
  {
    var heads := Headings(lines);
    if |heads| <= MaxSections then heads else heads[..MaxSections]
  }

  const AbstractWord := "abstract"
  const AbstractWindow := 20

  /** `any('abstract' in line.lower() for line in lines[:20])`. */
  predicate MentionsAbstract(lines: seq<string>) {
    exists i :: 0 <= i < |lines| && i < AbstractWindow && Contains(Lower(lines[i]), AbstractWord)
  }

  /** `len(text.split())`, which is the count the editor shows. */
  function WordCount(text: string): (r: nat)
    ensures r == Format.CountWords(text)
  {
    WordsCountRuns(text);
    |Words(text)|
  }

  // ---------------------------------------------------------------------
  // The structure
  // ---------------------------------------------------------------------

  /** `analyze_structure`'s dictionary without `avg_sentence_length`. */
  datatype Structure = Structure(
    totalLines: nat,
    totalParagraphs: nat,
    wordCount: nat,
    estimatedSections: seq<string>,
    hasAbstract: bool)

  /** `analyze_structure`: the lines are the pieces between '\n's, the
      paragraphs the pieces with text between blank lines, the words the
      whitespace-separated tokens; at most ten heading lines are kept. */
  function AnalyzeStructure(text: string): (r: Structure)
    ensures r.totalLines == Count(text, '\n') + 1
    ensures r.totalParagraphs <= |SplitParagraphs(text)|
    ensures r.totalParagraphs == |NonBlankParts(SplitParagraphs(text))|
    ensures r.wordCount == Format.CountWords(text)
    ensures |r.estimatedSections| <= MaxSections
    ensures |r.estimatedSections| <= |Headings(SplitAt(text, '\n'))|
    ensures r.estimatedSections == Headings(SplitAt(text, '\n'))[..|r.estimatedSections|]
    ensures |r.estimatedSections| == Min(|Headings(SplitAt(text, '\n'))|, MaxSections)
    ensures r.hasAbstract <==> MentionsAbstract(SplitAt(text, '\n'))
  {
    var lines := SplitAt(text, '\n');
    Structure(|lines|, CountNonBlank(SplitParagraphs(text)), WordCount(text),
      EstimatedSections(lines), MentionsAbstract(lines))
  }

  /** The paragraph count of text extracted from a DOCX or PDF is the
      number of its parts with text, provided no part holds a blank line or
      ends with a line break. */
  lemma ExtractedParagraphs(parts: seq<string>)
    requires forall i :: 0 <= i < |parts| ==> NoBreakRun(parts[i])
    ensures AnalyzeStructure(JoinParts(parts)).totalParagraphs == |NonBlankParts(parts)|
  {
    var kept := NonBlankParts(parts);
    if kept == [] {
      assert JoinParts(parts) == "";
      assert SplitParagraphs("") == [""];
      assert Keep([""], HasText) == [];
    } else {
      assert forall i :: 0 <= i < |kept| ==> NoBreakRun(kept[i]) by {
        forall i | 0 <= i < |kept| ensures NoBreakRun(kept[i]) {
          assert kept[i] in parts;
        }
      }
      SplitParagraphsJoin(kept);
      KeepAll(kept, HasText);
    }
  }

  /** A text whose first line is "Abstract" has an abstract. */
  lemma AbstractFirstLine(rest: string)
    ensures AnalyzeStructure("Abstract\n" + rest).hasAbstract
  {
    var head := "Abstract";
    assert '\n' !in head;
    assert "Abstract\n" + rest == head + ['\n'] + rest;
    SplitAfterPiece(head, '\n', rest);
    var lower := Lower(head);
    assert lower == AbstractWord by {
      assert lower[0] == 'a';
    }
    ContainsMiddle("", AbstractWord, "");
    assert "" + AbstractWord + "" == AbstractWord;
    assert SplitAt(head + ['\n'] + rest, '\n')[0] == head;
  }

  // ---------------------------------------------------------------------
  // Improvement suggestions
  // ---------------------------------------------------------------------

  /** The eleven suggestions `generate_improvement_suggestions` can make. */
  datatype Advice =
    | ShortDocument | LongDocument
    | LongSentences | ShortSentences
    | NoAbstract | FewSections
    | HighAi | ModerateAi
    | CitationFormatTip | FiguresTip | ReferencesTip

  const ShortDocumentText := "Document is relatively short. Consider expanding key sections with more details and examples."
  const LongDocumentText := "Document is quite long. Consider condensing sections to improve readability."
  const LongSentencesText := "Average sentence length is high. Consider breaking complex sentences into simpler ones."
  const ShortSentencesText := "Average sentence length is quite short. Consider combining related ideas for better flow."
  const NoAbstractText := "No abstract detected. Add an abstract summarizing your research."
  const FewSectionsText := "Few sections detected. Consider organizing content with clear section headings (Introduction, Methodology, Results, etc.)."
  const HighAiText := "High AI-generated content detected. Review and add more original analysis and insights."
  const ModerateAiText := "Moderate AI-generated content detected. Consider revising flagged sections for authenticity."
  const CitationFormatText := "Ensure proper citation format matches your target journal (IEEE, APA, etc.)."
  const FiguresText := "Review figures and tables for proper numbering and captions."
  const ReferencesText := "Check that all references are properly cited in the text."

  function Text(a: Advice): string {
    match a
    case ShortDocument => ShortDocumentText
    case LongDocument => LongDocumentText
    case LongSentences => LongSentencesText
    case ShortSentences => ShortSentencesText
    case NoAbstract => NoAbstractText
    case FewSections => FewSectionsText
    case HighAi => HighAiText
    case ModerateAi => ModerateAiText
    case CitationFormatTip => CitationFormatText
    case FiguresTip => FiguresText
    case ReferencesTip => ReferencesText
  }

  /** Different suggestions read differently: the texts differ in length,
      except for two pairs that differ outright. */
  lemma TextInjective(a: Advice, b: Advice)
    requires Text(a) == Text(b)
    ensures a == b
  {
    assert |ShortDocumentText| == 93 && |LongDocumentText| == 76 && |LongSentencesText| == 87;
    assert |ShortSentencesText| == 89 && |NoAbstractText| == 64 && |FewSectionsText| == 122;
    assert |HighAiText| == 87 && |ModerateAiText| == 92 && |CitationFormatText| == 76;
    assert |FiguresText| == 60 && |ReferencesText| == 57;
    assert LongDocumentText != CitationFormatText;
    assert LongSentencesText != HighAiText;
  }

  /** The three formatting reminders every list ends with. */
  const FormattingTips := [CitationFormatTip, FiguresTip, ReferencesTip]

  const ShortWords := 2000
  const LongWords := 10000
  const LongSentenceWords := 30.0
  const ShortSentenceWords := 10.0
  const MinSections := 3

  /** `[a] if c else []`. */
  function When(c: bool, a: Advice): (r: seq<Advice>)
    ensures forall b :: b in r <==> c && b == a
  {
    if c then [a] else []
  }

  /** Whether a suggestion belongs in the list: each conditional one
      under its own rule, the formatting reminders always. */
  predicate Advised(a: Advice, st: Structure, avgSentenceLength: real, level: AILevel) {
    match a
    case ShortDocument => st.wordCount < ShortWords
    case LongDocument => LongWords < st.wordCount
    case LongSentences => avgSentenceLength > LongSentenceWords
    case ShortSentences => avgSentenceLength < ShortSentenceWords
    case NoAbstract => !st.hasAbstract
    case FewSections => |st.estimatedSections| < MinSections
    case HighAi => level == High
    case ModerateAi => level == Medium
    case _ => true
  }

  function LengthAdvice(wordCount: nat): (r: seq<Advice>)
    ensures |r| <= 1
    ensures forall b :: b in r <==>
      (b == ShortDocument && wordCount < ShortWords) || (b == LongDocument && LongWords < wordCount)
  {
    if wordCount < ShortWords then [ShortDocument] else When(wordCount > LongWords, LongDocument)
  }

  function SentenceAdvice(avg: real): (r: seq<Advice>)
    ensures |r| <= 1
    ensures forall b :: b in r <==>
      (b == LongSentences && avg > LongSentenceWords) || (b == ShortSentences && avg < ShortSentenceWords)
  {
    if avg > LongSentenceWords then [LongSentences] else When(avg < ShortSentenceWords, ShortSentences)
  }

  function AiAdvice(level: AILevel): (r: seq<Advice>)
    ensures |r| <= 1
    ensures forall b :: b in r <==> (b == HighAi && level == High) || (b == ModerateAi && level == Medium)
  {
    if level == High then [HighAi] else When(level == Medium, ModerateAi)
  }

  /** `generate_improvement_suggestions`, given the average sentence
      length (the one floating-point input) and the detection level. */
  function Suggestions(st: Structure, avgSentenceLength: real, level: AILevel): (r: seq<Advice>)
    ensures 3 <= |r| <= 8
  {
    LengthAdvice(st.wordCount) + SentenceAdvice(avgSentenceLength)
      + When(!st.hasAbstract, NoAbstract) + When(|st.estimatedSections| < MinSections, FewSections)
      + AiAdvice(level) + FormattingTips
  }

  /** A suggestion is listed exactly when its rule holds. */
  lemma SuggestionsListed(st: Structure, avg: real, level: AILevel, a: Advice)
    ensures a in Suggestions(st, avg, level) <==> Advised(a, st, avg, level)
  {
    var conditional := LengthAdvice(st.wordCount) + SentenceAdvice(avg)
      + When(!st.hasAbstract, NoAbstract) + When(|st.estimatedSections| < MinSections, FewSections)
      + AiAdvice(level);
    assert a in Suggestions(st, avg, level) <==> a in conditional || a in FormattingTips;
    match a
    case CitationFormatTip =>
    case FiguresTip =>
    case ReferencesTip =>
    case _ =>
      assert a !in FormattingTips;
  }

  /** The list ends with the three formatting reminders. */
  lemma SuggestionsEndWithTips(st: Structure, avg: real, level: AILevel)
    ensures Suggestions(st, avg, level)[|Suggestions(st, avg, level)| - 3..] == FormattingTips
  {
    var conditional := LengthAdvice(st.wordCount) + SentenceAdvice(avg)
      + When(!st.hasAbstract, NoAbstract) + When(|st.estimatedSections| < MinSections, FewSections)
      + AiAdvice(level);
    assert Suggestions(st, avg, level) == conditional + FormattingTips;
  }

  /** A short document is never also called long, and long sentences are
      never also called short. */
  lemma AdviceExclusive(st: Structure, avg: real, level: AILevel)
    ensures !(ShortDocument in Suggestions(st, avg, level) && LongDocument in Suggestions(st, avg, level))
    ensures !(LongSentences in Suggestions(st, avg, level) && ShortSentences in Suggestions(st, avg, level))
  {
    SuggestionsListed(st, avg, level, ShortDocument);
    SuggestionsListed(st, avg, level, LongDocument);
    SuggestionsListed(st, avg, level, LongSentences);
    SuggestionsListed(st, avg, level, ShortSentences);
  }

  /** The texts of a list of suggestions, in order. */
  function Texts(xs: seq<Advice>): (r: seq<string>)
    ensures |r| == |xs|
    ensures forall i :: 0 <= i < |xs| ==> r[i] == Text(xs[i])
  {
    seq(|xs|, i requires 0 <= i < |xs| => Text(xs[i]))
  }

  /** A suggestion's text is listed exactly when the suggestion is. */
  lemma TextListed(xs: seq<Advice>, a: Advice)
    ensures Text(a) in Texts(xs) <==> a in xs
  {
    if Text(a) in Texts(xs) {
      var i :| 0 <= i < |xs| && Texts(xs)[i] == Text(a);
      TextInjective(xs[i], a);
    }
  }

  // ---------------------------------------------------------------------
  // The whole analysis
  // ---------------------------------------------------------------------

  datatype FileAnalysisResult = FileAnalysisResult(
    wordCount: nat,
    detectedFormat: DetectedFormat,
    aiDetection: DetectionResult,
    structure: Structure,
    improvementSuggestions: seq<string>)

  /** The result for a text with the given structure and detection
      result: its word count, and the suggestions for both. */
  function Report(st: Structure, format: DetectedFormat, det: DetectionResult, avgSentenceLength: real)
    : (r: FileAnalysisResult)
    ensures r.detectedFormat == format && r.aiDetection == det && r.structure == st
    ensures r.wordCount == st.wordCount
    ensures |r.improvementSuggestions| >= 3
    ensures r.improvementSuggestions[|r.improvementSuggestions| - 3..] == Texts(FormattingTips)
    ensures forall a :: Text(a) in r.improvementSuggestions <==> Advised(a, st, avgSentenceLength, det.level)
  {
    var advice := Suggestions(st, avgSentenceLength, det.level);
    SuggestionsEndWithTips(st, avgSentenceLength, det.level);
    assert Texts(advice)[|advice| - 3..] == Texts(FormattingTips);
    assert forall a :: Text(a) in Texts(advice) <==> Advised(a, st, avgSentenceLength, det.level) by {
      forall a ensures Text(a) in Texts(advice) <==> Advised(a, st, avgSentenceLength, det.level) {
        TextListed(advice, a);
        SuggestionsListed(st, avgSentenceLength, det.level, a);
      }
    }
    FileAnalysisResult(st.wordCount, format, det, st, Texts(advice))
  }

  /** `analyze_file`: extraction errors propagate; extracted text is
      run through the detector and analysed. The pattern scan of the text
      is a parameter. */
  function AnalyzeFile(filename: string, d: Decoded, sc: Detector.Scan, avgSentenceLength: real)
    : (r: Result<FileAnalysisResult, ExtractError>)
    requires Detector.ValidScan(sc)
    ensures r.Err? <==> ExtractText(filename, d).Err?
    ensures r.Err? ==> r.error == ExtractText(filename, d).error
    ensures r.Ok? ==>
      var text := ExtractText(filename, d).value.0;
      r.value == Report(AnalyzeStructure(text), ExtractText(filename, d).value.1, Detector.Detect(text, sc), avgSentenceLength)
  {
    match ExtractText(filename, d)
    case Err(e) => Err(e)
    case Ok((text, format)) => Ok(Report(AnalyzeStructure(text), format, Detector.Detect(text, sc), avgSentenceLength))
  }

  /** A detection rated low, as every text too short to analyse is, never
      draws the requests to revise AI-generated content. */
  lemma LowRatingNoAiAdvice(st: Structure, format: DetectedFormat, det: DetectionResult, avg: real)
    requires det.level == Low
    ensures Text(HighAi) !in Report(st, format, det, avg).improvementSuggestions
    ensures Text(ModerateAi) !in Report(st, format, det, avg).improvementSuggestions
  {
    assert !Advised(HighAi, st, avg, det.level);
    assert !Advised(ModerateAi, st, avg, det.level);
  }
}

=== FILE: file_upload.dfy ===
/**
 * The file-upload side panel (frontend/src/components/FileUploadPanel.tsx):
 * which files are accepted, the title and file name of an export, the
 * guards in front of humanizing and exporting, and how many suggestions are
 * listed. The chosen file, the humanized text and the export format are the
 * panel's own state; the analysis lives in the store. Backend answers are
 * parameters (`None` stands for a failed request).
 */
module FileUpload {

  import opened Wrappers
  import opened Strings
  import opened Numbers
  import opened Store
  import Api
  import Routing

  /** The browser's `File`: its name and MIME type. */
  datatype File = File(name: string, mime: string)

  datatype ExportFormat = Docx | Pdf | Txt

  /** The panel's local state. */
  datatype Panel = Panel(
    uploadedFile: Option<File>,
    humanizedText: string,
    exportFormat: ExportFormat)

  const InitialPanel := Panel(None, "", Docx)

  datatype ToastKind = SuccessToast | ErrorToast

  datatype Toast = Toast(message: string, kind: ToastKind)

  // ---------------------------------------------------------------------
  // Accepting a file
  // ---------------------------------------------------------------------

  const DocxMime := "application/vnd.openxmlformats-officedocument.wordprocessingml.document"
  const ValidTypes: seq<string> := [DocxMime, "application/pdf", "text/plain"]

  /** `/\.(docx|pdf|txt)$/i`: the letters of the three extensions have no
      case variants outside ASCII, so ASCII lower-casing is exact here. */
  predicate HasAcceptedExtension(name: string) {
    var n := Lower(name);
    EndsWith(n, ".docx") || EndsWith(n, ".pdf") || EndsWith(n, ".txt")
  }

  /** The guard of `handleFileUpload`: a listed MIME type, or a listed
      extension in any case. */
  predicate Accepts(f: File) {
    f.mime in ValidTypes || HasAcceptedExtension(f.name)
  }

  lemma AcceptsExamples()
    ensures Accepts(File("Thesis.DOCX", ""))
    ensures Accepts(File("notes", "text/plain"))
    ensures !Accepts(File("slides.pptx", "application/vnd.ms-powerpoint"))
  {
    var n := Lower("Thesis.DOCX");
    assert n[6..] == ".docx";
    var m := Lower("slides.pptx");
    assert m[|m| - 5..] != ".docx" && m[|m| - 4..] != ".pdf" && m[|m| - 4..] != ".txt" by {
      assert m[|m| - 1] == 'x' && m[|m| - 2] == 't';
    }
  }

  const RejectedMessage := "Please upload a .docx, .pdf, or .txt file"
  const AnalyzedMessage := "File analyzed successfully!"
  const AnalyzeFailedMessage := "Failed to analyze file. Please try again."

  datatype UploadOutcome = UploadOutcome(store: State, panel: Panel, toast: Option<Toast>)

  /** `handleFileUpload`: no file changes nothing; a rejected file only shows
      an error; an accepted one becomes the panel's file, and a returned
      analysis is put into the store. */
  function HandleFileUpload(s: State, p: Panel, file: Option<File>, analysis: Option<Blob>): (r: UploadOutcome)
    ensures file.None? ==> r == UploadOutcome(s, p, None)
    ensures file.Some? && !Accepts(file.value) ==>
      r == UploadOutcome(s, p, Some(Toast(RejectedMessage, ErrorToast)))
    ensures file.Some? && Accepts(file.value) ==> r.panel == p.(uploadedFile := file)
    ensures file.Some? && Accepts(file.value) && analysis.Some? ==>
      r.store == s.(fileAnalysis := analysis) && r.toast == Some(Toast(AnalyzedMessage, SuccessToast))
    ensures file.Some? && Accepts(file.value) && analysis.None? ==>
      r.store == s && r.toast == Some(Toast(AnalyzeFailedMessage, ErrorToast))
  {
    match file
    case None => UploadOutcome(s, p, None)
    case Some(f) =>
      if !Accepts(f) then UploadOutcome(s, p, Some(Toast(RejectedMessage, ErrorToast)))
      else
        var p' := p.(uploadedFile := file);
        match analysis
        case Some(_) => UploadOutcome(s.(fileAnalysis := analysis), p', Some(Toast(AnalyzedMessage, SuccessToast)))
        case None => UploadOutcome(s, p', Some(Toast(AnalyzeFailedMessage, ErrorToast)))
  }

  /** An upload writes nothing the store persists. */
  lemma UploadNotPersisted(s: State, p: Panel, file: Option<File>, analysis: Option<Blob>)
    ensures Partialize(HandleFileUpload(s, p, file, analysis).store) == Partialize(s)
  {
  }

  // ---------------------------------------------------------------------
  // The export title
  // ---------------------------------------------------------------------

  predicate ExtensionChar(c: char) { c != '.' && c != '/' }

  /** Start of the longest run at the end of `s[..upto]` free of '.' and '/'. */
  function RunStart(s: string, upto: nat): (k: nat)
    requires upto <= |s|
    ensures k <= upto
    ensures forall i :: k <= i < upto ==> ExtensionChar(s[i])
    ensures k > 0 ==> !ExtensionChar(s[k - 1])
  {
    if upto == 0 || !ExtensionChar(s[upto - 1]) then upto else RunStart(s, upto - 1)
  }

  /** `name[k..]` is a non-empty extension right after a dot at `k - 1`. */
  predicate ExtensionAt(name: string, k: int) {
    0 < k < |name| && name[k - 1] == '.' && forall i :: k <= i < |name| ==> ExtensionChar(name[i])
  }

  /** A name has at most one extension: where the final run starts. */
  lemma ExtensionAtRunStart(name: string)
    ensures forall k :: ExtensionAt(name, k) ==> k == RunStart(name, |name|)
  {
    var j := RunStart(name, |name|);
    forall k | ExtensionAt(name, k) ensures k == j {
      assert !ExtensionChar(name[k - 1]);
    }
  }

  /** `name.replace(/\.[^/.]+$/, '')`: a final '.' followed by at least one
      character, none of them '.' or '/', is removed together with them. */
  function StripExtension(name: string): (r: string)
    ensures forall k :: ExtensionAt(name, k) ==> r == name[..k - 1]
    ensures (forall k :: !ExtensionAt(name, k)) ==> r == name
  {
    ExtensionAtRunStart(name);
    var k := RunStart(name, |name|);
    if 0 < k < |name| && name[k - 1] == '.' then
      assert ExtensionAt(name, k);
      name[..k - 1]
    else name
  }

  /** `uploadedFile?.name.replace(...) || 'Document'`. */
  function ExportTitle(file: Option<File>): (r: string)
    ensures r != ""
    ensures file.None? ==> r == "Document"
    ensures file.Some? && StripExtension(file.value.name) != "" ==> r == StripExtension(file.value.name)
    ensures file.Some? && StripExtension(file.value.name) == "" ==> r == "Document"
  {
    match file
    case None => "Document"
    case Some(f) => var t := StripExtension(f.name); if t == "" then "Document" else t
  }

  /** Naming a file `base.ext` and exporting it gives back `base`. */
  lemma ExportTitleRoundTrip(base: string, ext: string, mime: string)
    requires base != "" && ext != ""
    requires forall i :: 0 <= i < |ext| ==> ExtensionChar(ext[i])
    ensures ExportTitle(Some(File(base + "." + ext, mime))) == base
  {
    StripDotExtension(base, ext);
  }

  /** A name whose last dot comes before a '/' keeps its full name. */
  lemma DotBeforeSlashKept()
    ensures StripExtension("v1.0/draft") == "v1.0/draft"
  {
    var n := "v1.0/draft";
    ExtensionAtRunStart(n);
    assert RunStart(n, |n|) == 5 by {
      assert n[4] == '/';
      assert forall i :: 5 <= i < |n| ==> ExtensionChar(n[i]);
    }
    assert forall k :: !ExtensionAt(n, k) by {
      assert n[4] != '.';
    }
  }

  function FormatName(f: ExportFormat): string {
    match f
    case Docx => "docx"
    case Pdf => "pdf"
    case Txt => "txt"
  }

  /** The download attribute: `${title}.${exportFormat}`. */
  function FileDownloadName(title: string, f: ExportFormat): (r: string)
    ensures |r| == |title| + 1 + |FormatName(f)|
    ensures r[..|title|] == title && r[|title|] == '.'
    ensures StripExtension(r) == title
  {
    var r := title + "." + FormatName(f);
    assert r[..|title|] == title;
    assert forall i :: |title| + 1 <= i < |r| ==> r[i] == FormatName(f)[i - |title| - 1];
    StripDotExtension(title, FormatName(f));
    r
  }

  lemma StripDotExtension(base: string, ext: string)
    requires ext != ""
    requires forall i :: 0 <= i < |ext| ==> ExtensionChar(ext[i])
    ensures StripExtension(base + "." + ext) == base
  {
    var name := base + "." + ext;
    var k := |base| + 1;
    assert forall i :: k <= i < |name| ==> name[i] == ext[i - k];
    assert ExtensionAt(name, k);
    assert name[..k - 1] == base;
  }

  // ---------------------------------------------------------------------
  // Humanizing and exporting
  // ---------------------------------------------------------------------

  /** The backend's humanization answer: the text and the number of changes. */
  datatype Humanized = Humanized(text: string, changes: nat)

  /** `handleHumanize`: nothing happens without an analysis; a returned
      text replaces the panel's humanized text. */
  function HandleHumanize(s: State, p: Panel, answer: Option<Humanized>): (r: (Panel, Option<Toast>))
    ensures s.fileAnalysis.None? ==> r == (p, None)
    ensures s.fileAnalysis.Some? && answer.Some? ==>
      r.0 == p.(humanizedText := answer.value.text) && r.1.Some? && r.1.value.kind == SuccessToast
    ensures s.fileAnalysis.Some? && answer.None? ==> r.0 == p && r.1.Some? && r.1.value.kind == ErrorToast
  {
    if s.fileAnalysis.None? then (p, None)
    else
      match answer
      case Some(h) =>
        (p.(humanizedText := h.text),
         Some(Toast("Text humanized! " + NatToString(h.changes) + " improvements made.", SuccessToast)))
      case None =>
        (p, Some(Toast("Failed to humanize text. Please check your API configuration.", ErrorToast)))
  }

  /** What an export sends and which file name it saves under. */
  datatype ExportRequest = ExportRequest(
    title: string,
    content: string,
    format: ExportFormat,
    downloadName: string)

  /** `handleExport`: refused when there is neither a humanized text nor an
      analysis; the content falls back to a fixed placeholder. */
  function ExportRequestOf(s: State, p: Panel): (r: Option<ExportRequest>)
    ensures r.None? <==> p.humanizedText == "" && s.fileAnalysis.None?
    ensures r.Some? ==> r.value.title == ExportTitle(p.uploadedFile)
    ensures r.Some? && p.humanizedText != "" ==> r.value.content == p.humanizedText
    ensures r.Some? && p.humanizedText == "" ==> r.value.content == "Original content"
    ensures r.Some? ==> r.value.format == p.exportFormat
    ensures r.Some? ==> StripExtension(r.value.downloadName) == r.value.title
  {
    if p.humanizedText == "" && s.fileAnalysis.None? then None
    else
      var title := ExportTitle(p.uploadedFile);
      var content := if p.humanizedText != "" then p.humanizedText else "Original content";
      Some(ExportRequest(title, content, p.exportFormat, FileDownloadName(title, p.exportFormat)))
  }

  /** An uploaded `report.pdf` exported as Word is saved as `report.docx`. */
  lemma ExportRenamesExtension(s: State, p: Panel)
    requires p.uploadedFile == Some(File("report.pdf", "application/pdf"))
    requires p.exportFormat == Docx && s.fileAnalysis.Some?
    ensures ExportRequestOf(s, p).Some?
    ensures ExportRequestOf(s, p).value.downloadName == "report.docx"
  {
    assert "report" + "." + "pdf" == "report.pdf";
    ExportTitleRoundTrip("report", "pdf", "application/pdf");
    assert ExportTitle(p.uploadedFile) == "report";
    assert "report" + "." + "docx" == "report.docx";
  }

  /** `exportFormat.toUpperCase()`. */
  function FormatLabel(f: ExportFormat): string {
    match f
    case Docx => "DOCX"
    case Pdf => "PDF"
    case Txt => "TXT"
  }

  const FileExportFailed := Toast("Failed to export file. Please try again.", ErrorToast)

  /** What an export click leaves behind: the file saved and the toast. */
  datatype FileExportOutcome = FileExportOutcome(saved: Option<string>, toast: Option<Toast>)

  /** `handleExport` given whether the request succeeded: a refused export
      does nothing; a successful one saves the file and says so; a failed one
      saves nothing and shows the failure toast. */
  function HandleFileExport(s: State, p: Panel, succeeded: bool): (r: FileExportOutcome)
    ensures ExportRequestOf(s, p).None? ==> r == FileExportOutcome(None, None)
    ensures r.saved.Some? <==> ExportRequestOf(s, p).Some? && succeeded
    ensures r.saved.Some? ==> r.saved.value == ExportRequestOf(s, p).value.downloadName
    ensures r.saved.Some? ==>
      r.toast == Some(Toast("File exported as " + FormatLabel(p.exportFormat) + "!", SuccessToast))
    ensures ExportRequestOf(s, p).Some? && !succeeded ==> r.toast == Some(FileExportFailed)
  {
    match ExportRequestOf(s, p)
    case None => FileExportOutcome(None, None)
    case Some(req) =>
      if succeeded then
        FileExportOutcome(Some(req.downloadName),
                          Some(Toast("File exported as " + FormatLabel(p.exportFormat) + "!", SuccessToast)))
      else FileExportOutcome(None, Some(FileExportFailed))
  }

  /** `handleExport` with the request the client does define for this,
      `exportAPI.file`. */
  function HandleFileExportWithFile(s: State, p: Panel, reply: Option<Blob>): FileExportOutcome {
    HandleFileExport(s, p, Api.Call("exportAPI", "file", reply).Some?)
  }

  /** `handleExport` as written: line 79 calls `fileAPI.exportFile`, which
      the client does not define. */
  function HandleFileExportAsWritten(s: State, p: Panel, reply: Option<Blob>): FileExportOutcome {
    HandleFileExport(s, p, Api.Call("fileAPI", "exportFile", reply).Some?)
  }

  /** As written, no file is ever saved: an export that passes the guard
      always ends in the failure toast, whatever the server would have
      answered. */
  lemma FileExportFailsAsWritten(s: State, p: Panel, reply: Option<Blob>)
    requires ExportRequestOf(s, p).Some?
    ensures HandleFileExportAsWritten(s, p, reply) == FileExportOutcome(None, Some(FileExportFailed))
  {
    Api.CallSiteNames();
  }

  /** With `exportAPI.file` a file is saved exactly when the server answers,
      under the uploaded file's stem and the chosen format's extension. The
      answer is left open here: this repository's backend has no route for
      it, see `FileExportRouteMissing`. */
  lemma FileExportFollowsServer(s: State, p: Panel, reply: Option<Blob>)
    requires ExportRequestOf(s, p).Some?
    ensures HandleFileExportWithFile(s, p, reply).saved.Some? <==> reply.Some?
    ensures reply.Some? ==>
      StripExtension(HandleFileExportWithFile(s, p, reply).saved.value) == ExportTitle(p.uploadedFile)
  {
    Api.CallSiteNames();
  }

  /** Even through `exportAPI.file` the backend saves nothing: it declares
      no route for `/api/export/file`, so the request is answered 404. The
      method also takes a single `data` argument, so the panel's three
      arguments would post only the title. */
  lemma FileExportRouteMissing()
    ensures Api.Defined("exportAPI", "file") && !Routing.Served("exportAPI", "file")
    ensures Routing.Routes[("exportAPI", "file")] == "/api/export/file"
  {
    Routing.ServedMethods();
  }


  /** At most five suggestions are listed: `.slice(0, 5)`. */
  function DisplayedSuggestions(xs: seq<string>): (r: seq<string>)
    ensures |r| == Min(|xs|, 5)
    ensures forall i :: 0 <= i < |r| ==> r[i] == xs[i]
  {
    if |xs| <= 5 then xs else xs[..5]
  }
}

=== FILE: format.dfy ===
/**
 * The pure helpers of frontend/src/lib/utils.ts: citation and duration
 * formatting, word counting, goal progress and its colour, the relative
 * "saved" label, and the Markdown and LaTeX assembly of a paper.
 */
module Format {

  import opened Wrappers
  import opened Strings
  import opened Numbers
  import opened Paper

  // ---------------------------------------------------------------------
  // Citations
  // ---------------------------------------------------------------------

  /** The three styles with a branch of their own, and the fallback. */
  datatype Style = Ieee | Apa | Mla | OtherStyle

  /** `switch (style.toLowerCase())`. */
  function StyleOf(style: string): (r: Style)
    ensures r == Ieee <==> Lower(style) == "ieee"
    ensures r == Apa <==> Lower(style) == "apa"
    ensures r == Mla <==> Lower(style) == "mla"
  {
    var k := Lower(style);
    if k == "ieee" then Ieee
    else if k == "apa" then Apa
    else if k == "mla" then Mla
    else OtherStyle
  }

  /** The form shared by the default branch and, after its `[id] ` prefix,
      the IEEE branch: `A, "T," J, Y.`. */
  function PlainReference(author: string, title: string, journal: string, year: string): string {
    author + ", \"" + title + ",\" " + journal + ", " + year + "."
  }

  /** The APA branch: `A (Y). T. J.`, the year right after the author. */
  function ApaReference(author: string, title: string, journal: string, year: string): string {
    author + " (" + year + "). " + title + ". " + journal + "."
  }

  /** The MLA branch: `A. "T." J, Y.`. */
  function MlaReference(author: string, title: string, journal: string, year: string): string {
    author + ". \"" + title + ".\" " + journal + ", " + year + "."
  }

  function FormatCitation(c: Citation, style: string): (r: string)
    ensures StyleOf(style) == Ieee ==>
      r == "[" + c.id + "] " + PlainReference(c.author, c.title, c.journal, c.year)
    ensures StyleOf(style) == Apa ==> r == ApaReference(c.author, c.title, c.journal, c.year)
    ensures StyleOf(style) == Mla ==> r == MlaReference(c.author, c.title, c.journal, c.year)
    ensures StyleOf(style) == OtherStyle ==>
      r == PlainReference(c.author, c.title, c.journal, c.year)
    ensures StyleOf(style) != Ieee ==> StartsWith(r, c.author)
    ensures EndsWith(r, ".")
  {
    match StyleOf(style)
    case Ieee => "[" + c.id + "] " + c.author + ", \"" + c.title + ",\" " + c.journal + ", " + c.year + "."
    case Apa => c.author + " (" + c.year + "). " + c.title + ". " + c.journal + "."
    case Mla => c.author + ". \"" + c.title + ".\" " + c.journal + ", " + c.year + "."
    case OtherStyle => c.author + ", \"" + c.title + ",\" " + c.journal + ", " + c.year + "."
  }

  /** The style name is matched without regard to case. */
  lemma FormatCitationCaseInsensitive(c: Citation, style: string)
    ensures FormatCitation(c, style) == FormatCitation(c, Lower(style))
  {
    LowerIdempotent(style);
  }

  /** The three named templates on one entry whose fields are single
      letters: author A, title T, journal J, year Y. */
  function Sample(): Citation {
    Citation("1", "A", "T", "J", "Y", None, "ieee")
  }

  /** "IEEE" in capitals selects the IEEE template. */
  lemma UpperIeeeIsIeee()
    ensures StyleOf("IEEE") == Ieee
  {
    var k := Lower("IEEE");
    assert k[0] == 'i' && k[1] == 'e' && k[2] == 'e' && k[3] == 'e';
    assert k == "ieee";
  }

  lemma FormatCitationIeeeExample()
    ensures FormatCitation(Sample(), "ieee") == "[1] A, \"T,\" J, Y."
  {
    LowerOfLowerCase("ieee");
  }

  lemma FormatCitationApaExample()
    ensures FormatCitation(Sample(), "apa") == "A (Y). T. J."
  {
    LowerOfLowerCase("apa");
  }

  lemma FormatCitationMlaExample()
    ensures FormatCitation(Sample(), "mla") == "A. \"T.\" J, Y."
  {
    LowerOfLowerCase("mla");
  }

  // ---------------------------------------------------------------------
  // Durations and ages
  // ---------------------------------------------------------------------

  /** `formatTime(ms)`: hours and minutes past the hour from one hour on,
      whole minutes from one minute on, seconds below that. */
  function FormatTime(ms: int): (r: string)
    ensures ms >= 3600000 ==>
      r == IntToString(ms / 3600000) + "h " + IntToString(ms / 60000 % 60) + "m"
    ensures 60000 <= ms < 3600000 ==> r == IntToString(ms / 60000) + "m"
    ensures ms < 60000 ==> r == IntToString(ms / 1000) + "s"
  {
    var seconds := ms / 1000;
    var minutes := seconds / 60;
    var hours := minutes / 60;
    DivDiv(ms, 1000, 60);
    DivDiv(ms, 60000, 60);
    if hours > 0 then IntToString(hours) + "h " + IntToString(minutes % 60) + "m"
    else if minutes > 0 then IntToString(minutes) + "m"
    else IntToString(seconds) + "s"
  }

  /** An hour and a half shows hours and minutes. */
  lemma FormatTimeHoursExample()
    ensures FormatTime(5400000) == "1h 30m"
  {
    assert 5400000 / 3600000 == 1 && 5400000 / 60000 % 60 == 30;
    var h, m := IntToString(1), IntToString(30);
    assert h == "1";
    assert m == "30" by { assert NatToString(30) == NatToString(3) + "0"; }
    assert FormatTime(5400000) == h + "h " + m + "m";
  }

  /** Two minutes five seconds shows whole minutes. */
  lemma FormatTimeMinutesExample()
    ensures FormatTime(125000) == "2m"
  {
  }

  /** A millisecond short of a minute shows whole seconds. */
  lemma FormatTimeSecondsExample()
    ensures FormatTime(59999) == "59s"
  {
    assert NatToString(59) == NatToString(5) + "9";
  }

  /** The label `formatDate` picks for an elapsed time. */
  datatype Age = JustNow | MinutesAgo(m: nat) | HoursAgo(h: nat) | DaysAgo(d: nat) | OlderThanAWeek

  /** The thresholds of `formatDate`, on the elapsed milliseconds. */
  function AgeOf(elapsedMs: int): (a: Age)
    ensures a == JustNow <==> elapsedMs < 60000
    ensures a.MinutesAgo? <==> 60000 <= elapsedMs < 3600000
    ensures a.HoursAgo? <==> 3600000 <= elapsedMs < 86400000
    ensures a.DaysAgo? <==> 86400000 <= elapsedMs < 604800000
    ensures a.MinutesAgo? ==> 1 <= a.m < 60 && 60000 * a.m <= elapsedMs < 60000 * (a.m + 1)
    ensures a.HoursAgo? ==> 1 <= a.h < 24 && 3600000 * a.h <= elapsedMs < 3600000 * (a.h + 1)
    ensures a.DaysAgo? ==> 1 <= a.d < 7 && 86400000 * a.d <= elapsedMs < 86400000 * (a.d + 1)
  {
    var seconds := elapsedMs / 1000;
    DivDiv(elapsedMs, 1000, 60);
    DivDiv(elapsedMs, 1000, 3600);
    DivDiv(elapsedMs, 1000, 86400);
    if seconds < 60 then JustNow
    else if seconds < 3600 then MinutesAgo(seconds / 60)
    else if seconds < 86400 then HoursAgo(seconds / 3600)
    else if seconds < 604800 then DaysAgo(seconds / 86400)
    else OlderThanAWeek
  }

  /** `formatDate(date)` given the elapsed milliseconds; `localeDate` stands
      for `toLocaleDateString()`, used from one week on. */
  function FormatDate(elapsedMs: int, localeDate: string): (r: string)
    ensures elapsedMs < 60000 ==> r == "just now"
    ensures elapsedMs >= 604800000 ==> r == localeDate
    ensures AgeOf(elapsedMs).MinutesAgo? ==> r == NatToString(AgeOf(elapsedMs).m) + "m ago"
    ensures AgeOf(elapsedMs).HoursAgo? ==> r == NatToString(AgeOf(elapsedMs).h) + "h ago"
    ensures AgeOf(elapsedMs).DaysAgo? ==> r == NatToString(AgeOf(elapsedMs).d) + "d ago"
  {
    match AgeOf(elapsedMs)
    case JustNow => "just now"
    case MinutesAgo(m) => NatToString(m) + "m ago"
    case HoursAgo(h) => NatToString(h) + "h ago"
    case DaysAgo(d) => NatToString(d) + "d ago"
    case OlderThanAWeek => localeDate
  }

  /** A label that is not the locale date is at most eight characters. */
  lemma FormatDateShort(elapsedMs: int, localeDate: string)
    requires elapsedMs < 604800000
    ensures |FormatDate(elapsedMs, localeDate)| <= 8
  {
    var a := AgeOf(elapsedMs);
    match a
    case JustNow =>
    case MinutesAgo(m) => NatToStringShort(m);
    case HoursAgo(h) => NatToStringShort(h);
    case DaysAgo(d) => NatToStringShort(d);
  }

  // ---------------------------------------------------------------------
  // Words and progress
  // ---------------------------------------------------------------------

  /** `text.trim().split(/\s+/).filter(Boolean).length`: the number of
      maximal runs of non-space characters. */
  function CountWords(text: string): (r: nat)
    ensures r == WordRuns(text)
    ensures r == 0 <==> IsBlank(text)
  {
    WordsCountRuns(Trim(text));
    TrimKeepsRuns(text);
    BlankNoRuns(text);
    |Words(Trim(text))|
  }

  /** A string has no word runs exactly when it is blank. */
  lemma {:induction false} BlankNoRuns(s: string)
    ensures RunStarts(s, true) == 0 <==> IsBlank(s)
    decreases |s|
  {
    if s != [] {
      BlankNoRuns(s[1..]);
      if IsSpace(s[0]) {
        assert IsBlank(s) <==> IsBlank(s[1..]);
      } else {
        assert !IsBlank(s);
      }
    }
  }

  /** `calculateProgress(current, target)`: 0 without a target, otherwise
      the rounded percentage, capped at 100. */
  function CalculateProgress(current: int, target: int): (r: int)
    ensures target == 0 ==> r == 0
    ensures r <= 100
    ensures target > 0 && current >= 0 ==> r >= 0
    ensures target > 0 ==> (r == 100 <==> 200 * current >= 199 * target)
    ensures target > 0 && r < 100 ==> target * (2 * r - 1) <= 200 * current < target * (2 * r + 1)
  {
    if target == 0 then 0
    else
      var p := RoundDiv(100 * current, target);
      if target > 0 then
        RoundDivAtLeast(100 * current, target, 100);
        Min(p, 100)
      else
        Min(p, 100)
  }

  /** `getProgressColor`. */
  function ProgressColor(progress: int): (r: string)
    ensures r == "text-red-500" <==> progress < 50
    ensures r == "text-yellow-500" <==> 50 <= progress < 80
    ensures r == "text-green-500" <==> progress >= 80
  {
    if progress < 50 then "text-red-500"
    else if progress < 80 then "text-yellow-500"
    else "text-green-500"
  }

  /** Position of a colour on the scale red, yellow, green. */
  function ColorRank(color: string): nat {
    if color == "text-red-500" then 0 else if color == "text-yellow-500" then 1 else 2
  }

  /** More progress never gives a lower colour. */
  lemma ProgressColorMonotone(p: int, q: int)
    requires p <= q
    ensures ColorRank(ProgressColor(p)) <= ColorRank(ProgressColor(q))
  {
  }

  // ---------------------------------------------------------------------
  // Markdown and LaTeX
  // ---------------------------------------------------------------------

  /** What the exporters read from the store. */
  datatype PaperText = PaperText(
    title: string,
    authors: string,
    keywords: string,
    paperAbstract: string,
    sections: seq<Section>)

  function MarkdownHeader(d: PaperText): string {
    "# " + d.title + "\n\n"
    + "**Authors:** " + d.authors + "\n\n"
    + "**Keywords:** " + d.keywords + "\n\n"
    + "## Abstract\n\n" + d.paperAbstract + "\n\n"
  }

  function MarkdownBlock(s: Section): string {
    "## " + s.title + "\n\n" + s.content + "\n\n"
  }

  const DocumentClass := "\\documentclass{article}\n"

  function LatexHeader(d: PaperText): string {
    DocumentClass
    + "\\usepackage[utf8]{inputenc}\n\n"
    + "\\title{" + d.title + "}\n"
    + "\\author{" + d.authors + "}\n"
    + "\\date{}\n\n"
    + "\\begin{document}\n\n"
    + "\\maketitle\n\n"
    + "\\begin{abstract}\n" + d.paperAbstract + "\n\\end{abstract}\n\n"
  }

  function LatexBlock(s: Section): string {
    "\\section{" + s.title + "}\n" + s.content + "\n\n"
  }

  const LatexFooter := "\\end{document}"

  /** The blocks of `sections` in order, each rendered by `block`. */
  function Blocks(sections: seq<Section>, block: Section -> string): string {
    if sections == [] then ""
    else Blocks(sections[..|sections| - 1], block) + block(sections[|sections| - 1])
  }

  /** Blocks of a concatenation are the concatenation of blocks. */
  lemma {:induction false} BlocksConcat(xs: seq<Section>, ys: seq<Section>, block: Section -> string)
    ensures Blocks(xs + ys, block) == Blocks(xs, block) + Blocks(ys, block)
    decreases |ys|
  {
    if ys == [] {
      assert xs + ys == xs;
    } else {
      var init := ys[..|ys| - 1];
      assert (xs + ys)[..|xs + ys| - 1] == xs + init;
      BlocksConcat(xs, init, block);
    }
  }

  /** The Markdown header opens with the title heading. */
  lemma MarkdownHeaderOpensWithTitle(d: PaperText)
    ensures StartsWith(MarkdownHeader(d), "# " + d.title + "\n\n")
  {
    var t := "# " + d.title + "\n\n";
    assert MarkdownHeader(d)[..|t|] == t;
  }

  /** The LaTeX header opens with the document class. */
  lemma LatexHeaderOpensWithClass(d: PaperText)
    ensures StartsWith(LatexHeader(d), DocumentClass)
  {
    assert LatexHeader(d)[..|DocumentClass|] == DocumentClass;
  }

  /** `exportToMarkdown`: the header, then one block per section, built by
      appending in a loop. */
  method ExportMarkdown(d: PaperText) returns (markdown: string)
    ensures StartsWith(markdown, "# " + d.title + "\n\n")
    ensures markdown == MarkdownHeader(d) + Blocks(d.sections, MarkdownBlock)
  {
    markdown := "# " + d.title + "\n\n";
    markdown := markdown + "**Authors:** " + d.authors + "\n\n";
    markdown := markdown + "**Keywords:** " + d.keywords + "\n\n";
    markdown := markdown + "## Abstract\n\n" + d.paperAbstract + "\n\n";
    assert markdown == MarkdownHeader(d);
    var i := 0;
    while i < |d.sections|
      invariant 0 <= i <= |d.sections|
      invariant markdown == MarkdownHeader(d) + Blocks(d.sections[..i], MarkdownBlock)
    {
      assert d.sections[..i + 1][..i] == d.sections[..i];
      markdown := markdown + "## " + d.sections[i].title + "\n\n" + d.sections[i].content + "\n\n";
      i := i + 1;
    }
    assert d.sections[..i] == d.sections;
    MarkdownHeaderOpensWithTitle(d);
    StartsWithAppend(MarkdownHeader(d), Blocks(d.sections, MarkdownBlock), "# " + d.title + "\n\n");
  }

  /** `exportToLatex`: the preamble, one `\section` per section, and the
      closing `\end{document}`. */
  method ExportLatex(d: PaperText) returns (latex: string)
    ensures StartsWith(latex, DocumentClass)
    ensures EndsWith(latex, LatexFooter)
    ensures latex == LatexHeader(d) + Blocks(d.sections, LatexBlock) + LatexFooter
  {
    latex := DocumentClass;
    latex := latex + "\\usepackage[utf8]{inputenc}\n\n";
    latex := latex + "\\title{" + d.title + "}\n";
    latex := latex + "\\author{" + d.authors + "}\n";
    latex := latex + "\\date{}\n\n";
    latex := latex + "\\begin{document}\n\n";
    latex := latex + "\\maketitle\n\n";
    latex := latex + "\\begin{abstract}\n" + d.paperAbstract + "\n\\end{abstract}\n\n";
    assert latex == LatexHeader(d);
    var i := 0;
    while i < |d.sections|
      invariant 0 <= i <= |d.sections|
      invariant latex == LatexHeader(d) + Blocks(d.sections[..i], LatexBlock)
    {
      assert d.sections[..i + 1][..i] == d.sections[..i];
      latex := latex + "\\section{" + d.sections[i].title + "}\n" + d.sections[i].content + "\n\n";
      i := i + 1;
    }
    assert d.sections[..i] == d.sections;
    latex := latex + LatexFooter;
    Framed(LatexHeader(d), Blocks(d.sections, LatexBlock), LatexFooter);
    LatexHeaderOpensWithClass(d);
    StartsWithAppend(LatexHeader(d), Blocks(d.sections, LatexBlock), DocumentClass);
    StartsWithAppend(LatexHeader(d) + Blocks(d.sections, LatexBlock), LatexFooter, DocumentClass);
  }

  /** Adding a section at the end adds its Markdown block at the end. */
  lemma MarkdownAppendSection(d: PaperText, s: Section)
    ensures MarkdownHeader(d.(sections := d.sections + [s])) + Blocks(d.sections + [s], MarkdownBlock)
         == MarkdownHeader(d) + Blocks(d.sections, MarkdownBlock) + MarkdownBlock(s)
  {
    BlocksConcat(d.sections, [s], MarkdownBlock);
    assert Blocks([s], MarkdownBlock) == MarkdownBlock(s) by {
      assert [s][..0] == [];
    }
  }

  /** Adding a section at the end puts its LaTeX block just before
      `\end{document}`. */
  lemma LatexAppendSection(d: PaperText, s: Section)
    ensures LatexHeader(d.(sections := d.sections + [s])) + Blocks(d.sections + [s], LatexBlock) + LatexFooter
         == LatexHeader(d) + Blocks(d.sections, LatexBlock) + LatexBlock(s) + LatexFooter
  {
    BlocksConcat(d.sections, [s], LatexBlock);
    assert Blocks([s], LatexBlock) == LatexBlock(s) by {
      assert [s][..0] == [];
    }
    assert LatexHeader(d.(sections := d.sections + [s])) == LatexHeader(d);
    AppendAssoc(LatexHeader(d), Blocks(d.sections, LatexBlock), LatexBlock(s));
  }
}

=== FILE: hooks.dfy ===
/**
 * The store-driving hooks of frontend/src/lib/hooks.ts: keyboard shortcuts,
 * one tick of the auto-save, the leave-page guard and the writing-session
 * hooks. Timers and event listeners are not modelled; each hook is the
 * sequence of store actions it dispatches.
 */
module Hooks {

  import opened Wrappers
  import opened Paper
  import opened Store
  import opened Actions
  import opened Analytics
  import opened Format
  import opened Dates
  import opened Numbers

  // ---------------------------------------------------------------------
  // Keyboard shortcuts
  // ---------------------------------------------------------------------

  datatype KeyEvent = KeyEvent(ctrlKey: bool, metaKey: bool, key: string)

  predicate Modified(e: KeyEvent) { e.ctrlKey || e.metaKey }

  /** The actions the three `if`s of `handleKeyDown` dispatch. The keys they
      test are distinct, so at most one fires. */
  function ShortcutActions(e: KeyEvent): (r: seq<Action>)
    ensures |r| <= 1
    ensures r == [SaveVersionAction] <==> Modified(e) && e.key == "s"
    ensures r == [TogglePanelAction(Export)] <==> Modified(e) && e.key == "e"
    ensures r == [TogglePanelAction(KeyboardShortcuts)] <==> Modified(e) && e.key == "/"
    ensures r == [] <==> !Modified(e) || (e.key != "s" && e.key != "e" && e.key != "/")
  {
    if !Modified(e) then []
    else if e.key == "s" then [SaveVersionAction]
    else if e.key == "e" then [TogglePanelAction(Export)]
    else if e.key == "/" then [TogglePanelAction(KeyboardShortcuts)]
    else []
  }

  /** `e.preventDefault()` is called exactly when a shortcut fires. */
  function PreventsDefault(e: KeyEvent): bool {
    |ShortcutActions(e)| == 1
  }

  function StepsAt(actions: seq<Action>, clock: Clock): (r: seq<Step>)
    ensures |r| == |actions|
    ensures forall i :: 0 <= i < |r| ==> r[i] == Step(actions[i], clock)
  {
    seq(|actions|, i requires 0 <= i < |actions| => Step(actions[i], clock))
  }

  function HandleKeyDown(s: State, e: KeyEvent, clock: Clock): State {
    ApplyAll(s, StepsAt(ShortcutActions(e), clock))
  }

  /** Ctrl/Cmd+S saves a version, Ctrl/Cmd+E toggles the export dialog,
      Ctrl/Cmd+/ toggles the shortcut list, and any other key leaves the
      store as it is. */
  lemma ShortcutDispatch(s: State, e: KeyEvent, clock: Clock)
    ensures Modified(e) && e.key == "s" ==> HandleKeyDown(s, e, clock) == SaveVersion(s, clock)
    ensures Modified(e) && e.key == "e" ==> HandleKeyDown(s, e, clock) == Toggle(s, Export)
    ensures Modified(e) && e.key == "/" ==> HandleKeyDown(s, e, clock) == Toggle(s, KeyboardShortcuts)
    ensures !PreventsDefault(e) ==> HandleKeyDown(s, e, clock) == s
  {
    var steps := StepsAt(ShortcutActions(e), clock);
    if |steps| == 1 {
      ApplyAllFirst(s, steps);
      assert steps[1..] == [];
      var a := ShortcutActions(e)[0];
      if a.SaveVersionAction? {
        ApplySaveVersion(s, clock);
      } else {
        ApplyTogglePanel(s, a.panel, clock);
      }
    }
  }

  // ---------------------------------------------------------------------
  // Auto-save
  // ---------------------------------------------------------------------

  /** The label `formatDate(new Date())` gives right after saving. */
  lemma FreshSaveLabel(localeDate: string)
    ensures FormatDate(0, localeDate) == "just now"
  {
  }

  /** One tick of `useAutoSave`'s `save`: `setIsSaving(true)`, then, when
      the delay has passed, `saveVersion()`, `setLastSaved(formatDate(new
      Date()))` and `setIsSaving(false)`. */
  function AutoSaveSteps(started: Clock, fired: Clock, localeDate: string): seq<Step> {
    [ Step(SetIsSaving(true), started),
      Step(SaveVersionAction, fired),
      Step(SetLastSaved(FormatDate(0, localeDate)), fired),
      Step(SetIsSaving(false), fired) ]
  }

  function AutoSave(s: State, started: Clock, fired: Clock, localeDate: string): (r: State)
    ensures r == SaveVersion(s, fired).(lastSaved := "just now", isSaving := false)
    ensures r.versions[0] == Snapshot(s, fired)
    ensures !r.isSaving
  {
    var saving := s.(isSaving := true);
    var saved := SaveVersion(saving, fired);
    saved.(lastSaved := FormatDate(0, localeDate), isSaving := false)
  }

  /** Dispatching the four actions of the tick one by one gives
      `AutoSave`. */
  lemma AutoSaveDispatch(s: State, started: Clock, fired: Clock, localeDate: string)
    ensures ApplyAll(s, AutoSaveSteps(started, fired, localeDate)) == AutoSave(s, started, fired, localeDate)
  {
    var steps := AutoSaveSteps(started, fired, localeDate);
    var stamp := FormatDate(0, localeDate);
    var s1 := s.(isSaving := true);
    var s2 := SaveVersion(s1, fired);
    var s3 := s2.(lastSaved := stamp);
    var s4 := s3.(isSaving := false);
    ApplySetIsSaving(s, true, started);
    ApplySaveVersion(s1, fired);
    ApplySetLastSaved(s2, stamp, fired);
    ApplySetIsSaving(s3, false, fired);
    ApplyAllFirst(s3, steps[3..]);
    ApplyAllFirst(s2, steps[2..]);
    ApplyAllFirst(s1, steps[1..]);
    ApplyAllFirst(s, steps);
    assert steps[3..][1..] == [];
    assert steps[2..][1..] == steps[3..];
    assert steps[1..][1..] == steps[2..];
  }

  // ---------------------------------------------------------------------
  // Leave-page guard
  // ---------------------------------------------------------------------

  /** `useBeforeUnload`: warn when more than a minute has passed since
      `new Date(lastSaved)`. A `lastSaved` that does not parse gives `NaN`,
      and a comparison with `NaN` is false. */
  function BlocksUnload(lastSaved: string, now: int): (r: bool)
    ensures r <==> ParseTimestamp(lastSaved).Some? && now - ParseTimestamp(lastSaved).value > 60000
  {
    match ParseTimestamp(lastSaved)
    case None => false
    case Some(t) => now - t > 60000
  }

  /** No label `formatDate` produces for the last week parses as a date, so
      such a `lastSaved` never blocks. */
  lemma RelativeLabelNeverBlocks(elapsedMs: int, localeDate: string, now: int)
    requires elapsedMs < 604800000
    ensures !BlocksUnload(FormatDate(elapsedMs, localeDate), now)
  {
    FormatDateShort(elapsedMs, localeDate);
  }

  /** The initial empty `lastSaved` never blocks either. */
  lemma InitialNeverBlocks(paperId: string, now: int)
    ensures !BlocksUnload(Init(paperId).lastSaved, now)
  {
  }

  /** After an auto-save the guard stays silent however long the user then
      waits, two minutes included. */
  lemma AutoSaveGuardNeverFires(s: State, started: Clock, fired: Clock, localeDate: string, waited: nat)
    ensures !BlocksUnload(AutoSave(s, started, fired, localeDate).lastSaved, fired.now + waited)
  {
  }

  lemma AutoSaveGuardCounterexample(s: State, started: Clock, fired: Clock, localeDate: string)
    ensures !BlocksUnload(AutoSave(s, started, fired, localeDate).lastSaved, fired.now + 120000)
  {
    AutoSaveGuardNeverFires(s, started, fired, localeDate, 120000);
  }

  /** A clock whose ISO text reads back as its own instant. */
  predicate ClockConsistent(c: Clock) {
    ParseTimestamp(c.isoNow) == Some(c.now)
  }

  /** The auto-save tick with `lastSaved` set to the instant of the save
      (`new Date().toISOString()`), which the guard can read back. */
  function AutoSaveStamped(s: State, started: Clock, fired: Clock): (r: State)
    ensures r == SaveVersion(s, fired).(lastSaved := fired.isoNow, isSaving := false)
  {
    var saving := s.(isSaving := true);
    var saved := SaveVersion(saving, fired);
    saved.(lastSaved := fired.isoNow, isSaving := false)
  }

  /** With the instant stored, the guard warns exactly when more than a
      minute has passed since the last auto-save. */
  lemma StampedGuardFiresAfterAMinute(s: State, started: Clock, fired: Clock, now: int)
    requires ClockConsistent(fired)
    ensures BlocksUnload(AutoSaveStamped(s, started, fired).lastSaved, now) <==> now - fired.now > 60000
  {
  }

  // ---------------------------------------------------------------------
  // Writing session
  // ---------------------------------------------------------------------

  function TotalSectionWords(s: State): int {
    Sum(s.sections, WordCountOf)
  }

  /** The second effect of `useWritingSession`: the session counter receives
      the paper's total word count. */
  function SyncSessionWords(s: State): (r: State)
    ensures r == s.(currentSessionWords := TotalSectionWords(s))
  {
    Apply(s, UpdateSessionWordsAction(TotalSectionWords(s)), Clock(0, "", 0))
  }

  /** Mounting runs both effects in order: start the session, then sync the
      word counter. */
  function Mount(s: State, clock: Clock): (r: State)
    ensures r.currentSessionStart == Some(clock.now)
    ensures r.currentSessionWords == TotalSectionWords(s)
    ensures r == s.(currentSessionStart := r.currentSessionStart, currentSessionWords := r.currentSessionWords)
  {
    SyncSessionWords(Apply(s, StartSessionAction, clock))
  }

  /** Unmounting ends the session. */
  function Unmount(s: State, clock: Clock): (r: State)
    ensures r == EndSession(s, clock)
  {
    Apply(s, EndSessionAction, clock)
  }

  /** The recorded session carries the paper's total at the last sync, not
      the words added during the session: mounting over a 1000-word paper
      and leaving without typing records 1000 words. */
  lemma SessionRecordsTotalNotDelta(s: State, t0: Clock, edited: seq<Section>, t1: Clock)
    requires t0.now != 0
    ensures var m := Mount(s, t0);
      var r := Unmount(SyncSessionWords(m.(sections := edited)), t1);
      && r.writingSessions[0].wordsWritten == Sum(edited, WordCountOf)
      && r.writingSessions[1..] == s.writingSessions
    ensures Unmount(Mount(s, t0), t1).writingSessions[0].wordsWritten == TotalSectionWords(s)
  {
  }
}

=== FILE: humanization.dfy ===
/**
 * The change summary of the humanizer (`_identify_changes` in
 * backend/app/services/humanization_service.py): which stock AI phrases a
 * rewrite removed, whether it changed the sentence count by more than two
 * or the word count by more than fifty, and three generic notes when none
 * of that happened. The rewrite itself comes from a language model and is
 * a parameter.
 */
module Humanization {

  import opened Strings

  /** The phrases looked for, in the order they are reported. */
  const AiPhrases: seq<string> := [
    "it is important to note", "it should be noted", "in conclusion", "delve into",
    "landscape of", "multifaceted", "comprehensive understanding", "revolutionize"]

  /** One entry of the summary. */
  datatype Change =
    | RemovedPhrase(phrase: string)
    | Restructured(before: nat, after: nat)
    | AddedWords(added: nat)
    | RemovedWords(removed: nat)
    | ImprovedVariety
    | MoreNatural
    | MoreAuthentic

  /** The summary when nothing specific was found. */
  const GenericChanges := [ImprovedVariety, MoreNatural, MoreAuthentic]

  const SentenceThreshold := 2
  const WordThreshold := 50

  /** The phrase occurs in the lower-cased original and not in the
      lower-cased rewrite. */
  predicate Removed(original: string, humanized: string, phrase: string) {
    Contains(Lower(original), phrase) && !Contains(Lower(humanized), phrase)
  }

  /** `len([s for s in text.split('.') if s.strip()])`. */
  function SentenceCount(text: string): nat {
    |Keep(SplitAt(text, '.'), HasText)|
  }

  /** `len(text.split())`. */
  function WordCount(text: string): nat {
    |Words(text)|
  }

  function Abs(x: int): nat {
    if x < 0 then -x else x
  }

  /** One `RemovedPhrase` per phrase the rewrite dropped, in list order. */
  function RemovedPhrases(phrases: seq<string>, original: string, humanized: string): (r: seq<Change>)
    ensures |r| <= |phrases|
    ensures forall c :: c in r ==> c.RemovedPhrase?
    ensures forall p :: RemovedPhrase(p) in r <==> p in phrases && Removed(original, humanized, p)
    ensures r == [] <==> forall p :: p in phrases ==> !Removed(original, humanized, p)
  {
    if phrases == [] then []
    else
      var rest := RemovedPhrases(phrases[1..], original, humanized);
      assert forall p :: p in phrases <==> p == phrases[0] || p in phrases[1..];
      if Removed(original, humanized, phrases[0]) then [RemovedPhrase(phrases[0])] + rest else rest
  }

  /** One more phrase in the list adds its entry at the end exactly when the
      rewrite dropped it: entries follow the list, once per listed phrase. */
  lemma {:induction false} RemovedPhrasesSnoc(phrases: seq<string>, p: string, original: string, humanized: string)
    ensures RemovedPhrases(phrases + [p], original, humanized)
         == RemovedPhrases(phrases, original, humanized)
            + (if Removed(original, humanized, p) then [RemovedPhrase(p)] else [])
    decreases |phrases|
  {
    if phrases == [] {
      assert [p][1..] == [];
    } else {
      assert (phrases + [p])[0] == phrases[0];
      assert (phrases + [p])[1..] == phrases[1..] + [p];
      RemovedPhrasesSnoc(phrases[1..], p, original, humanized);
    }
  }

  /** The restructure note when the sentence counts differ by more than
      two. */
  function SentenceChange(before: nat, after: nat): (r: seq<Change>)
    ensures |r| <= 1
    ensures forall c :: c in r <==> c == Restructured(before, after) && Abs(before - after) > SentenceThreshold
  {
    if Abs(before - after) > SentenceThreshold then [Restructured(before, after)] else []
  }

  /** The word note when the word counts differ by more than fifty: words
      added for a longer rewrite, removed for a shorter one. */
  function WordChange(before: nat, after: nat): (r: seq<Change>)
    ensures |r| <= 1
    ensures forall c :: c in r <==>
      (after > before + WordThreshold && c == AddedWords(after - before))
      || (before > after + WordThreshold && c == RemovedWords(before - after))
  {
    var diff := after - before;
    if Abs(diff) > WordThreshold then
      if diff > 0 then [AddedWords(diff)] else [RemovedWords(-diff)]
    else []
  }

  /** Whether the rewrite shows any of the specific changes. */
  predicate Specific(original: string, humanized: string) {
    (exists i :: 0 <= i < |AiPhrases| && Removed(original, humanized, AiPhrases[i]))
    || Abs(SentenceCount(original) - SentenceCount(humanized)) > SentenceThreshold
    || Abs(WordCount(original) - WordCount(humanized)) > WordThreshold
  }

  /** The specific notes in the order `_identify_changes` collects them:
      the removed phrases, then the sentence note, then the word note. */
  function SpecificChanges(original: string, humanized: string): seq<Change> {
    RemovedPhrases(AiPhrases, original, humanized)
      + SentenceChange(SentenceCount(original), SentenceCount(humanized))
      + WordChange(WordCount(original), WordCount(humanized))
  }

  /** There are specific notes exactly when the rewrite is `Specific`. */
  lemma SpecificChangesEmpty(original: string, humanized: string)
    ensures SpecificChanges(original, humanized) == [] <==> !Specific(original, humanized)
  {
    var phrases := RemovedPhrases(AiPhrases, original, humanized);
    var sentences := SentenceChange(SentenceCount(original), SentenceCount(humanized));
    var words := WordChange(WordCount(original), WordCount(humanized));
    if !Specific(original, humanized) {
      assert forall p :: p in AiPhrases ==> !Removed(original, humanized, p);
    } else if exists i :: 0 <= i < |AiPhrases| && Removed(original, humanized, AiPhrases[i]) {
      var i :| 0 <= i < |AiPhrases| && Removed(original, humanized, AiPhrases[i]);
      assert RemovedPhrase(AiPhrases[i]) in phrases;
    } else if Abs(SentenceCount(original) - SentenceCount(humanized)) > SentenceThreshold {
      assert Restructured(SentenceCount(original), SentenceCount(humanized)) in sentences;
    } else {
      assert words != [];
    }
  }

  /** Every specific note that is not a removed phrase is the sentence or
      the word note. */
  lemma SpecificChangesKinds(original: string, humanized: string)
    ensures forall c :: c in SpecificChanges(original, humanized) && !c.RemovedPhrase? ==>
      c in SentenceChange(SentenceCount(original), SentenceCount(humanized))
      || c in WordChange(WordCount(original), WordCount(humanized))
  {
    var phrases := RemovedPhrases(AiPhrases, original, humanized);
    var sentences := SentenceChange(SentenceCount(original), SentenceCount(humanized));
    var words := WordChange(WordCount(original), WordCount(humanized));
    assert forall c: Change :: c in phrases + sentences + words ==> c.RemovedPhrase? || c in sentences || c in words;
  }

  /** `_identify_changes`: the removed phrases, then the sentence note,
      then the word note; the three generic entries if there are none. */
  function IdentifyChanges(original: string, humanized: string): (r: seq<Change>)
    ensures r != [] && |r| <= |AiPhrases| + 2
    ensures r == GenericChanges <==> !Specific(original, humanized)
    ensures Specific(original, humanized) ==>
      && (forall p :: RemovedPhrase(p) in r <==> p in AiPhrases && Removed(original, humanized, p))
      && (forall c :: c in r && !c.RemovedPhrase? ==>
            c in SentenceChange(SentenceCount(original), SentenceCount(humanized))
            || c in WordChange(WordCount(original), WordCount(humanized)))
    ensures Specific(original, humanized) ==>
      r == RemovedPhrases(AiPhrases, original, humanized)
           + SentenceChange(SentenceCount(original), SentenceCount(humanized))
           + WordChange(WordCount(original), WordCount(humanized))
  {
    var changes := SpecificChanges(original, humanized);
    SpecificChangesEmpty(original, humanized);
    SpecificChangesKinds(original, humanized);
    if changes == [] then GenericChanges
    else
      assert changes[0] in changes;
      assert changes != GenericChanges;
      changes
  }

  /** A rewrite that changes nothing gets the generic summary. */
  lemma UnchangedTextIsGeneric(text: string)
    ensures IdentifyChanges(text, text) == GenericChanges
  {
    assert !Specific(text, text);
  }

  /** The summary never mixes the generic notes with specific ones. */
  lemma GenericOnlyAlone(original: string, humanized: string)
    ensures MoreNatural in IdentifyChanges(original, humanized) ==>
      IdentifyChanges(original, humanized) == GenericChanges
  {
    if Specific(original, humanized) {
      assert MoreNatural !in SentenceChange(SentenceCount(original), SentenceCount(humanized));
      assert MoreNatural !in WordChange(WordCount(original), WordCount(humanized));
    }
  }

  /** Swapping the texts turns added words into removed ones. */
  lemma WordNoteSwaps(original: string, humanized: string, n: nat)
    ensures AddedWords(n) in IdentifyChanges(original, humanized) ==>
      RemovedWords(n) in IdentifyChanges(humanized, original)
      && n > WordThreshold && n == WordCount(humanized) - WordCount(original)
  {
    var r := IdentifyChanges(original, humanized);
    if AddedWords(n) in r {
      assert r != GenericChanges;
      assert AddedWords(n) in WordChange(WordCount(original), WordCount(humanized));
      assert Specific(humanized, original);
      assert RemovedWords(n) in WordChange(WordCount(humanized), WordCount(original));
    }
  }

  // ---------------------------------------------------------------------
  // The notes as text
  // ---------------------------------------------------------------------

  /** The arrow the restructure note evidently means to show... */
  const Arrow := "\U{2192}"

  /** ...and the three characters the source writes instead: the arrow's
      UTF-8 bytes read as Windows-1252 and saved again. */
  const MisdecodedArrow := "\U{00E2}\U{2020}\U{2019}"

  const RestructuredPrefix := "Restructured sentences for better flow ("

  /** The restructure note as the source writes it. */
  function RestructuredNoteAsWritten(before: nat, after: nat): string {
    RestructuredPrefix + NatToString(before) + " " + MisdecodedArrow + " " + NatToString(after) + ")"
  }

  /** The restructure note with the arrow it means. */
  function RestructuredNote(before: nat, after: nat): string {
    RestructuredPrefix + NatToString(before) + " " + Arrow + " " + NatToString(after) + ")"
  }

  /** The note as written never shows an arrow: the counts are separated
      by the three stray characters. */
  lemma NoteAsWrittenHasNoArrow(before: nat, after: nat)
    ensures '\U{2192}' !in RestructuredNoteAsWritten(before, after)
    ensures Contains(RestructuredNoteAsWritten(before, after), MisdecodedArrow)
  {
    var b, a := NatToString(before), NatToString(after);
    assert '\U{2192}' !in RestructuredPrefix;
    assert '\U{2192}' !in b && '\U{2192}' !in a;
    ContainsMiddle(RestructuredPrefix + b + " ", MisdecodedArrow, " " + a + ")");
    assert RestructuredPrefix + b + " " + MisdecodedArrow + (" " + a + ")")
        == RestructuredNoteAsWritten(before, after);
  }

  /** The corrected note shows "before → after". */
  lemma NoteShowsCounts(before: nat, after: nat)
    ensures Contains(RestructuredNote(before, after), NatToString(before) + " " + Arrow + " " + NatToString(after))
    ensures '\U{2192}' in RestructuredNote(before, after)
  {
    var b, a := NatToString(before), NatToString(after);
    var mid := b + " " + Arrow + " " + a;
    ContainsMiddle(RestructuredPrefix, mid, ")");
    assert RestructuredPrefix + mid + ")" == RestructuredNote(before, after);
    assert RestructuredNote(before, after)[|RestructuredPrefix| + |b| + 1] == '\U{2192}';
  }

  /** `f"Removed AI phrase: '{phrase}'"` and the other entries. */
  function ChangeText(c: Change): string {
    match c
    case RemovedPhrase(p) => "Removed AI phrase: '" + p + "'"
    case Restructured(b, a) => RestructuredNote(b, a)
    case AddedWords(n) => "Added " + NatToString(n) + " words for clarity and examples"
    case RemovedWords(n) => "Removed " + NatToString(n) + " words for conciseness"
    case ImprovedVariety => "Improved sentence variety and flow"
    case MoreNatural => "Made language more natural and conversational"
    case MoreAuthentic => "Enhanced authenticity while maintaining professionalism"
  }

  /** The summary with the corrected restructure note: one text per change,
      in the order the changes were found. */
  function ChangeTexts(original: string, humanized: string): (r: seq<string>)
    ensures |r| == |IdentifyChanges(original, humanized)| && r != []
    ensures forall i :: 0 <= i < |r| ==> r[i] == ChangeText(IdentifyChanges(original, humanized)[i])
  {
    var cs := IdentifyChanges(original, humanized);
    seq(|cs|, i requires 0 <= i < |cs| => ChangeText(cs[i]))
  }

  /** The entry as the source writes it. */
  function ChangeTextAsWritten(c: Change): string {
    match c
    case Restructured(b, a) => RestructuredNoteAsWritten(b, a)
    case _ => ChangeText(c)
  }

  /** The summary the route returns as written: it differs from the
      corrected one exactly at the restructure note. */
  function ChangeTextsAsWritten(original: string, humanized: string): (r: seq<string>)
    ensures |r| == |ChangeTexts(original, humanized)|
    ensures forall i :: 0 <= i < |r| ==>
              (r[i] == ChangeTexts(original, humanized)[i] <==> !IdentifyChanges(original, humanized)[i].Restructured?)
  {
    var cs := IdentifyChanges(original, humanized);
    var r := seq(|cs|, i requires 0 <= i < |cs| => ChangeTextAsWritten(cs[i]));
    assert forall i :: 0 <= i < |r| && cs[i].Restructured? ==> r[i] != ChangeTexts(original, humanized)[i] by {
      forall i | 0 <= i < |r| && cs[i].Restructured?
        ensures r[i] != ChangeTexts(original, humanized)[i]
      {
        NoteAsWrittenHasNoArrow(cs[i].before, cs[i].after);
        NoteShowsCounts(cs[i].before, cs[i].after);
      }
    }
    r
  }

  /** Each phrase the rewrite dropped is reported by name. */
  lemma DroppedPhraseReported(original: string, humanized: string, p: string)
    requires p in AiPhrases && Removed(original, humanized, p)
    ensures "Removed AI phrase: '" + p + "'" in ChangeTexts(original, humanized)
  {
    var cs := IdentifyChanges(original, humanized);
    var i :| 0 <= i < |AiPhrases| && AiPhrases[i] == p;
    assert Specific(original, humanized);
    var k :| 0 <= k < |cs| && cs[k] == RemovedPhrase(p);
    assert ChangeTexts(original, humanized)[k] == ChangeText(RemovedPhrase(p));
  }
}

=== FILE: numbers.dfy ===
/** Integer arithmetic the sources perform with floating-point helpers,
    stated exactly over the integers. */
module Numbers {

  function Min(a: int, b: int): (r: int)
    ensures r <= a && r <= b && (r == a || r == b)
  {
    if a <= b then a else b
  }

  function Max(a: int, b: int): (r: int)
    ensures r >= a && r >= b && (r == a || r == b)
  {
    if a >= b then a else b
  }

  /** `Math.floor(n / d)`: the quotient rounded towards minus infinity, for
      either sign of the divisor. */
  function FloorDiv(n: int, d: int): (q: int)
    requires d != 0
    ensures d > 0 ==> d * q <= n < d * q + d
    ensures d < 0 ==> d * q >= n > d * q + d
  {
    if d > 0 then n / d else (-n) / (-d)
  }

  /** `Math.round(a / b)`: the nearest integer, halves rounded up. */
  function RoundDiv(a: int, b: int): (r: int)
    requires b != 0
    ensures b > 0 ==> b * (2 * r - 1) <= 2 * a < b * (2 * r + 1)
    ensures b < 0 ==> b * (2 * r - 1) >= 2 * a > b * (2 * r + 1)
  {
    var r := FloorDiv(2 * a + b, 2 * b);
    assert 2 * b * r == b * (2 * r);
    r
  }

  /** Rounding a quotient with a positive divisor is monotone in the
      dividend. */
  lemma RoundDivMonotone(a1: int, a2: int, b: int)
    requires b > 0 && a1 <= a2
    ensures RoundDiv(a1, b) <= RoundDiv(a2, b)
  {
    var r1 := RoundDiv(a1, b);
    var r2 := RoundDiv(a2, b);
    assert b * (2 * r1 - 1) < b * (2 * r2 + 1);
    assert 2 * r1 - 1 < 2 * r2 + 1;
  }

  /** For a positive divisor, the rounded quotient reaches `k` exactly when
      twice the dividend reaches `b * (2k - 1)`. */
  lemma RoundDivAtLeast(a: int, b: int, k: int)
    requires b > 0
    ensures RoundDiv(a, b) >= k <==> 2 * a >= b * (2 * k - 1)
  {
    var r := RoundDiv(a, b);
    if r >= k {
      assert b * (2 * r - 1) >= b * (2 * k - 1) by {
        assert b * (2 * r - 1) - b * (2 * k - 1) == b * (2 * (r - k));
      }
    } else {
      assert b * (2 * r + 1) <= b * (2 * k - 1) by {
        assert b * (2 * k - 1) - b * (2 * r + 1) == b * (2 * (k - r - 1));
      }
    }
  }

  /** Multiplying by a non-negative factor keeps an order. */
  lemma MulMonotone(a: int, u: int, v: int)
    requires a >= 0 && u <= v
    ensures a * u <= a * v
  {
    assert a * v - a * u == a * (v - u);
  }

  /** A non-zero multiple of `d` is at least `d` away from zero. */
  lemma MulAwayFromZero(d: int, k: int)
    requires d > 0
    ensures k >= 1 ==> d * k >= d
    ensures k <= -1 ==> d * k <= -d
  {
    if k >= 1 {
      MulMonotone(d, 1, k);
    } else if k <= -1 {
      MulMonotone(d, k, -1);
    }
  }

  /** A strict order of two multiples of a positive `d` is an order of the
      factors. */
  lemma MulCancel(d: int, a: int, b: int)
    requires d > 0 && a * d < b * d
    ensures a < b
  {
    assert d * (b - a) == b * d - a * d;
    MulAwayFromZero(d, b - a);
  }

  /** Euclidean division is determined by quotient and remainder. */
  lemma DivUnique(x: int, d: int, p: int, m: int)
    requires d > 0 && 0 <= m < d && x == d * p + m
    ensures x / d == p
  {
    var q := x / d;
    var k := p - q;
    assert d * k == x % d - m by {
      assert d * k == d * p - d * q;
    }
    MulAwayFromZero(d, k);
  }

  /** Flooring twice is flooring once by the product. */
  lemma DivDiv(x: int, a: int, b: int)
    requires a > 0 && b > 0
    ensures x / a / b == x / (a * b)
  {
    var q := x / a;
    var p := q / b;
    var r1 := x % a;
    var r2 := q % b;
    assert x == a * q + r1;
    assert q == b * p + r2;
    assert a * q == (a * b) * p + a * r2 by {
      assert a * q == a * (b * p + r2);
      assert a * (b * p + r2) == a * (b * p) + a * r2;
      assert a * (b * p) == (a * b) * p;
    }
    MulMonotone(a, r2, b - 1);
    assert a * (b - 1) == a * b - a;
    MulMonotone(a, 0, r2);
    DivUnique(x, a * b, p, a * r2 + r1);
  }
}

=== FILE: paper.dfy ===
/**
 * The records the paper store holds (frontend/src/lib/store.ts, lines 4-34)
 * and the id-keyed list operations the store applies to sections and to
 * citations alike.
 */
module Paper {

  import opened Wrappers
  import Strings

  /** A named subdivision of the paper. `content` is the editor's HTML. */
  datatype Section = Section(
    id: string,
    title: string,
    content: string,
    wordCount: nat,
    wordGoal: Option<int>)

  /** A `Partial<Section>`: `None` means the key is absent from the update
      object, so the spread leaves that field alone. An optional field can be
      present with value `undefined`, hence the nested option of `wordGoal`. */
  datatype SectionPatch = SectionPatch(
    id: Option<string>,
    title: Option<string>,
    content: Option<string>,
    wordCount: Option<nat>,
    wordGoal: Option<Option<int>>)

  /** A bibliography entry. `citationType` is declared as one of
      'ieee' | 'apa' | 'mla' but is filled from the lower-cased template id,
      so any string can occur. */
  datatype Citation = Citation(
    id: string,
    author: string,
    title: string,
    journal: string,
    year: string,
    doi: Option<string>,
    citationType: string)

  datatype CitationPatch = CitationPatch(
    id: Option<string>,
    author: Option<string>,
    title: Option<string>,
    journal: Option<string>,
    year: Option<string>,
    doi: Option<Option<string>>,
    citationType: Option<string>)

  /** A snapshot of the title and sections. */
  datatype Version = Version(
    id: string,
    timestamp: string,
    title: string,
    sections: seq<Section>)

  /** One completed writing session. `date` is the calendar day of the
      session as a day number (days since 1970-01-01). */
  datatype WritingSession = WritingSession(
    date: int,
    wordsWritten: int,
    timeSpent: int,
    aiAssistanceUsed: int)

  function SectionId(s: Section): string { s.id }

  /** A section as the sidebar, the brainstorm panel and the editor build
      it: they write a `name` key and never the `title` the store declares. */
  datatype BuiltSection = BuiltSection(id: string, name: string, content: string, wordCount: nat)

  function BuiltId(b: BuiltSection): string { b.id }

  /** The section the store's own type describes for a built one, the name
      carried as the title. */
  function AsDeclared(b: BuiltSection): (r: Section)
    ensures SectionId(r) == BuiltId(b)
    ensures r.title == b.name && r.content == b.content && r.wordCount == b.wordCount
    ensures r.wordGoal.None?
  {
    Section(b.id, b.name, b.content, b.wordCount, None)
  }

  function CitationId(c: Citation): string { c.id }

  function VersionId(v: Version): string { v.id }

  /** `{ ...s, ...updates }` for a section. */
  function MergeSection(s: Section, p: SectionPatch): (r: Section)
    ensures p.id.Some? ==> r.id == p.id.value
    ensures p.id.None? ==> r.id == s.id
    ensures p.title.Some? ==> r.title == p.title.value
    ensures p.title.None? ==> r.title == s.title
    ensures p.content.Some? ==> r.content == p.content.value
    ensures p.content.None? ==> r.content == s.content
    ensures p.wordCount.Some? ==> r.wordCount == p.wordCount.value
    ensures p.wordCount.None? ==> r.wordCount == s.wordCount
    ensures p.wordGoal.Some? ==> r.wordGoal == p.wordGoal.value
    ensures p.wordGoal.None? ==> r.wordGoal == s.wordGoal
  {
    Section(
      p.id.GetOr(s.id),
      p.title.GetOr(s.title),
      p.content.GetOr(s.content),
      p.wordCount.GetOr(s.wordCount),
      p.wordGoal.GetOr(s.wordGoal))
  }

  /** `{ ...c, ...updates }` for a citation. */
  function MergeCitation(c: Citation, p: CitationPatch): (r: Citation)
    ensures p.id.Some? ==> r.id == p.id.value
    ensures p.id.None? ==> r.id == c.id
    ensures p.author.Some? ==> r.author == p.author.value
    ensures p.author.None? ==> r.author == c.author
    ensures p.title.Some? ==> r.title == p.title.value
    ensures p.title.None? ==> r.title == c.title
    ensures p.journal.Some? ==> r.journal == p.journal.value
    ensures p.journal.None? ==> r.journal == c.journal
    ensures p.year.Some? ==> r.year == p.year.value
    ensures p.year.None? ==> r.year == c.year
    ensures p.doi.Some? ==> r.doi == p.doi.value
    ensures p.doi.None? ==> r.doi == c.doi
    ensures p.citationType.Some? ==> r.citationType == p.citationType.value
    ensures p.citationType.None? ==> r.citationType == c.citationType
  {
    Citation(
      p.id.GetOr(c.id),
      p.author.GetOr(c.author),
      p.title.GetOr(c.title),
      p.journal.GetOr(c.journal),
      p.year.GetOr(c.year),
      p.doi.GetOr(c.doi),
      p.citationType.GetOr(c.citationType))
  }

  /** Spreading the same update twice is the same as spreading it once. */
  lemma MergeSectionIdempotent(s: Section, p: SectionPatch)
    ensures MergeSection(MergeSection(s, p), p) == MergeSection(s, p)
  {
  }

  lemma MergeCitationIdempotent(c: Citation, p: CitationPatch)
    ensures MergeCitation(MergeCitation(c, p), p) == MergeCitation(c, p)
  {
  }

  // ---------------------------------------------------------------------
  // Id-keyed lists
  // ---------------------------------------------------------------------

  /** True iff some entry has key `id`. */
  predicate HasId<T>(xs: seq<T>, key: T -> string, id: string) {
    exists i :: 0 <= i < |xs| && key(xs[i]) == id
  }

  lemma HasIdTail<T>(xs: seq<T>, key: T -> string, id: string)
    requires |xs| > 0
    ensures HasId(xs, key, id) <==> key(xs[0]) == id || HasId(xs[1..], key, id)
  {
    if HasId(xs, key, id) && key(xs[0]) != id {
      var i :| 0 <= i < |xs| && key(xs[i]) == id;
      assert key(xs[1..][i - 1]) == id;
    }
    if HasId(xs[1..], key, id) {
      var i :| 0 <= i < |xs| - 1 && key(xs[1..][i]) == id;
      assert key(xs[i + 1]) == id;
    }
  }

  /** Number of entries with key `id`. */
  function CountId<T>(xs: seq<T>, key: T -> string, id: string): (r: nat)
    ensures r <= |xs|
    ensures r == 0 <==> !HasId(xs, key, id)
  {
    if xs == [] then 0
    else
      var rest := CountId(xs[1..], key, id);
      HasIdTail(xs, key, id);
      (if key(xs[0]) == id then 1 else 0) + rest
  }

  /** Index of the first entry with key `id` (`xs.find((x) => x.id === id)`). */
  function FindFirst<T>(xs: seq<T>, key: T -> string, id: string): (r: Option<nat>)
    ensures r.Some? ==> r.value < |xs| && key(xs[r.value]) == id
    ensures r.Some? ==> forall j :: 0 <= j < r.value ==> key(xs[j]) != id
    ensures r.None? <==> !HasId(xs, key, id)
  {
    if xs == [] then None
    else if key(xs[0]) == id then Some(0)
    else
      HasIdTail(xs, key, id);
      match FindFirst(xs[1..], key, id)
      case None => None
      case Some(k) => Some(k + 1)
  }

  /** Counting is additive over concatenation. */
  lemma {:induction false} CountIdConcat<T>(xs: seq<T>, ys: seq<T>, key: T -> string, id: string)
    ensures CountId(xs + ys, key, id) == CountId(xs, key, id) + CountId(ys, key, id)
    decreases |xs|
  {
    if xs == [] {
      assert xs + ys == ys;
    } else {
      assert (xs + ys)[1..] == xs[1..] + ys;
      CountIdConcat(xs[1..], ys, key, id);
    }
  }

  /** `xs.map((x) => x.id === id ? f(x) : x)`. */
  function ReplaceWhere<T>(xs: seq<T>, key: T -> string, id: string, f: T -> T): (r: seq<T>)
    ensures |r| == |xs|
    ensures forall i :: 0 <= i < |xs| && key(xs[i]) != id ==> r[i] == xs[i]
    ensures forall i :: 0 <= i < |xs| && key(xs[i]) == id ==> r[i] == f(xs[i])
  {
    seq(|xs|, i requires 0 <= i < |xs| => if key(xs[i]) == id then f(xs[i]) else xs[i])
  }

  /** `xs.filter((x) => x.id !== id)`. */
  function RemoveId<T>(xs: seq<T>, key: T -> string, id: string): (r: seq<T>)
    ensures |r| == |xs| - CountId(xs, key, id)
    ensures forall i :: 0 <= i < |r| ==> key(r[i]) != id && r[i] in xs
    ensures forall i :: 0 <= i < |xs| && key(xs[i]) != id ==> xs[i] in r
  {
    if xs == [] then []
    else if key(xs[0]) == id then RemoveId(xs[1..], key, id)
    else [xs[0]] + RemoveId(xs[1..], key, id)
  }

  /** Removal distributes over concatenation, so the entries that stay keep
      their relative order. */
  lemma {:induction false} RemoveIdConcat<T>(xs: seq<T>, ys: seq<T>, key: T -> string, id: string)
    ensures RemoveId(xs + ys, key, id) == RemoveId(xs, key, id) + RemoveId(ys, key, id)
    decreases |xs|
  {
    if xs == [] {
      assert xs + ys == ys;
    } else {
      assert (xs + ys)[0] == xs[0];
      assert (xs + ys)[1..] == xs[1..] + ys;
      RemoveIdConcat(xs[1..], ys, key, id);
    }
  }

  /** Removal is the filter that keeps every entry whose id differs, in
      order and with repeats: `RemoveId` agrees with `Strings.Keep` for
      any predicate that tests the id. */
  lemma {:induction false} RemoveIdKeeps<T>(xs: seq<T>, key: T -> string, id: string, p: T -> bool)
    requires forall x :: p(x) == (key(x) != id)
    ensures RemoveId(xs, key, id) == Strings.Keep(xs, p)
    decreases |xs|
  {
    if xs != [] {
      RemoveIdKeeps(xs[1..], key, id, p);
    }
  }

  /** Removing an id nobody carries leaves the list as it is. */
  lemma {:induction false} RemoveAbsentId<T>(xs: seq<T>, key: T -> string, id: string)
    requires !HasId(xs, key, id)
    ensures RemoveId(xs, key, id) == xs
    decreases |xs|
  {
    if xs != [] {
      HasIdTail(xs, key, id);
      assert key(xs[0]) != id;
      RemoveAbsentId(xs[1..], key, id);
    }
  }

  lemma RemoveIdIdempotent<T>(xs: seq<T>, key: T -> string, id: string)
    ensures RemoveId(RemoveId(xs, key, id), key, id) == RemoveId(xs, key, id)
  {
    var r := RemoveId(xs, key, id);
    RemoveAbsentId(r, key, id);
  }

  /** Replacing where no entry matches leaves the list as it is. */
  lemma ReplaceAbsentId<T>(xs: seq<T>, key: T -> string, id: string, f: T -> T)
    requires !HasId(xs, key, id)
    ensures ReplaceWhere(xs, key, id, f) == xs
  {
  }
}

=== FILE: request_bodies.dfy ===
/**
 * The two request bodies the frontend's broken calls would send, checked
 * against the backend's models (backend/app/models/schemas.py):
 * `DisclosureRequest` and `ExportRequest`, seen as JSON objects whose
 * values are strings, lists of strings or lists of records.
 */
module RequestBodies {

  import opened Wrappers

  /** The JSON values the client's request bodies carry: a string, a list
      of strings, or a list of string-to-string objects. */
  datatype Json = JText(text: string) | JTexts(items: seq<string>) | JRecords(records: seq<map<string, string>>)

  /** A request body. `JSON.stringify` leaves out a key whose value is
      `undefined`, so such a key is simply absent. */
  type Body = map<string, Json>

  predicate TextAt(body: Body, key: string) { key in body && body[key].JText? }
  predicate TextsAt(body: Body, key: string) { key in body && body[key].JTexts? }
  predicate RecordsAt(body: Body, key: string) { key in body && body[key].JRecords? }

  /** Why the framework refused a body: a declared field is absent
      (`Missing`) or holds another shape (`WrongType`). Keys no model
      declares are ignored. */
  datatype BodyError = Missing(field: string) | WrongType(field: string)

  function Rejection(body: Body, key: string): BodyError {
    if key in body then WrongType(key) else Missing(key)
  }

  /** `DisclosureRequest` (schemas.py:63-66). */
  datatype DisclosureRequest = DisclosureRequest(aiToolsUsed: seq<string>, purpose: string)

  function ValidateDisclosure(body: Body): (r: Result<DisclosureRequest, BodyError>)
    ensures r.Ok? <==> TextsAt(body, "ai_tools_used") && TextAt(body, "purpose")
    ensures r.Ok? ==> r.value == DisclosureRequest(body["ai_tools_used"].items, body["purpose"].text)
    ensures "ai_tools_used" !in body ==> r == Err(Missing("ai_tools_used"))
  {
    if !TextsAt(body, "ai_tools_used") then Err(Rejection(body, "ai_tools_used"))
    else if !TextAt(body, "purpose") then Err(Rejection(body, "purpose"))
    else Ok(DisclosureRequest(body["ai_tools_used"].items, body["purpose"].text))
  }

  /** `ExportRequest` (schemas.py:124-132). */
  datatype DocxRequest = DocxRequest(
    title: string,
    authors: seq<string>,
    paperAbstract: string,
    keywords: seq<string>,
    sections: seq<map<string, string>>,
    templateFormat: string,
    aiDisclosure: Option<string>)

  /** Every field in declaration order; `ai_disclosure` may be left out. */
  predicate DocxShaped(body: Body) {
    TextAt(body, "title") && TextsAt(body, "authors") && TextAt(body, "abstract")
    && TextsAt(body, "keywords") && RecordsAt(body, "sections") && TextAt(body, "template_format")
    && ("ai_disclosure" in body ==> body["ai_disclosure"].JText?)
  }

  function ValidateDocxExport(body: Body): (r: Result<DocxRequest, BodyError>)
    ensures r.Ok? <==> DocxShaped(body)
    ensures r.Ok? ==> r.value.authors == body["authors"].items && r.value.keywords == body["keywords"].items
    ensures r.Ok? ==> r.value.title == body["title"].text && r.value.sections == body["sections"].records
    ensures r.Ok? ==> (r.value.aiDisclosure.Some? <==> "ai_disclosure" in body)
    ensures TextAt(body, "title") && "authors" in body && !body["authors"].JTexts? ==> r == Err(WrongType("authors"))
  {
    if !TextAt(body, "title") then Err(Rejection(body, "title"))
    else if !TextsAt(body, "authors") then Err(Rejection(body, "authors"))
    else if !TextAt(body, "abstract") then Err(Rejection(body, "abstract"))
    else if !TextsAt(body, "keywords") then Err(Rejection(body, "keywords"))
    else if !RecordsAt(body, "sections") then Err(Rejection(body, "sections"))
    else if !TextAt(body, "template_format") then Err(Rejection(body, "template_format"))
    else if "ai_disclosure" in body && !body["ai_disclosure"].JText? then Err(WrongType("ai_disclosure"))
    else
      Ok(DocxRequest(body["title"].text, body["authors"].items, body["abstract"].text, body["keywords"].items,
        body["sections"].records, body["template_format"].text,
        if "ai_disclosure" in body then Some(body["ai_disclosure"].text) else None))
  }
}

=== FILE: routing.dfy ===
/**
 * Where the client's requests go and which of them the backend answers:
 * the path each method of the API client (frontend/src/lib/api.ts) posts
 * to, and the paths the FastAPI application (backend/app/main.py)
 * declares. A request to any other path is answered 404.
 */
module Routing {

  import opened Api

  /** The path each method requests (api.ts:33-85), a path parameter
      written `{}`. */
  const Routes: map<(string, string), string> := map[
    ("templateAPI", "getAll") := "/api/templates",
    ("templateAPI", "getByName") := "/api/templates/{}",
    ("detectorAPI", "detect") := "/api/detect",
    ("detectorAPI", "generateDisclosure") := "/api/generate-disclosure",
    ("brainstormAPI", "generate") := "/api/brainstorm",
    ("writingAPI", "improve") := "/api/writing/improve",
    ("writingAPI", "generateSection") := "/api/writing/generate-section",
    ("chatAPI", "send") := "/api/chat",
    ("exportAPI", "docx") := "/api/export/docx",
    ("exportAPI", "file") := "/api/export/file",
    ("fileAPI", "analyze") := "/api/upload/analyze",
    ("fileAPI", "humanize") := "/api/humanize",
    ("modelAPI", "getSettings") := "/api/models/settings",
    ("citationAPI", "fetchFromDOI") := "/api/citations/doi/{}",
    ("citationAPI", "format") := "/api/citations/format"]

  /** The paths the backend application declares (main.py:49-164). */
  const ServedRoutes: set<string> := {
    "/health", "/api/templates", "/api/templates/{}", "/api/detect",
    "/api/generate-disclosure", "/api/brainstorm", "/api/writing/improve",
    "/api/writing/generate-section", "/api/chat", "/api/export/docx"}

  /** A method whose request reaches a route the backend declares; any
      other request is answered 404. */
  predicate Served(obj: string, name: string) {
    (obj, name) in Routes && Routes[(obj, name)] in ServedRoutes
  }

  /** Every defined method has a path, and only those. */
  lemma RoutesFollowMethods(obj: string, name: string)
    ensures (obj, name) in Routes <==> Defined(obj, name)
  {
  }

  /** Which of the client's requests the backend serves: the detector,
      template and Word-export requests do; the file export, upload,
      humanize, model-settings and citation requests have no route. */
  lemma ServedMethods()
    ensures Served("exportAPI", "docx") && !Served("exportAPI", "file")
    ensures Served("detectorAPI", "detect") && Served("detectorAPI", "generateDisclosure")
    ensures Served("templateAPI", "getByName")
    ensures !Served("fileAPI", "analyze") && !Served("fileAPI", "humanize")
    ensures !Served("modelAPI", "getSettings")
    ensures !Served("citationAPI", "fetchFromDOI") && !Served("citationAPI", "format")
  {
  }
}

=== FILE: schemas.dfy ===
/**
 * The backend's request and response schemas (backend/app/models/schemas.py):
 * the three string enumerations with their wire values, the detection
 * result with its bounded score, and the `min_length=1` field constraints,
 * which the framework checks before a request reaches a service.
 */
module Schemas {

  import opened Wrappers

  // ---------------------------------------------------------------------
  // Enumerations
  // ---------------------------------------------------------------------

  datatype ResearchType = Experimental | Review | CaseStudy | Theoretical | Survey

  const AllResearchTypes: seq<ResearchType> := [Experimental, Review, CaseStudy, Theoretical, Survey]

  function ResearchTypeValue(t: ResearchType): string {
    match t
    case Experimental => "experimental"
    case Review => "review"
    case CaseStudy => "case_study"
    case Theoretical => "theoretical"
    case Survey => "survey"
  }

  /** The enum's lookup by value: exactly the five wire strings parse. */
  function ParseResearchType(s: string): (r: Option<ResearchType>)
    ensures r.Some? ==> ResearchTypeValue(r.value) == s
    ensures r.None? ==> forall t: ResearchType :: ResearchTypeValue(t) != s
  {
    if s == "experimental" then Some(Experimental)
    else if s == "review" then Some(Review)
    else if s == "case_study" then Some(CaseStudy)
    else if s == "theoretical" then Some(Theoretical)
    else if s == "survey" then Some(Survey)
    else None
  }

  lemma ResearchTypeRoundTrip(t: ResearchType)
    ensures ParseResearchType(ResearchTypeValue(t)) == Some(t)
  {
  }

  /** Five members, listed once each. */
  lemma ResearchTypeCount()
    ensures |AllResearchTypes| == 5
    ensures forall t: ResearchType :: t in AllResearchTypes
    ensures forall i, j :: 0 <= i < j < 5 ==> AllResearchTypes[i] != AllResearchTypes[j]
  {
    forall t: ResearchType ensures t in AllResearchTypes {
      match t
      case Experimental => assert AllResearchTypes[0] == t;
      case Review => assert AllResearchTypes[1] == t;
      case CaseStudy => assert AllResearchTypes[2] == t;
      case Theoretical => assert AllResearchTypes[3] == t;
      case Survey => assert AllResearchTypes[4] == t;
    }
  }

  datatype AILevel = Low | Medium | High

  const AllLevels: seq<AILevel> := [Low, Medium, High]

  function AILevelValue(l: AILevel): string {
    match l
    case Low => "low"
    case Medium => "medium"
    case High => "high"
  }

  function ParseAILevel(s: string): (r: Option<AILevel>)
    ensures r.Some? ==> AILevelValue(r.value) == s
    ensures r.None? ==> forall l: AILevel :: AILevelValue(l) != s
  {
    if s == "low" then Some(Low)
    else if s == "medium" then Some(Medium)
    else if s == "high" then Some(High)
    else None
  }

  lemma AILevelRoundTrip(l: AILevel)
    ensures ParseAILevel(AILevelValue(l)) == Some(l)
  {
  }

  lemma AILevelCount()
    ensures |AllLevels| == 3
    ensures forall l: AILevel :: l in AllLevels
    ensures forall i, j :: 0 <= i < j < 3 ==> AllLevels[i] != AllLevels[j]
  {
    forall l: AILevel ensures l in AllLevels {
      match l
      case Low => assert AllLevels[0] == l;
      case Medium => assert AllLevels[1] == l;
      case High => assert AllLevels[2] == l;
    }
  }

  datatype WritingAction = ImproveClarity | MakeFormal | Simplify | Expand | Summarize | FixGrammar

  const AllWritingActions: seq<WritingAction> :=
    [ImproveClarity, MakeFormal, Simplify, Expand, Summarize, FixGrammar]

  function WritingActionValue(a: WritingAction): string {
    match a
    case ImproveClarity => "improve_clarity"
    case MakeFormal => "make_formal"
    case Simplify => "simplify"
    case Expand => "expand"
    case Summarize => "summarize"
    case FixGrammar => "fix_grammar"
  }

  function ParseWritingAction(s: string): (r: Option<WritingAction>)
    ensures r.Some? ==> WritingActionValue(r.value) == s
    ensures r.None? ==> forall a: WritingAction :: WritingActionValue(a) != s
  {
    if s == "improve_clarity" then Some(ImproveClarity)
    else if s == "make_formal" then Some(MakeFormal)
    else if s == "simplify" then Some(Simplify)
    else if s == "expand" then Some(Expand)
    else if s == "summarize" then Some(Summarize)
    else if s == "fix_grammar" then Some(FixGrammar)
    else None
  }

  lemma WritingActionRoundTrip(a: WritingAction)
    ensures ParseWritingAction(WritingActionValue(a)) == Some(a)
  {
  }

  lemma WritingActionCount()
    ensures |AllWritingActions| == 6
    ensures forall a: WritingAction :: a in AllWritingActions
    ensures forall i, j :: 0 <= i < j < 6 ==> AllWritingActions[i] != AllWritingActions[j]
  {
    forall a: WritingAction ensures a in AllWritingActions {
      match a
      case ImproveClarity => assert AllWritingActions[0] == a;
      case MakeFormal => assert AllWritingActions[1] == a;
      case Simplify => assert AllWritingActions[2] == a;
      case Expand => assert AllWritingActions[3] == a;
      case Summarize => assert AllWritingActions[4] == a;
      case FixGrammar => assert AllWritingActions[5] == a;
    }
  }

  // ---------------------------------------------------------------------
  // Detection result
  // ---------------------------------------------------------------------

  datatype DetectionResult = DetectionResult(
    score: int,
    level: AILevel,
    flaggedSections: seq<string>,
    suggestions: seq<string>)

  /** `score: int = Field(..., ge=0, le=100)`. */
  predicate ValidDetectionResult(d: DetectionResult) {
    0 <= d.score <= 100
  }

  // ---------------------------------------------------------------------
  // Requests and their field constraints
  // ---------------------------------------------------------------------

  /** Why the framework rejected a request body. */
  datatype ValidationError =
    | TooShort(field: string)
    | NotAnEnumValue(field: string)

  /** `Field(..., min_length=1)`. */
  predicate MinLengthOne(s: string) { |s| >= 1 }

  datatype DetectionRequest = DetectionRequest(text: string)

  datatype BrainstormRequest = BrainstormRequest(topic: string, researchType: ResearchType, field: string)

  datatype WritingImproveRequest = WritingImproveRequest(text: string, action: WritingAction)

  datatype ChatRequest = ChatRequest(message: string, context: Option<string>)

  function ValidateDetection(text: string): (r: Result<DetectionRequest, ValidationError>)
    ensures r.Ok? <==> MinLengthOne(text)
    ensures r.Ok? ==> r.value.text == text
  {
    if |text| < 1 then Err(TooShort("text")) else Ok(DetectionRequest(text))
  }

  /** The fields are checked in declaration order; the first failure is
      the one reported. */
  function ValidateBrainstorm(topic: string, researchType: string, field: string): (r: Result<BrainstormRequest, ValidationError>)
    ensures r.Ok? <==> MinLengthOne(topic) && ParseResearchType(researchType).Some? && MinLengthOne(field)
    ensures r.Ok? ==> r.value.topic == topic && r.value.field == field
                      && ResearchTypeValue(r.value.researchType) == researchType
    ensures !MinLengthOne(topic) ==> r == Err(TooShort("topic"))
  {
    if |topic| < 1 then Err(TooShort("topic"))
    else
      match ParseResearchType(researchType)
      case None => Err(NotAnEnumValue("research_type"))
      case Some(t) =>
        if |field| < 1 then Err(TooShort("field")) else Ok(BrainstormRequest(topic, t, field))
  }

  function ValidateWritingImprove(text: string, action: string): (r: Result<WritingImproveRequest, ValidationError>)
    ensures r.Ok? <==> MinLengthOne(text) && ParseWritingAction(action).Some?
    ensures r.Ok? ==> r.value.text == text && WritingActionValue(r.value.action) == action
  {
    if |text| < 1 then Err(TooShort("text"))
    else
      match ParseWritingAction(action)
      case None => Err(NotAnEnumValue("action"))
      case Some(a) => Ok(WritingImproveRequest(text, a))
  }

  function ValidateChat(message: string, context: Option<string>): (r: Result<ChatRequest, ValidationError>)
    ensures r.Ok? <==> MinLengthOne(message)
    ensures r.Ok? ==> r.value == ChatRequest(message, context)
  {
    if |message| < 1 then Err(TooShort("message")) else Ok(ChatRequest(message, context))
  }
}

=== FILE: sidebar.dfy ===
/**
 * The sidebar's store updates (frontend/src/components/Sidebar.tsx): the
 * journal-format selector, adding a section (blank or recommended by the
 * template) and making it the active one, and the highlight of the active
 * section. New sections are built with a `name` key in the component; the
 * store declares `title`, and the model fills `title`.
 */
module Sidebar {

  import opened Wrappers
  import opened Strings
  import opened Paper
  import opened Store
  import Api

  /** The `<option>` values of the journal-format selector, in order. */
  const TemplateOptions: seq<string> := ["ieee", "springer", "elsevier", "acm", "apa7", "mla9"]

  /** `handleTemplateChange`: the chosen option becomes the template, and
      nothing a reload restores changes except the template. */
  function TemplateChange(s: State, value: string): (r: State)
    ensures r.selectedTemplate == value
    ensures Partialize(r) == Partialize(s).(selectedTemplate := value)
    ensures r == s.(selectedTemplate := value)
  {
    s.(selectedTemplate := value)
  }

  /** The effect that loads the chosen template: an answer is stored with
      `setTemplateData`; a failure is only logged. */
  function LoadTemplate(s: State, reply: Option<Blob>): (r: State)
    ensures r == s.(templateData := r.templateData)
    ensures r.templateData == if reply.Some? then reply else s.templateData
  {
    match reply
    case Some(data) => s.(templateData := Some(data))
    case None => s
  }

  /** The "Recommended Sections" block is drawn only when template data is
      held; which sections it then lists is not modelled, since the
      template's contents are opaque here. */
  predicate RecommendedListShown(s: State) {
    s.templateData.Some?
  }

  /** The load as written: line 25 calls `templateAPI.getByFormat`, which the
      client does not define. */
  function LoadTemplateAsWritten(s: State, reply: Option<Blob>): State {
    LoadTemplate(s, Api.Call("templateAPI", "getByFormat", reply))
  }

  /** As written, the load never stores anything, so from a fresh store the
      recommended list never appears and its buttons cannot be clicked. */
  lemma RecommendedNeverShownAsWritten(paperId: string, template: string, reply: Option<Blob>)
    ensures LoadTemplateAsWritten(TemplateChange(Init(paperId), template), reply) == TemplateChange(Init(paperId), template)
    ensures !RecommendedListShown(LoadTemplateAsWritten(TemplateChange(Init(paperId), template), reply))
  {
    Api.CallSiteNames();
  }

  /** With `templateAPI.getByName` an answer is stored and the list can
      appear. */
  lemma LoadByNameFollowsServer(s: State, data: Blob)
    ensures LoadTemplate(s, Api.Call("templateAPI", "getByName", Some(data))).templateData == Some(data)
    ensures RecommendedListShown(LoadTemplate(s, Api.Call("templateAPI", "getByName", Some(data))))
  {
    Api.CallSiteNames();
  }

  /** The id a section added at instant `now` gets. */
  function NewSectionId(clock: Clock): string {
    "section-" + IntToString(clock.now)
  }

  /** The section the sidebar builds: no content, no words, no goal. */
  function NewSection(title: string, clock: Clock): (r: Section)
    ensures r.id == NewSectionId(clock) && r.title == title
    ensures r.content == "" && r.wordCount == 0 && r.wordGoal.None?
  {
    Section(NewSectionId(clock), title, "", 0, None)
  }

  /** `addSection(newSection)` followed by `setActiveSection(newSection.id)`. */
  function AddSectionAndActivate(s: State, title: string, clock: Clock): (r: State)
    ensures r.sections == s.sections + [NewSection(title, clock)]
    ensures r.activeSection == Some(NewSectionId(clock))
    ensures r == s.(sections := r.sections, activeSection := r.activeSection)
  {
    var added := AddSection(s, NewSection(title, clock));
    added.(activeSection := Some(NewSection(title, clock).id))
  }

  /** `handleAddSection`: a blank section named "New Section". */
  function HandleAddSection(s: State, clock: Clock): (r: State)
    ensures r == AddSectionAndActivate(s, "New Section", clock)
    ensures |r.sections| == |s.sections| + 1
  {
    AddSectionAndActivate(s, "New Section", clock)
  }

  /** A click on a recommended section of the template. */
  function AddRecommendedSection(s: State, sectionName: string, clock: Clock): (r: State)
    ensures r == AddSectionAndActivate(s, sectionName, clock)
    ensures r.sections[|r.sections| - 1].title == sectionName
  {
    AddSectionAndActivate(s, sectionName, clock)
  }

  /** A section is drawn highlighted iff its id is the active one. */
  predicate Highlighted(s: State, section: Section) {
    s.activeSection == Some(section.id)
  }

  /** After an add, exactly the sections carrying the new id are
      highlighted, the new one among them. */
  lemma AddedSectionHighlighted(s: State, title: string, clock: Clock)
    ensures var r := AddSectionAndActivate(s, title, clock);
      && Highlighted(r, r.sections[|r.sections| - 1])
      && forall i :: 0 <= i < |r.sections| ==>
           (Highlighted(r, r.sections[i]) <==> r.sections[i].id == NewSectionId(clock))
  {
  }

  /** Two adds within the same millisecond produce two sections with one
      id; deleting that id then removes both. */
  lemma SameInstantDuplicateIds(s: State, a: string, b: string, clock: Clock)
    ensures var r := AddSectionAndActivate(AddSectionAndActivate(s, a, clock), b, clock);
      && r.sections[|r.sections| - 1].id == r.sections[|r.sections| - 2].id
      && CountId(r.sections, SectionId, NewSectionId(clock)) >= 2
      && |DeleteSection(r, NewSectionId(clock)).sections| <= |s.sections|
  {
    var r := AddSectionAndActivate(AddSectionAndActivate(s, a, clock), b, clock);
    var id := NewSectionId(clock);
    assert r.sections == s.sections + [NewSection(a, clock), NewSection(b, clock)];
    CountIdConcat(s.sections, [NewSection(a, clock), NewSection(b, clock)], SectionId, id);
    CountIdPair(NewSection(a, clock), NewSection(b, clock), SectionId, id);
  }

  lemma CountIdPair<T>(x: T, y: T, key: T -> string, id: string)
    requires key(x) == id && key(y) == id
    ensures CountId([x, y], key, id) == 2
  {
    assert [x, y][1..] == [y];
    assert [y][1..] == [];
  }
}

=== FILE: store.dfy ===
/**
 * The client-side paper store (frontend/src/lib/store.ts): one record and the
 * actions of its `create(...)` body, each a pure state transformer. The clock
 * (`Date.now()`, `new Date().toISOString()` and today's UTC calendar day) is
 * passed in as a `Clock` value.
 */
module Store {

  import opened Wrappers
  import opened Strings
  import opened Paper
  import opened Numbers

  /** The ten side panels, each with its own `show*` flag. */
  datatype Panel =
    | AIAssistant | AIDetector | Brainstorm | Export | FileUpload
    | ModelSettings | Suggestions | Citations | Analytics | KeyboardShortcuts

  /** The panels whose `show*` flag is set: the ten independent booleans
      of the store, as the set of those that are true. */
  type Panels = set<Panel>

  /** `toggleX`: flips the flag of panel `p` and no other. */
  function TogglePanel(shown: Panels, p: Panel): (r: Panels)
    ensures (p in r) == (p !in shown)
    ensures forall q :: q != p ==> (q in r) == (q in shown)
  {
    if p in shown then shown - {p} else shown + {p}
  }

  const AllHidden: Panels := {}

  /** A value the store only holds and hands back: a backend response, the
      uploaded file, an entry of the model list. */
  datatype Blob = Blob(content: string)

  /** What the clock says at the moment of an action. */
  datatype Clock = Clock(
    now: int,       // Date.now(), milliseconds since the epoch
    isoNow: string, // new Date().toISOString()
    today: int)     // the UTC calendar day of `now`, as a day number

  datatype State = State(
    title: string,
    authors: string,
    keywords: string,
    paperAbstract: string,
    sections: seq<Section>,
    activeSection: Option<string>,
    selectedTemplate: string,
    templateData: Option<Blob>,
    citations: seq<Citation>,
    detectionResult: Option<Blob>,
    uploadedFile: Option<Blob>,
    fileAnalysis: Option<Blob>,
    panels: Panels,
    darkMode: bool,
    lastSaved: string,
    isSaving: bool,
    selectedModel: string,
    smartModelSwitching: bool,
    availableModels: seq<Blob>,
    modelProvider: string,
    versions: seq<Version>,
    writingSessions: seq<WritingSession>,
    currentSessionStart: Option<int>,
    currentSessionWords: int,
    paperId: string,
    dismissedTips: seq<string>)

  const DefaultTemplate := "ieee"
  const DefaultModel := "mistralai/mistral-7b-instruct:free"
  const DefaultProvider := "OpenRouter"

  /** The initial state; `paperId` comes from the clock and a random number
      in the source and is a parameter here. */
  function Init(paperId: string): State {
    State(
      "", "", "", "", [], None,
      DefaultTemplate, None,
      [],
      None, None, None,
      AllHidden,
      false, "", false,
      DefaultModel, true, [], DefaultProvider,
      [],
      [], None, 0,
      paperId,
      [])
  }

  // ---------------------------------------------------------------------
  // Sections and citations
  // ---------------------------------------------------------------------

  /** `updateSection(id, updates)`: merges `updates` into every section whose
      id is `id`; nothing else in the store changes. */
  function UpdateSection(s: State, id: string, updates: SectionPatch): (r: State)
    ensures r == s.(sections := r.sections)
    ensures |r.sections| == |s.sections|
    ensures forall i :: 0 <= i < |s.sections| ==>
      r.sections[i] == (if s.sections[i].id == id then MergeSection(s.sections[i], updates) else s.sections[i])
  {
    s.(sections := ReplaceWhere(s.sections, SectionId, id, (x: Section) => MergeSection(x, updates)))
  }

  /** `addSection(section)`: appends, with no check that the id is new. */
  function AddSection(s: State, section: Section): (r: State)
    ensures r == s.(sections := r.sections)
    ensures |r.sections| == |s.sections| + 1
    ensures r.sections[..|s.sections|] == s.sections && r.sections[|s.sections|] == section
  {
    s.(sections := s.sections + [section])
  }

  /** `deleteSection(id)`: drops every section whose id is `id`. */
  function DeleteSection(s: State, id: string): (r: State)
    ensures r == s.(sections := r.sections)
    ensures |r.sections| == |s.sections| - CountId(s.sections, SectionId, id)
    ensures forall i :: 0 <= i < |r.sections| ==> r.sections[i].id != id
    ensures forall i :: 0 <= i < |s.sections| && s.sections[i].id != id ==> s.sections[i] in r.sections
    ensures r.sections == Keep(s.sections, (x: Section) => x.id != id)
  {
    RemoveIdKeeps(s.sections, SectionId, id, (x: Section) => x.id != id);
    s.(sections := RemoveId(s.sections, SectionId, id))
  }

  function UpdateCitation(s: State, id: string, updates: CitationPatch): (r: State)
    ensures r == s.(citations := r.citations)
    ensures |r.citations| == |s.citations|
    ensures forall i :: 0 <= i < |s.citations| ==>
      r.citations[i] == (if s.citations[i].id == id then MergeCitation(s.citations[i], updates) else s.citations[i])
  {
    s.(citations := ReplaceWhere(s.citations, CitationId, id, (x: Citation) => MergeCitation(x, updates)))
  }

  function AddCitation(s: State, citation: Citation): (r: State)
    ensures r == s.(citations := r.citations)
    ensures |r.citations| == |s.citations| + 1
    ensures r.citations[..|s.citations|] == s.citations && r.citations[|s.citations|] == citation
  {
    s.(citations := s.citations + [citation])
  }

  function DeleteCitation(s: State, id: string): (r: State)
    ensures r == s.(citations := r.citations)
    ensures |r.citations| == |s.citations| - CountId(s.citations, CitationId, id)
    ensures forall i :: 0 <= i < |r.citations| ==> r.citations[i].id != id
    ensures forall i :: 0 <= i < |s.citations| && s.citations[i].id != id ==> s.citations[i] in r.citations
    ensures r.citations == Keep(s.citations, (x: Citation) => x.id != id)
  {
    RemoveIdKeeps(s.citations, CitationId, id, (x: Citation) => x.id != id);
    s.(citations := RemoveId(s.citations, CitationId, id))
  }

  /** An update for an id no section carries leaves the store identical. */
  lemma UpdateUnknownSection(s: State, id: string, updates: SectionPatch)
    requires !HasId(s.sections, SectionId, id)
    ensures UpdateSection(s, id, updates) == s
  {
    ReplaceAbsentId(s.sections, SectionId, id, (x: Section) => MergeSection(x, updates));
  }

  lemma UpdateUnknownCitation(s: State, id: string, updates: CitationPatch)
    requires !HasId(s.citations, CitationId, id)
    ensures UpdateCitation(s, id, updates) == s
  {
    ReplaceAbsentId(s.citations, CitationId, id, (x: Citation) => MergeCitation(x, updates));
  }

  /** Applying the same section update twice equals applying it once, as
      long as the update does not move the section to another id. */
  lemma UpdateSectionTwice(s: State, id: string, updates: SectionPatch)
    requires updates.id.None? || updates.id.value == id
    ensures UpdateSection(UpdateSection(s, id, updates), id, updates) == UpdateSection(s, id, updates)
  {
    var once := UpdateSection(s, id, updates);
    var twice := UpdateSection(once, id, updates);
    forall i | 0 <= i < |s.sections|
      ensures twice.sections[i] == once.sections[i]
    {
      MergeSectionIdempotent(s.sections[i], updates);
    }
  }

  /** Deleting a freshly added section's id gives what deleting it before the
      add would have given: the added entry leaves and nothing else moves. */
  lemma DeleteAfterAddSection(s: State, section: Section)
    ensures DeleteSection(AddSection(s, section), section.id) == DeleteSection(s, section.id)
  {
    RemoveIdConcat(s.sections, [section], SectionId, section.id);
  }

  /** Adding then deleting a section whose id was not in use restores the
      store exactly. */
  lemma AddThenDeleteNewSection(s: State, section: Section)
    requires !HasId(s.sections, SectionId, section.id)
    ensures DeleteSection(AddSection(s, section), section.id) == s
  {
    DeleteAfterAddSection(s, section);
    RemoveAbsentId(s.sections, SectionId, section.id);
  }

  lemma DeleteAfterAddCitation(s: State, citation: Citation)
    ensures DeleteCitation(AddCitation(s, citation), citation.id) == DeleteCitation(s, citation.id)
  {
    RemoveIdConcat(s.citations, [citation], CitationId, citation.id);
  }

  lemma DeleteSectionTwice(s: State, id: string)
    ensures DeleteSection(DeleteSection(s, id), id) == DeleteSection(s, id)
  {
    RemoveIdIdempotent(s.sections, SectionId, id);
  }

  // ---------------------------------------------------------------------
  // Panels and preferences
  // ---------------------------------------------------------------------

  function Toggle(s: State, p: Panel): (r: State)
    ensures r == s.(panels := r.panels)
    ensures (p in r.panels) == (p !in s.panels)
    ensures forall q :: q != p ==> (q in r.panels) == (q in s.panels)
  {
    s.(panels := TogglePanel(s.panels, p))
  }

  /** Toggling the same panel twice is the identity. */
  lemma ToggleTwice(s: State, p: Panel)
    ensures Toggle(Toggle(s, p), p) == s
  {
  }

  function ToggleDarkMode(s: State): (r: State)
    ensures r == s.(darkMode := r.darkMode)
    ensures r.darkMode != s.darkMode
  {
    s.(darkMode := !s.darkMode)
  }

  /** Toggling the theme twice is the identity. */
  lemma ToggleDarkModeTwice(s: State)
    ensures ToggleDarkMode(ToggleDarkMode(s)) == s
  {
  }

  /** `dismissTip(tipId)`: appends, even an id already dismissed. */
  function DismissTip(s: State, tipId: string): (r: State)
    ensures r == s.(dismissedTips := r.dismissedTips)
    ensures r.dismissedTips == s.dismissedTips + [tipId]
  {
    s.(dismissedTips := s.dismissedTips + [tipId])
  }

  /** `resetTips()`: forgets every dismissal. */
  function ResetTips(s: State): (r: State)
    ensures r == s.(dismissedTips := r.dismissedTips)
    ensures forall tipId :: tipId !in r.dismissedTips
  {
    s.(dismissedTips := [])
  }

  /** A reset undoes any dismissals made before it, and a second reset
      changes nothing. */
  lemma ResetAfterDismiss(s: State, tipId: string)
    ensures ResetTips(DismissTip(s, tipId)) == ResetTips(s)
    ensures ResetTips(ResetTips(s)) == ResetTips(s)
  {
  }

  /** Dismissing an id twice keeps both copies: there is no de-duplication. */
  lemma DismissTwiceKeepsDuplicates(s: State, tipId: string)
    ensures |DismissTip(DismissTip(s, tipId), tipId).dismissedTips| == |s.dismissedTips| + 2
  {
  }

  // ---------------------------------------------------------------------
  // Version history
  // ---------------------------------------------------------------------

  const MaxVersions: nat := 5


  /** The first `n` entries, or all of them when there are fewer
      (`xs.slice(0, n)`). */
  function Take<T>(xs: seq<T>, n: nat): (r: seq<T>)
    ensures |r| == Min(|xs|, n)
    ensures forall i :: 0 <= i < |r| ==> r[i] == xs[i]
  {
    if |xs| <= n then xs else xs[..n]
  }

  /** The version `saveVersion` records: id `v-<now>`, the current instant,
      and the current title and sections. */
  function Snapshot(s: State, clock: Clock): Version {
    Version("v-" + IntToString(clock.now), clock.isoNow, s.title, s.sections)
  }

  /** `saveVersion()`: prepends a snapshot and keeps the 5 newest. */
  function SaveVersion(s: State, clock: Clock): (r: State)
    ensures r == s.(versions := r.versions)
    ensures |r.versions| == Min(|s.versions| + 1, MaxVersions)
    ensures r.versions[0] == Snapshot(s, clock)
    ensures r.versions[1..] == s.versions[..|r.versions| - 1]
  {
    s.(versions := Take([Snapshot(s, clock)] + s.versions, MaxVersions))
  }

  /** Index of the first version with the given id (`versions.find`). */
  function FindVersion(vs: seq<Version>, id: string): (r: Option<nat>)
    ensures r.Some? ==> r.value < |vs| && vs[r.value].id == id
    ensures r.Some? ==> forall j :: 0 <= j < r.value ==> vs[j].id != id
    ensures r.None? ==> forall j :: 0 <= j < |vs| ==> vs[j].id != id
  {
    FindFirst(vs, VersionId, id)
  }

  /** `restoreVersion(id)`: only `title` and `sections` change, and they
      come from the first version with that id; an absent id is a no-op. */
  function RestoreVersion(s: State, id: string): (r: State)
    ensures r == s.(title := r.title, sections := r.sections)
    ensures (forall j :: 0 <= j < |s.versions| ==> s.versions[j].id != id) ==> r == s
    ensures forall k :: (0 <= k < |s.versions| && s.versions[k].id == id
      && (forall j :: 0 <= j < k ==> s.versions[j].id != id)) ==>
        r.title == s.versions[k].title && r.sections == s.versions[k].sections
  {
    match FindVersion(s.versions, id)
    case None => s
    case Some(k) => s.(title := s.versions[k].title, sections := s.versions[k].sections)
  }

  /** Saving and then (after any edits that leave the history alone)
      restoring the new version's id brings back the saved title and
      sections, provided the snapshot is still the newest entry. */
  lemma RestoreLatestSnapshot(s: State, clock: Clock, edited: State)
    requires |edited.versions| > 0 && edited.versions[0] == Snapshot(s, clock)
    ensures RestoreVersion(edited, "v-" + IntToString(clock.now)).title == s.title
    ensures RestoreVersion(edited, "v-" + IntToString(clock.now)).sections == s.sections
  {
  }

  /** Restoring never touches citations, abstract, authors or keywords. */
  lemma RestoreKeepsBibliography(s: State, id: string)
    ensures RestoreVersion(s, id).citations == s.citations
    ensures RestoreVersion(s, id).paperAbstract == s.paperAbstract
    ensures RestoreVersion(s, id).authors == s.authors
    ensures RestoreVersion(s, id).keywords == s.keywords
    ensures RestoreVersion(s, id).versions == s.versions
  {
  }

  /** Saving at each instant of `clocks`, in order. */
  function SaveAll(s: State, clocks: seq<Clock>): State
    decreases |clocks|
  {
    if clocks == [] then s else SaveVersion(SaveAll(s, clocks[..|clocks| - 1]), clocks[|clocks| - 1])
  }

  /** `f` applied to each element of `xs`, last element first. */
  function MapNewestFirst<A, B>(xs: seq<A>, f: A -> B): (r: seq<B>)
    ensures |r| == |xs|
    decreases |xs|
  {
    if xs == [] then [] else [f(xs[|xs| - 1])] + MapNewestFirst(xs[..|xs| - 1], f)
  }

  lemma {:induction false} MapNewestFirstAt<A, B>(xs: seq<A>, f: A -> B, i: nat)
    requires i < |xs|
    ensures MapNewestFirst(xs, f)[i] == f(xs[|xs| - 1 - i])
    decreases |xs|
  {
    if i > 0 {
      var init := xs[..|xs| - 1];
      MapNewestFirstAt(init, f, i - 1);
      assert init[|init| - 1 - (i - 1)] == xs[|xs| - 1 - i];
    }
  }

  /** The snapshots of `s` at `clocks`, newest first. */
  function SnapshotsNewestFirst(s: State, clocks: seq<Clock>): (r: seq<Version>)
    ensures |r| == |clocks|
  {
    MapNewestFirst(clocks, c => Snapshot(s, c))
  }

  /** The `i`-th snapshot is taken at the `i`-th clock from the end. */
  lemma SnapshotAt(s: State, clocks: seq<Clock>, i: nat)
    requires i < |clocks|
    ensures SnapshotsNewestFirst(s, clocks)[i] == Snapshot(s, clocks[|clocks| - 1 - i])
  {
    MapNewestFirstAt(clocks, c => Snapshot(s, c), i);
  }

  lemma TakeConsTake<T>(x: T, ys: seq<T>, n: nat)
    requires n >= 1
    ensures Take([x] + Take(ys, n), n) == Take([x] + ys, n)
  {
  }

  /** A run of saves leaves the newest snapshots first, then the older
      history, cut to 5; the title and sections are never changed by saving. */
  lemma {:induction false} SaveAllVersions(s: State, clocks: seq<Clock>)
    requires |s.versions| <= MaxVersions
    ensures SaveAll(s, clocks) == s.(versions := SaveAll(s, clocks).versions)
    ensures SaveAll(s, clocks).versions
      == Take(SnapshotsNewestFirst(s, clocks) + s.versions, MaxVersions)
    decreases |clocks|
  {
    if clocks == [] {
      assert SnapshotsNewestFirst(s, clocks) + s.versions == s.versions;
    } else {
      var init := clocks[..|clocks| - 1];
      var c := clocks[|clocks| - 1];
      SaveAllVersions(s, init);
      var mid := SaveAll(s, init);
      assert Snapshot(mid, c) == Snapshot(s, c);
      TakeConsTake(Snapshot(s, c), SnapshotsNewestFirst(s, init) + s.versions, MaxVersions);
      assert [Snapshot(s, c)] + (SnapshotsNewestFirst(s, init) + s.versions)
        == SnapshotsNewestFirst(s, clocks) + s.versions;
    }
  }

  /** However long the run, at most 5 versions remain; once there have been
      5 saves or more, they are exactly the last 5, newest first. */
  lemma LastFiveSaves(s: State, clocks: seq<Clock>)
    requires |s.versions| <= MaxVersions
    ensures |SaveAll(s, clocks).versions| == Min(|clocks| + |s.versions|, MaxVersions)
    ensures |clocks| >= MaxVersions ==>
      forall i :: 0 <= i < MaxVersions ==>
        SaveAll(s, clocks).versions[i] == Snapshot(s, clocks[|clocks| - 1 - i])
  {
    SaveAllVersions(s, clocks);
    forall i | 0 <= i < |clocks| && i < MaxVersions
      ensures SaveAll(s, clocks).versions[i] == Snapshot(s, clocks[|clocks| - 1 - i])
    {
      SnapshotAt(s, clocks, i);
    }
  }

  // ---------------------------------------------------------------------
  // Writing sessions
  // ---------------------------------------------------------------------

  /** JavaScript truthiness of `currentSessionStart`: `null` and `0` are
      false. */
  predicate SessionActive(start: Option<int>) {
    start.Some? && start.value != 0
  }

  /** `startSession()`: start is now, the word counter is reset. */
  function StartSession(s: State, clock: Clock): (r: State)
    ensures r == s.(currentSessionStart := r.currentSessionStart, currentSessionWords := r.currentSessionWords)
    ensures r.currentSessionStart == Some(clock.now)
    ensures SessionActive(r.currentSessionStart) <==> clock.now != 0
    ensures r.currentSessionWords == 0
  {
    s.(currentSessionStart := Some(clock.now), currentSessionWords := 0)
  }

  /** `updateSessionWords(words)`: overwrites the counter; it does not add. */
  function UpdateSessionWords(s: State, words: int): (r: State)
    ensures r == s.(currentSessionWords := r.currentSessionWords)
    ensures r.currentSessionWords == words
  {
    s.(currentSessionWords := words)
  }

  /** Only the last update counts: two updates equal the second alone, and
      an update does not touch whether a session is running. */
  lemma UpdateSessionWordsLastWins(s: State, w1: int, w2: int)
    ensures UpdateSessionWords(UpdateSessionWords(s, w1), w2) == UpdateSessionWords(s, w2)
    ensures SessionActive(UpdateSessionWords(s, w1).currentSessionStart) == SessionActive(s.currentSessionStart)
  {
  }

  /** The record `endSession()` prepends. AI assistance is always recorded
      as 0. */
  function SessionRecord(s: State, clock: Clock): WritingSession
    requires s.currentSessionStart.Some?
  {
    WritingSession(clock.today, s.currentSessionWords, clock.now - s.currentSessionStart.value, 0)
  }

  /** `endSession()`: with a truthy start, prepends one record and returns to
      idle; with start `null` or `0` nothing happens. */
  function EndSession(s: State, clock: Clock): (r: State)
    ensures !SessionActive(s.currentSessionStart) ==> r == s
    ensures SessionActive(s.currentSessionStart) ==>
      && |r.writingSessions| == |s.writingSessions| + 1
      && r.writingSessions[1..] == s.writingSessions
      && r.writingSessions[0].wordsWritten == s.currentSessionWords
      && r.writingSessions[0].timeSpent == clock.now - s.currentSessionStart.value
      && r.writingSessions[0].aiAssistanceUsed == 0
      && r.writingSessions[0].date == clock.today
      && r == s.(writingSessions := r.writingSessions, currentSessionStart := None, currentSessionWords := 0)
  {
    if SessionActive(s.currentSessionStart) then
      s.(writingSessions := [SessionRecord(s, clock)] + s.writingSessions,
         currentSessionStart := None,
         currentSessionWords := 0)
    else s
  }

  /** A start / word update / end cycle records exactly one session carrying
      the last word total and the elapsed time, when the start instant is
      not 0. */
  lemma SessionCycle(s: State, t0: Clock, words: int, t1: Clock)
    requires t0.now != 0
    ensures var r := EndSession(UpdateSessionWords(StartSession(s, t0), words), t1);
      && r.writingSessions == [WritingSession(t1.today, words, t1.now - t0.now, 0)] + s.writingSessions
      && r.currentSessionStart.None?
      && r.currentSessionWords == 0
  {
  }

  /** A session started at instant 0 is never recorded, since 0 is falsy. */
  lemma SessionStartedAtZeroIsLost(s: State, t0: Clock, t1: Clock)
    requires t0.now == 0
    ensures EndSession(StartSession(s, t0), t1).writingSessions == s.writingSessions
  {
  }

  /** Ending twice records one session only. */
  lemma EndSessionTwice(s: State, c1: Clock, c2: Clock)
    ensures EndSession(EndSession(s, c1), c2) == EndSession(s, c1)
  {
  }

  // ---------------------------------------------------------------------
  // Persistence
  // ---------------------------------------------------------------------

  /** The fields `partialize` writes to local storage. */
  datatype Persisted = Persisted(
    title: string,
    authors: string,
    keywords: string,
    paperAbstract: string,
    sections: seq<Section>,
    selectedTemplate: string,
    citations: seq<Citation>,
    darkMode: bool,
    lastSaved: string,
    selectedModel: string,
    smartModelSwitching: bool,
    versions: seq<Version>,
    writingSessions: seq<WritingSession>,
    paperId: string,
    dismissedTips: seq<string>)

  function Partialize(s: State): Persisted {
    Persisted(
      s.title, s.authors, s.keywords, s.paperAbstract, s.sections,
      s.selectedTemplate, s.citations, s.darkMode, s.lastSaved,
      s.selectedModel, s.smartModelSwitching, s.versions,
      s.writingSessions, s.paperId, s.dismissedTips)
  }

  /** Rehydration after a reload: the persisted fields, shallow-merged over a
      freshly initialised store. */
  function Rehydrate(initial: State, p: Persisted): (r: State)
    ensures Partialize(r) == p
    ensures r.activeSection == initial.activeSection
    ensures r.panels == initial.panels
    ensures r.isSaving == initial.isSaving
    ensures r.detectionResult == initial.detectionResult
    ensures r.currentSessionStart == initial.currentSessionStart
    ensures r.currentSessionWords == initial.currentSessionWords
    ensures r.templateData == initial.templateData
    ensures r.uploadedFile == initial.uploadedFile
    ensures r.fileAnalysis == initial.fileAnalysis
    ensures r.availableModels == initial.availableModels
    ensures r.modelProvider == initial.modelProvider
  {
    initial.(title := p.title, authors := p.authors, keywords := p.keywords,
           paperAbstract := p.paperAbstract, sections := p.sections,
           selectedTemplate := p.selectedTemplate, citations := p.citations,
           darkMode := p.darkMode, lastSaved := p.lastSaved,
           selectedModel := p.selectedModel,
           smartModelSwitching := p.smartModelSwitching,
           versions := p.versions, writingSessions := p.writingSessions,
           paperId := p.paperId, dismissedTips := p.dismissedTips)
  }

  /** Reload round trip: the persisted subset survives exactly, and every
      transient field is back at its initial value. */
  lemma ReloadRoundTrip(s: State, freshId: string)
    ensures var r := Rehydrate(Init(freshId), Partialize(s));
      && Partialize(r) == Partialize(s)
      && r.paperId == s.paperId
      && r.activeSection.None?
      && r.panels == AllHidden
      && !r.isSaving
      && r.detectionResult.None?
      && r.templateData.None?
      && r.uploadedFile.None? && r.fileAnalysis.None?
      && r.availableModels == [] && r.modelProvider == DefaultProvider
      && r.currentSessionStart.None? && r.currentSessionWords == 0
  {
  }

  /** Two states that agree on the persisted fields reload identically: the
      projection is everything a reload can see. */
  lemma ReloadSeesOnlyPersisted(s: State, t: State, freshId: string)
    requires Partialize(s) == Partialize(t)
    ensures Rehydrate(Init(freshId), Partialize(s)) == Rehydrate(Init(freshId), Partialize(t))
  {
  }

  /** The excluded fields: changing any of them leaves the projection alone. */
  lemma TransientFieldsNotPersisted(s: State, active: Option<string>, template: Option<Blob>,
                                    detection: Option<Blob>, upload: Option<Blob>,
                                    analysis: Option<Blob>, panels: Panels, saving: bool,
                                    models: seq<Blob>, provider: string,
                                    start: Option<int>, words: int)
    ensures Partialize(s.(activeSection := active, templateData := template,
                          detectionResult := detection, uploadedFile := upload,
                          fileAnalysis := analysis, panels := panels, isSaving := saving,
                          availableModels := models, modelProvider := provider,
                          currentSessionStart := start,
                          currentSessionWords := words)) == Partialize(s)
  {
  }
}


=== FILE: strings.dfy ===
/**
 * String helpers shared by the frontend and backend models.
 *
 * Characters are Unicode scalar values, but the two notions that JavaScript
 * and Python define over all of Unicode are deliberately restricted to ASCII:
 * whitespace is the space character and the controls TAB, LF, VT, FF and CR
 * (code points 9 to 13), and case conversion maps only 'A'..'Z' and 'a'..'z'.
 */
module Strings {

  import opened Wrappers

  // ---------------------------------------------------------------------
  // Characters
  // ---------------------------------------------------------------------

  /** Whitespace in the sense of JavaScript's `\s`, `String.prototype.trim`
      and Python's `str.split()` / `str.strip()`, restricted to ASCII. */
  predicate IsSpace(c: char) {
    c == ' ' || 9 <= c as int <= 13
  }

  predicate IsUpperChar(c: char) { 'A' <= c <= 'Z' }

  predicate IsLowerChar(c: char) { 'a' <= c <= 'z' }

  predicate IsDigit(c: char) { '0' <= c <= '9' }

  /** The character class `[a-z0-9]` matched case-insensitively. */
  predicate IsAlnum(c: char) {
    IsUpperChar(c) || IsLowerChar(c) || IsDigit(c)
  }

  function LowerChar(c: char): (r: char)
    ensures IsUpperChar(c) ==> IsLowerChar(r)
    ensures !IsUpperChar(c) ==> r == c
    ensures !IsUpperChar(r)
  {
    if IsUpperChar(c) then (c as int + 32) as char else c
  }

  /** Every character lower-cased (`toLowerCase()` / `lower()`). */
  function Lower(s: string): (r: string)
    ensures |r| == |s|
    ensures forall i :: 0 <= i < |s| ==> r[i] == LowerChar(s[i])
  {
    seq(|s|, i requires 0 <= i < |s| => LowerChar(s[i]))
  }

  lemma LowerIdempotent(s: string)
    ensures Lower(Lower(s)) == Lower(s)
  {
  }

  lemma LowerConcat(a: string, b: string)
    ensures Lower(a + b) == Lower(a) + Lower(b)
  {
  }

  /** True iff `s` has no upper-case letter. */
  predicate IsLowerCase(s: string) {
    forall i :: 0 <= i < |s| ==> !IsUpperChar(s[i])
  }

  lemma LowerOfLowerCase(s: string)
    requires IsLowerCase(s)
    ensures Lower(s) == s
  {
  }

  /** An ASCII approximation of Python's `str.isupper()`: at least one
      upper-case letter and no lower-case one, where only `A`-`Z` and
      `a`-`z` are cased. */
  predicate IsUpperWord(s: string) {
    (exists i :: 0 <= i < |s| && IsUpperChar(s[i]))
    && (forall i :: 0 <= i < |s| ==> !IsLowerChar(s[i]))
  }

  // ---------------------------------------------------------------------
  // Prefixes, suffixes and substrings
  // ---------------------------------------------------------------------

  predicate StartsWith(s: string, p: string) {
    |p| <= |s| && s[..|p|] == p
  }

  predicate EndsWith(s: string, p: string) {
    |p| <= |s| && s[|s| - |p|..] == p
  }

  /** `sub in s` (Python) / `s.includes(sub)` (JavaScript). */
  predicate Contains(s: string, sub: string)
    decreases |s|
  {
    StartsWith(s, sub) || (|s| > 0 && Contains(s[1..], sub))
  }

  lemma {:induction false} ContainsMiddle(a: string, sub: string, b: string)
    ensures Contains(a + sub + b, sub)
  {
    if a == [] {
      assert (a + sub + b)[..|sub|] == sub;
    } else {
      ContainsMiddle(a[1..], sub, b);
      assert (a + sub + b)[1..] == a[1..] + sub + b;
    }
  }

  lemma {:induction false} ContainsWithin(s: string, sub: string)
    requires Contains(s, sub)
    ensures |sub| <= |s|
    decreases |s|
  {
    if !StartsWith(s, sub) {
      ContainsWithin(s[1..], sub);
    }
  }

  lemma {:induction false} ContainsAfter(a: string, s: string, sub: string)
    requires Contains(s, sub)
    ensures Contains(a + s, sub)
    decreases |a|
  {
    if a == [] {
      assert a + s == s;
    } else {
      ContainsAfter(a[1..], s, sub);
      assert (a + s)[1..] == a[1..] + s;
    }
  }

  lemma {:induction false} ContainsBefore(s: string, b: string, sub: string)
    requires Contains(s, sub)
    ensures Contains(s + b, sub)
    decreases |s|
  {
    if StartsWith(s, sub) {
      assert (s + b)[..|sub|] == s[..|sub|];
    } else {
      ContainsBefore(s[1..], b, sub);
      assert (s + b)[1..] == s[1..] + b;
    }
  }

  /** A concatenation starts with its first part, ends with its last, and
      holds its middle part where the first ends. */
  lemma Framed(a: string, m: string, z: string)
    ensures StartsWith(a + m + z, a) && EndsWith(a + m + z, z)
    ensures (a + m + z)[|a|..|a| + |m|] == m
  {
    assert (a + m + z)[..|a|] == a;
    assert (a + m + z)[|a + m|..] == z;
  }

  /** Appending keeps a prefix. */
  lemma StartsWithAppend(s: string, t: string, p: string)
    requires StartsWith(s, p)
    ensures StartsWith(s + t, p)
  {
    assert (s + t)[..|p|] == s[..|p|];
  }

  /** Concatenation regroups freely. */
  lemma AppendAssoc(a: string, b: string, c: string)
    ensures a + (b + c) == (a + b) + c
  {
  }

  /** A prefix of a prefix is a prefix. */
  lemma StartsWithPrefix(s: string, a: string, b: string)
    requires StartsWith(s, a + b)
    ensures StartsWith(s, a)
  {
    assert s[..|a|] == (a + b)[..|a|];
  }

  /** Index of the first occurrence of `sub` in `s`, as Python's `str.find`
      and JavaScript's `indexOf` locate it. */
  function IndexOf(s: string, sub: string): (r: Option<nat>)
    ensures r.Some? ==> r.value + |sub| <= |s| && s[r.value..r.value + |sub|] == sub
    ensures r.Some? ==> forall j :: 0 <= j < r.value ==> !StartsWith(s[j..], sub)
    ensures r.None? <==> !Contains(s, sub)
    decreases |s|
  {
    if StartsWith(s, sub) then Some(0)
    else if |s| == 0 then None
    else
      match IndexOf(s[1..], sub)
      case None => None
      case Some(k) =>
        IndexOfShift(s, sub, k);
        Some(k + 1)
  }

  /** A first match at `k` in the tail of `s` is a first match at `k + 1`
      in `s` when `s` itself does not start with it. */
  lemma IndexOfShift(s: string, sub: string, k: nat)
    requires |s| > 0 && !StartsWith(s, sub)
    requires k + |sub| <= |s| - 1 && s[1..][k..k + |sub|] == sub
    requires forall j :: 0 <= j < k ==> !StartsWith(s[1..][j..], sub)
    ensures s[k + 1..k + 1 + |sub|] == sub
    ensures forall j :: 0 <= j < k + 1 ==> !StartsWith(s[j..], sub)
  {
    assert s[1..][k..k + |sub|] == s[k + 1..k + 1 + |sub|];
    forall j | 1 <= j < k + 1
      ensures !StartsWith(s[j..], sub)
    {
      assert s[j..] == s[1..][j - 1..];
    }
  }

  /** Index of the first occurrence of character `c` at or after `from`, or
      `|s|` when there is none (Python's `find` with `-1` replaced by the
      length, as the detector does). */
  function FindCharFrom(s: string, c: char, from: nat): (r: nat)
    requires from <= |s|
    ensures from <= r <= |s|
    ensures r < |s| ==> s[r] == c
    ensures forall j :: from <= j < r ==> s[j] != c
    decreases |s| - from
  {
    if from == |s| then |s|
    else if s[from] == c then from
    else FindCharFrom(s, c, from + 1)
  }

  /** One past the last occurrence of `c` before `upto`, or 0 when there is
      none (Python's `rfind(c, 0, upto) + 1`). */
  function AfterLastCharBefore(s: string, c: char, upto: nat): (r: nat)
    requires upto <= |s|
    ensures r <= upto
    ensures r > 0 ==> s[r - 1] == c
    ensures forall j :: r <= j < upto ==> s[j] != c
  {
    if upto == 0 then 0
    else if s[upto - 1] == c then upto
    else AfterLastCharBefore(s, c, upto - 1)
  }

  // ---------------------------------------------------------------------
  // Trimming
  // ---------------------------------------------------------------------

  predicate IsBlank(s: string) {
    forall i :: 0 <= i < |s| ==> IsSpace(s[i])
  }

  function TrimStart(s: string): (r: string)
    ensures |r| <= |s| && r == s[|s| - |r|..]
    ensures r == [] || !IsSpace(r[0])
    ensures IsBlank(s[..|s| - |r|])
    decreases |s|
  {
    if s == [] || !IsSpace(s[0]) then s
    else
      var r := TrimStart(s[1..]);
      assert s[1..][|s| - 1 - |r|..] == s[|s| - |r|..];
      assert s[..|s| - |r|] == [s[0]] + s[1..][..|s| - 1 - |r|];
      r
  }

  function TrimEnd(s: string): (r: string)
    ensures |r| <= |s| && r == s[..|r|]
    ensures r == [] || !IsSpace(r[|r| - 1])
    ensures IsBlank(s[|r|..])
    decreases |s|
  {
    if s == [] || !IsSpace(s[|s| - 1]) then s
    else
      var r := TrimEnd(s[..|s| - 1]);
      assert s[..|s| - 1][..|r|] == s[..|r|];
      assert s[|r|..] == s[..|s| - 1][|r|..] + [s[|s| - 1]];
      r
  }

  /** Neither end is whitespace. */
  predicate Stripped(s: string) {
    s == [] || (!IsSpace(s[0]) && !IsSpace(s[|s| - 1]))
  }

  /** JavaScript's `trim()` and Python's `strip()`. */
  function Trim(s: string): (r: string)
    ensures |r| <= |s|
    ensures Stripped(r)
    ensures r == [] <==> IsBlank(s)
    ensures exists i, j :: 0 <= i <= j <= |s| && r == s[i..j] && IsBlank(s[..i]) && IsBlank(s[j..])
  {
    var t := TrimStart(s);
    var r := TrimEnd(t);
    assert r == [] ==> IsBlank(s) by {
      if r == [] {
        assert s == s[..|s| - |t|] + t;
        assert t == t[..0] + t[0..];
      }
    }
    TrimSlices(s);
    r
  }

  /** The two halves of `Trim` cut a slice out of the text with only
      whitespace on either side. */
  lemma TrimSlices(s: string)
    ensures exists i, j :: 0 <= i <= j <= |s| && TrimEnd(TrimStart(s)) == s[i..j]
                           && IsBlank(s[..i]) && IsBlank(s[j..])
  {
    var t := TrimStart(s);
    var r := TrimEnd(t);
    var i := |s| - |t|;
    SuffixSlices(s, t, r, i);
    assert r == s[i..i + |r|] && IsBlank(s[..i]) && IsBlank(s[i + |r|..]);
  }

  /** Trimming a slice of a text keeps a smaller slice of that text, with
      only whitespace between the two on either side. */
  lemma TrimInside(text: string, a: nat, b: nat)
    requires a <= b <= |text|
    ensures exists i, j :: a <= i <= j <= b && Trim(text[a..b]) == text[i..j]
                           && IsBlank(text[a..i]) && IsBlank(text[j..b])
  {
    var u := text[a..b];
    var i, j :| 0 <= i <= j <= |u| && Trim(u) == u[i..j] && IsBlank(u[..i]) && IsBlank(u[j..]);
    SliceOfSlice(text, a, b, i, j);
    assert Trim(u) == text[a + i..a + j] && IsBlank(text[a..a + i]) && IsBlank(text[a + j..b]);
  }

  lemma SliceOfSlice<T>(s: seq<T>, a: nat, b: nat, i: nat, j: nat)
    requires a <= b <= |s| && i <= j <= b - a
    ensures s[a..b][i..j] == s[a + i..a + j]
    ensures s[a..b][..i] == s[a..a + i] && s[a..b][j..] == s[a + j..b]
  {
    var u := s[a..b];
    assert forall k :: 0 <= k < |u| ==> u[k] == s[a + k];
    assert u[i..j] == s[a + i..a + j];
    assert u[..i] == s[a..a + i];
    assert u[j..] == s[a + j..b];
  }

  /** A prefix of a suffix is a middle slice, with the rest of the suffix
      after it. */
  lemma SuffixSlices<T>(s: seq<T>, t: seq<T>, r: seq<T>, i: nat)
    requires i <= |s| && t == s[i..] && |r| <= |t| && r == t[..|r|]
    ensures r == s[i..i + |r|] && t[|r|..] == s[i + |r|..]
  {
  }

  lemma TrimNoSpaceEnds(s: string)
    requires Stripped(s)
    ensures Trim(s) == s
  {
  }

  /** One leading space in front of a clean string is trimmed away. */
  lemma TrimLeadingSpace(s: string)
    requires Stripped(s)
    ensures Trim(" " + s) == s
  {
    assert (" " + s)[1..] == s;
    assert TrimStart(" " + s) == TrimStart(s);
  }

  /** Trimming changes exactly the strings with whitespace at an end. */
  lemma TrimFixedIffStripped(s: string)
    ensures Trim(s) == s <==> Stripped(s)
  {
    if Stripped(s) { TrimNoSpaceEnds(s); }
  }

  // ---------------------------------------------------------------------
  // Splitting and joining
  // ---------------------------------------------------------------------

  /** Number of occurrences of `c` in `s`. */
  function Count(s: string, c: char): (r: nat)
    ensures r <= |s|
  {
    if s == [] then 0 else (if s[0] == c then 1 else 0) + Count(s[1..], c)
  }

  /** `s.split(sep)` for a one-character separator, in both JavaScript and
      Python: the pieces between separators, empty pieces included. */
  function SplitAt(s: string, sep: char): (r: seq<string>)
    ensures |r| == Count(s, sep) + 1
    ensures forall i :: 0 <= i < |r| ==> sep !in r[i]
    decreases |s|
  {
    if s == [] then [""]
    else
      var rest := SplitAt(s[1..], sep);
      if s[0] == sep then [""] + rest
      else [[s[0]] + rest[0]] + rest[1..]
  }

  /** `sep.join(xs)` (Python) / `xs.join(sep)` (JavaScript). */
  function Join(xs: seq<string>, sep: string): string
  {
    if |xs| == 0 then ""
    else if |xs| == 1 then xs[0]
    else xs[0] + sep + Join(xs[1..], sep)
  }

  /** Joining one more piece appends the separator and the piece. */
  lemma {:induction false} JoinAppend(xs: seq<string>, x: string, sep: string)
    requires |xs| >= 1
    ensures Join(xs + [x], sep) == Join(xs, sep) + sep + x
    decreases |xs|
  {
    if |xs| == 1 {
      assert (xs + [x])[1..] == [x];
    } else {
      assert (xs + [x])[1..] == xs[1..] + [x];
      JoinAppend(xs[1..], x, sep);
    }
  }

  /** Every piece occurs in the joined string. */
  lemma {:induction false} JoinContains(xs: seq<string>, sep: string, i: nat)
    requires i < |xs|
    ensures Contains(Join(xs, sep), xs[i])
    decreases |xs|
  {
    if |xs| == 1 {
      ContainsMiddle("", xs[0], "");
      assert "" + xs[0] + "" == xs[0];
    } else if i == 0 {
      ContainsMiddle("", xs[0], sep + Join(xs[1..], sep));
      assert "" + xs[0] + (sep + Join(xs[1..], sep)) == Join(xs, sep);
    } else {
      JoinContains(xs[1..], sep, i - 1);
      ContainsAfter(xs[0] + sep, Join(xs[1..], sep), xs[i]);
    }
  }

  lemma {:induction false} JoinSplit(s: string, sep: char)
    ensures Join(SplitAt(s, sep), [sep]) == s
    decreases |s|
  {
    if s != [] {
      var rest := SplitAt(s[1..], sep);
      JoinSplit(s[1..], sep);
      if s[0] == sep {
        assert [""] + rest == [""] + rest;
        assert ([""] + rest)[1..] == rest;
        assert s == [sep] + s[1..];
      } else {
        var r := [[s[0]] + rest[0]] + rest[1..];
        assert r[1..] == rest[1..];
        if |rest| == 1 {
          assert s == [s[0]] + s[1..];
        } else {
          assert Join(rest, [sep]) == rest[0] + [sep] + Join(rest[1..], [sep]);
          assert s == [s[0]] + s[1..];
        }
      }
    }
  }

  lemma {:induction false} SplitNoSep(a: string, sep: char)
    requires sep !in a
    ensures SplitAt(a, sep) == [a]
    decreases |a|
  {
    if a != [] {
      SplitNoSep(a[1..], sep);
      assert [a[0]] + a[1..] == a;
    }
  }

  lemma {:induction false} SplitAfterPiece(a: string, sep: char, b: string)
    requires sep !in a
    ensures SplitAt(a + [sep] + b, sep) == [a] + SplitAt(b, sep)
    decreases |a|
  {
    var s := a + [sep] + b;
    if a == [] {
      assert s[1..] == b;
    } else {
      assert s[1..] == a[1..] + [sep] + b;
      SplitAfterPiece(a[1..], sep, b);
      assert [a[0]] + a[1..] == a;
    }
  }

  /** Splitting a join of separator-free pieces gives the pieces back. */
  lemma {:induction false} SplitJoin(xs: seq<string>, sep: char)
    requires |xs| >= 1
    requires forall i :: 0 <= i < |xs| ==> sep !in xs[i]
    ensures SplitAt(Join(xs, [sep]), sep) == xs
    decreases |xs|
  {
    if |xs| == 1 {
      SplitNoSep(xs[0], sep);
    } else {
      SplitJoin(xs[1..], sep);
      SplitAfterPiece(xs[0], sep, Join(xs[1..], [sep]));
      assert [xs[0]] + xs[1..] == xs;
    }
  }

  /** Each piece trimmed, in order. */
  function TrimAll(xs: seq<string>): (r: seq<string>)
    ensures |r| == |xs|
    ensures forall i :: 0 <= i < |xs| ==> r[i] == Trim(xs[i])
  {
    seq(|xs|, i requires 0 <= i < |xs| => Trim(xs[i]))
  }

  /** `[p.strip() for p in s.split(sep)]`, which is also
      `s.split(sep).map((t) => t.trim())`. */
  function SplitTrim(s: string, sep: char): (r: seq<string>)
    ensures |r| == Count(s, sep) + 1 == |SplitAt(s, sep)|
    ensures forall i :: 0 <= i < |r| ==> r[i] == Trim(SplitAt(s, sep)[i])
    ensures forall i :: 0 <= i < |r| ==> sep !in r[i] && Stripped(r[i])
  {
    var pieces := SplitAt(s, sep);
    var r := TrimAll(pieces);
    assert forall i :: 0 <= i < |r| ==> sep !in r[i] by {
      forall i | 0 <= i < |r| ensures sep !in r[i] {
        TrimIsSlice(pieces[i]);
      }
    }
    r
  }

  lemma TrimIsSlice(s: string)
    ensures forall c :: c in Trim(s) ==> c in s
  {
    var t := TrimStart(s);
    assert forall c :: c in TrimEnd(t) ==> c in t;
    assert forall c :: c in t ==> c in s;
  }

  /** Parsing an already clean separator-joined list returns its items. */
  lemma SplitTrimJoin(xs: seq<string>, sep: char)
    requires |xs| >= 1
    requires forall i :: 0 <= i < |xs| ==> sep !in xs[i] && Stripped(xs[i])
    ensures SplitTrim(Join(xs, [sep]), sep) == xs
  {
    SplitJoin(xs, sep);
    forall i | 0 <= i < |xs| ensures Trim(xs[i]) == xs[i] {
      TrimNoSpaceEnds(xs[i]);
    }
  }

  /** Every piece with one space in front of it. */
  function Spaced(xs: seq<string>): (r: seq<string>)
    ensures |r| == |xs|
    ensures forall i :: 0 <= i < |xs| ==> r[i] == " " + xs[i]
  {
    seq(|xs|, i requires 0 <= i < |xs| => " " + xs[i])
  }

  /** A space in front of a ", "-join is the ","-join of the spaced pieces. */
  lemma {:induction false} JoinSpaced(xs: seq<string>, sep: char)
    requires |xs| >= 1
    ensures " " + Join(xs, [sep, ' ']) == Join(Spaced(xs), [sep])
    decreases |xs|
  {
    if |xs| > 1 {
      JoinSpaced(xs[1..], sep);
      assert Spaced(xs)[1..] == Spaced(xs[1..]);
    }
  }

  /** The first item, then every later item behind one space. */
  function SpacedTail(xs: seq<string>): (r: seq<string>)
    requires |xs| >= 1
    ensures |r| == |xs| && r[0] == xs[0]
    ensures forall i :: 1 <= i < |xs| ==> r[i] == " " + xs[i]
  {
    [xs[0]] + Spaced(xs[1..])
  }

  lemma MoveSpace(a: string, sep: char, t: string)
    ensures a + [sep, ' '] + t == a + [sep] + (" " + t)
  {
    var l := a + [sep, ' '] + t;
    var r := a + [sep] + (" " + t);
    assert |l| == |r|;
    forall i | 0 <= i < |l| ensures l[i] == r[i] {
      if i < |a| { } else if i == |a| { } else if i == |a| + 1 { } else { }
    }
  }

  lemma JoinAsSpacedTail(xs: seq<string>, sep: char)
    requires |xs| >= 1
    ensures Join(xs, [sep, ' ']) == Join(SpacedTail(xs), [sep])
  {
    if |xs| > 1 {
      var d: string := [sep, ' '];
      var tail := Join(xs[1..], d);
      JoinSpaced(xs[1..], sep);
      var ys := SpacedTail(xs);
      assert ys[1..] == Spaced(xs[1..]);
      calc {
        Join(xs, d);
        xs[0] + d + tail;
        { MoveSpace(xs[0], sep, tail); }
        xs[0] + [sep] + (" " + tail);
        ys[0] + [sep] + Join(ys[1..], [sep]);
      }
    }
  }

  /** The spaced pieces are free of a non-space separator... */
  lemma SpacedTailSepFree(xs: seq<string>, sep: char)
    requires sep != ' ' && |xs| >= 1
    requires forall i :: 0 <= i < |xs| ==> sep !in xs[i]
    ensures forall i :: 0 <= i < |xs| ==> sep !in SpacedTail(xs)[i]
  {
    var pieces := SpacedTail(xs);
    forall i | 0 <= i < |pieces| ensures sep !in pieces[i] {
      if i > 0 {
        assert pieces[i] == " " + xs[i];
      }
    }
  }

  /** ...and trim back to the items when those are clean. */
  lemma SpacedTailTrims(xs: seq<string>)
    requires |xs| >= 1
    requires forall i :: 0 <= i < |xs| ==> Stripped(xs[i])
    ensures TrimAll(SpacedTail(xs)) == xs
  {
    var pieces := SpacedTail(xs);
    forall i | 0 <= i < |pieces| ensures Trim(pieces[i]) == xs[i] {
      if i == 0 {
        TrimNoSpaceEnds(xs[0]);
      } else {
        TrimLeadingSpace(xs[i]);
      }
    }
  }

  /** Splitting a `sep + " "`-joined list of clean, separator-free items on
      `sep` and trimming the pieces gives the items back. */
  lemma SplitTrimJoinSpaced(xs: seq<string>, sep: char)
    requires sep != ' ' && |xs| >= 1
    requires forall i :: 0 <= i < |xs| ==> sep !in xs[i] && Stripped(xs[i])
    ensures SplitTrim(Join(xs, [sep, ' ']), sep) == xs
  {
    JoinAsSpacedTail(xs, sep);
    SpacedTailSepFree(xs, sep);
    SpacedTailTrims(xs);
    SplitJoin(SpacedTail(xs), sep);
  }

  /** `[x for x in xs if p(x)]`. */
  function Keep<T>(xs: seq<T>, p: T -> bool): (r: seq<T>)
    ensures |r| <= |xs|
    ensures forall i :: 0 <= i < |r| ==> p(r[i])
    ensures forall x :: x in xs && p(x) ==> x in r
    ensures forall x :: x in r ==> x in xs
  {
    if xs == [] then []
    else if p(xs[0]) then [xs[0]] + Keep(xs[1..], p)
    else Keep(xs[1..], p)
  }

  /** Filtering a list extended by one element extends the filtered list
      by that element exactly when it passes: order and multiplicity are
      kept. */
  lemma {:induction false} KeepSnoc<T>(xs: seq<T>, x: T, p: T -> bool)
    ensures Keep(xs + [x], p) == Keep(xs, p) + (if p(x) then [x] else [])
    decreases |xs|
  {
    if xs == [] {
      assert [x][1..] == [];
    } else {
      assert (xs + [x])[0] == xs[0];
      assert (xs + [x])[1..] == xs[1..] + [x];
      KeepSnoc(xs[1..], x, p);
    }
  }

  /** Keeping what all pass keeps everything. */
  lemma {:induction false} KeepAll<T>(xs: seq<T>, p: T -> bool)
    requires forall i :: 0 <= i < |xs| ==> p(xs[i])
    ensures Keep(xs, p) == xs
    decreases |xs|
  {
    if xs != [] {
      KeepAll(xs[1..], p);
      assert [xs[0]] + xs[1..] == xs;
    }
  }

  /** `p.strip()` / `p.trim()` is truthy. */
  predicate HasText(s: string) { !IsBlank(s) }

  // ---------------------------------------------------------------------
  // Whitespace-separated words
  // ---------------------------------------------------------------------

  /** The pieces between single whitespace characters, empty ones included. */
  function SplitSpace(s: string): (r: seq<string>)
    ensures |r| >= 1
    decreases |s|
  {
    if s == [] then [""]
    else
      var rest := SplitSpace(s[1..]);
      if IsSpace(s[0]) then [""] + rest
      else [[s[0]] + rest[0]] + rest[1..]
  }

  function NonEmpty(xs: seq<string>): (r: seq<string>)
    ensures |r| <= |xs|
    ensures forall i :: 0 <= i < |r| ==> r[i] != []
  {
    if xs == [] then []
    else if xs[0] == [] then NonEmpty(xs[1..])
    else [xs[0]] + NonEmpty(xs[1..])
  }

  /** The words of `s`: Python's `s.split()`, and JavaScript's
      `s.split(/\s+/).filter(Boolean)`. */
  function Words(s: string): seq<string>
  {
    NonEmpty(SplitSpace(s))
  }

  /** Reference count: the number of positions that start a maximal run of
      non-whitespace characters, `prevSpace` saying whether the character
      before `s` (if any) was whitespace. */
  function RunStarts(s: string, prevSpace: bool): nat
  {
    if s == [] then 0
    else (if prevSpace && !IsSpace(s[0]) then 1 else 0) + RunStarts(s[1..], IsSpace(s[0]))
  }

  function WordRuns(s: string): nat { RunStarts(s, true) }

  lemma {:induction false} SplitSpaceRuns(s: string)
    ensures |NonEmpty(SplitSpace(s))| == RunStarts(s, true)
    ensures |NonEmpty(SplitSpace(s)[1..])| == RunStarts(s, false)
    decreases |s|
  {
    if s != [] {
      var rest := SplitSpace(s[1..]);
      SplitSpaceRuns(s[1..]);
      if IsSpace(s[0]) {
        var r := [""] + rest;
        assert r[1..] == rest;
        assert NonEmpty(r) == NonEmpty(rest);
        NonEmptyHead(rest);
      } else {
        var r := [[s[0]] + rest[0]] + rest[1..];
        assert r[1..] == rest[1..];
        assert NonEmpty(r) == [r[0]] + NonEmpty(rest[1..]);
        NonEmptyHead(rest);
      }
    }
  }

  lemma NonEmptyHead(xs: seq<string>)
    requires |xs| >= 1
    ensures |NonEmpty(xs)| == (if xs[0] == [] then 0 else 1) + |NonEmpty(xs[1..])|
  {
  }

  lemma {:induction false} FirstPieceEmpty(s: string)
    ensures (SplitSpace(s)[0] == []) <==> (s == [] || IsSpace(s[0]))
  {
  }

  /** The word count is the number of maximal non-whitespace runs. */
  lemma WordsCountRuns(s: string)
    ensures |Words(s)| == WordRuns(s)
  {
    SplitSpaceRuns(s);
  }

  lemma {:induction false} RunStartsLeadingSpace(s: string)
    requires s != [] && IsSpace(s[0])
    ensures RunStarts(s, true) == RunStarts(s[1..], true)
  {
  }

  lemma {:induction false} RunStartsDropTrailing(s: string, p: bool)
    requires s != [] && IsSpace(s[|s| - 1])
    ensures RunStarts(s, p) == RunStarts(s[..|s| - 1], p)
    decreases |s|
  {
    if |s| > 1 {
      RunStartsDropTrailing(s[1..], IsSpace(s[0]));
      assert s[1..][..|s| - 2] == s[..|s| - 1][1..];
    }
  }

  /** Trimming never changes the number of words. */
  lemma {:induction false} TrimKeepsRuns(s: string)
    ensures WordRuns(Trim(s)) == WordRuns(s)
  {
    TrimStartKeepsRuns(s);
    TrimEndKeepsRuns(TrimStart(s));
  }

  lemma {:induction false} TrimStartKeepsRuns(s: string)
    ensures RunStarts(TrimStart(s), true) == RunStarts(s, true)
    decreases |s|
  {
    if s != [] && IsSpace(s[0]) {
      TrimStartKeepsRuns(s[1..]);
    }
  }

  lemma {:induction false} TrimEndKeepsRuns(s: string)
    ensures RunStarts(TrimEnd(s), true) == RunStarts(s, true)
    decreases |s|
  {
    if s != [] && IsSpace(s[|s| - 1]) {
      RunStartsDropTrailing(s, true);
      TrimEndKeepsRuns(s[..|s| - 1]);
    }
  }

  // ---------------------------------------------------------------------
  // Numbers
  // ---------------------------------------------------------------------

  function DigitChar(d: nat): (r: char)
    requires d < 10
    ensures IsDigit(r)
  {
    ('0' as int + d) as char
  }

  /** Decimal rendering of a natural number, as `${n}` / `str(n)` print it. */
  function NatToString(n: nat): (r: string)
    ensures |r| >= 1
    ensures forall i :: 0 <= i < |r| ==> IsDigit(r[i])
  {
    if n < 10 then [DigitChar(n)] else NatToString(n / 10) + [DigitChar(n % 10)]
  }

  /** Decimal rendering of an integer, with a leading '-' when negative. */
  function IntToString(i: int): (r: string)
    ensures |r| >= 1
    ensures i >= 0 ==> r == NatToString(i)
    ensures i < 0 ==> r[0] == '-' && r[1..] == NatToString(-i)
  {
    if i < 0 then "-" + NatToString(-i) else NatToString(i)
  }

  function DigitValue(c: char): nat
    requires IsDigit(c)
  {
    c as int - '0' as int
  }

  /** Reads back a string of decimal digits. */
  function ParseDigits(s: string): nat
    requires forall i :: 0 <= i < |s| ==> IsDigit(s[i])
  {
    if s == [] then 0 else 10 * ParseDigits(s[..|s| - 1]) + DigitValue(s[|s| - 1])
  }

  lemma {:induction false} ParseNatToString(n: nat)
    ensures ParseDigits(NatToString(n)) == n
  {
    if n >= 10 {
      ParseNatToString(n / 10);
      var r := NatToString(n);
      assert r[..|r| - 1] == NatToString(n / 10);
    }
  }

  /** Rendering is injective: distinct numbers print differently. */
  lemma NatToStringInjective(m: nat, n: nat)
    requires NatToString(m) == NatToString(n)
    ensures m == n
  {
    ParseNatToString(m);
    ParseNatToString(n);
  }

  lemma {:induction false} NatToStringShort(n: nat)
    ensures n < 10 ==> |NatToString(n)| == 1
    ensures n < 100 ==> |NatToString(n)| <= 2
  {
  }
}

=== FILE: suggestions.dfy ===
/**
 * The writing-tips panel (frontend/src/components/SmartSuggestionsPanel.tsx):
 * which tips the active section gets, which of them are still shown, the
 * collapsible groups and the rotating "did you know" line.
 */
module Suggestions {

  import opened Wrappers
  import opened Strings
  import opened Paper
  import opened Store

  // ---------------------------------------------------------------------
  // The tips table
  // ---------------------------------------------------------------------

  const ReviewTips: seq<string> := [
    "Organize by themes, not just chronologically",
    "Identify gaps in existing research",
    "Compare and contrast different approaches",
    "Cite recent works (last 3-5 years)"]

  const IntroductionTips: seq<string> := [
    "Include background context and motivation",
    "Clearly state the problem you're addressing",
    "Define your research objectives",
    "Outline your main contributions",
    "End with a brief paper structure overview"]

  /** `SECTION_TIPS`, keyed by lower-case section title. */
  const SectionTips: map<string, seq<string>> := map[
    "introduction" := IntroductionTips,
    "literature review" := ReviewTips,
    "related work" := ReviewTips,
    "methodology" := [
      "Describe methods in enough detail for reproducibility",
      "Justify your choice of methods",
      "Explain data collection procedures",
      "Address validity and reliability"],
    "results" := [
      "Present findings objectively without interpretation",
      "Use tables and figures effectively",
      "Report statistical significance where applicable",
      "Organize by research questions"],
    "discussion" := [
      "Interpret results in context of literature",
      "Discuss practical implications",
      "Acknowledge limitations honestly",
      "Suggest future research directions"],
    "conclusion" := [
      "Summarize key findings concisely",
      "Restate main contributions",
      "Avoid introducing new information",
      "End with impact statement"]]

  const DidYouKnow: seq<string> := [
    "Most journals require 150-300 word abstracts",
    "IEEE uses [1] format, APA uses (Author, Year)",
    "Always check journal's author guidelines first",
    "Methodology is often the longest section"]

  /** The lower-case title of the active section, or "" when no section is
      active or none has the active id (`sections.find(...)?.title`). */
  function ActiveSectionName(s: State): (r: string)
    ensures s.activeSection.None? ==> r == ""
    ensures s.activeSection.Some? && HasId(s.sections, SectionId, s.activeSection.value) ==>
      exists i :: 0 <= i < |s.sections| && s.sections[i].id == s.activeSection.value
                  && (forall j :: 0 <= j < i ==> s.sections[j].id != s.activeSection.value)
                  && r == Lower(s.sections[i].title)
    ensures s.activeSection.Some? && !HasId(s.sections, SectionId, s.activeSection.value) ==> r == ""
  {
    match s.activeSection
    case None => ""
    case Some(id) =>
      match FindFirst(s.sections, SectionId, id)
      case None => ""
      case Some(k) => Lower(s.sections[k].title)
  }

  /** Line 85 over the sections the components actually build: the found
      section has no `title`, `?.` guards only a failed find, and calling
      `toLowerCase` on `undefined` throws, shown here as `Err`. With no
      active section, or none carrying its id, the name is "". */
  function ActiveSectionNameAsWritten(sections: seq<BuiltSection>, active: Option<string>): (r: Result<string, string>)
    ensures r.Err? <==> active.Some? && HasId(sections, BuiltId, active.value)
    ensures r.Ok? ==> r.value == ""
  {
    match active
    case None => Ok("")
    case Some(id) =>
      if FindFirst(sections, BuiltId, id).Some? then Err("Cannot read properties of undefined (reading 'toLowerCase')")
      else Ok("")
  }

  /** Adding a section and activating it, as the sidebar and the brainstorm
      panel do, makes the panel throw on its next render. */
  lemma AddedSectionBreaksPanel(sections: seq<BuiltSection>, b: BuiltSection)
    ensures ActiveSectionNameAsWritten(sections + [b], Some(b.id)).Err?
  {
    assert BuiltId((sections + [b])[|sections|]) == b.id;
  }

  /** Read through the store's declared shape, a built section's name is what
      the panel looks up: the first section carrying the active id gives its
      lower-cased name. */
  lemma DeclaredSectionGivesName(s: State, built: seq<BuiltSection>, k: nat)
    requires |s.sections| == |built|
    requires forall i :: 0 <= i < |built| ==> s.sections[i] == AsDeclared(built[i])
    requires k < |built| && s.activeSection == Some(built[k].id)
    requires forall j :: 0 <= j < k ==> built[j].id != built[k].id
    ensures ActiveSectionName(s) == Lower(built[k].name)
  {
    var id := built[k].id;
    assert SectionId(s.sections[k]) == id;
    assert forall j :: 0 <= j < k ==> SectionId(s.sections[j]) != id;
  }

  // ---------------------------------------------------------------------
  // The lookup, as written and corrected
  // ---------------------------------------------------------------------

  /** The lower-case names under which a plain JavaScript object yields an
      inherited member of `Object.prototype`: a truthy value that is not an
      array. */
  const PrototypeKeys: set<string> := {"constructor", "__proto__"}

  /** `SECTION_TIPS[sectionName] || SECTION_TIPS['introduction']` followed by
      `sectionTips.map(...)`, as written: a name that hits
      `Object.prototype` makes `.map` throw, shown here as `Err`. The
      `.map` runs only while the section-tips group is expanded, which it
      is when the panel first renders. */
  function LookupTipsAsWritten(name: string): (r: Result<seq<string>, string>)
    ensures name in SectionTips ==> r == Ok(SectionTips[name])
    ensures name in PrototypeKeys ==> r.Err?
    ensures name !in SectionTips && name !in PrototypeKeys ==> r == Ok(IntroductionTips)
  {
    if name in SectionTips then Ok(SectionTips[name])
    else if name in PrototypeKeys then Err("sectionTips.map is not a function")
    else Ok(IntroductionTips)
  }

  /** An active section titled "Constructor" (or "__proto__") makes the
      panel throw instead of falling back to the introduction tips. */
  lemma PrototypeTitleBreaksPanel(s: State, id: string, content: string, words: nat)
    requires s.sections == [Section(id, "Constructor", content, words, None)]
    requires s.activeSection == Some(id)
    ensures ActiveSectionName(s) == "constructor"
    ensures LookupTipsAsWritten(ActiveSectionName(s)).Err?
  {
    var k := Lower("Constructor");
    assert k[0] == 'c';
    assert k == "constructor";
  }

  /** The lookup restricted to the table's own keys, with the introduction
      tips as the fallback for every other name. */
  function TipsFor(name: string): (r: seq<string>)
    ensures name in SectionTips ==> r == SectionTips[name]
    ensures name !in SectionTips ==> r == IntroductionTips
    ensures 4 <= |r| <= 5
  {
    if name in SectionTips then SectionTips[name] else IntroductionTips
  }

  /** Wherever the written lookup does not throw, it agrees with `TipsFor`,
      and it throws only on the prototype names. */
  lemma LookupAgreesOffPrototype(name: string)
    ensures LookupTipsAsWritten(name).Ok? <==> name !in PrototypeKeys
    ensures LookupTipsAsWritten(name).Ok? ==> LookupTipsAsWritten(name).value == TipsFor(name)
  {
    assert "constructor" !in SectionTips;
    assert "__proto__" !in SectionTips;
  }

  /** The tips of the active section; no active section means the
      introduction tips. */
  function ActiveTips(s: State): (r: seq<string>)
    ensures s.activeSection.None? ==> r == IntroductionTips
  {
    TipsFor(ActiveSectionName(s))
  }

  // ---------------------------------------------------------------------
  // Dismissed tips
  // ---------------------------------------------------------------------

  /** `section-<name>-<index>`. */
  function TipId(name: string, i: nat): string {
    "section-" + name + "-" + NatToString(i)
  }

  /** The text after the last '-', or all of it when there is none. */
  function AfterLastDash(s: string): (r: string)
    ensures |r| <= |s| && r == s[|s| - |r|..]
    ensures '-' !in r
  {
    if s == [] || s[|s| - 1] == '-' then []
    else AfterLastDash(s[..|s| - 1]) + [s[|s| - 1]]
  }

  lemma {:induction false} AfterLastDashOf(p: string, d: string)
    requires '-' !in d
    ensures AfterLastDash(p + "-" + d) == d
    decreases |d|
  {
    var s := p + "-" + d;
    if d != [] {
      assert s[..|s| - 1] == p + "-" + d[..|d| - 1];
      AfterLastDashOf(p, d[..|d| - 1]);
      assert d == d[..|d| - 1] + [d[|d| - 1]];
    }
  }

  /** Tip ids name one tip: the index is the digits after the last '-', so
      the name and the index can both be read back. */
  lemma TipIdInjective(n1: string, i1: nat, n2: string, i2: nat)
    requires TipId(n1, i1) == TipId(n2, i2)
    ensures n1 == n2 && i1 == i2
  {
    var d1 := NatToString(i1);
    var d2 := NatToString(i2);
    var p1 := "section-" + n1;
    var p2 := "section-" + n2;
    NoDashInDigits(d1);
    NoDashInDigits(d2);
    AfterLastDashOf(p1, d1);
    AfterLastDashOf(p2, d2);
    assert d1 == d2;
    NatToStringInjective(i1, i2);
    PrefixOf(p1, d1);
    PrefixOf(p2, d2);
    assert p1 == p2;
    assert p1[8..] == n1;
    assert p2[8..] == n2;
  }

  lemma PrefixOf(p: string, d: string)
    ensures (p + "-" + d)[..|p|] == p
  {
  }

  lemma NoDashInDigits(d: string)
    requires forall i :: 0 <= i < |d| ==> IsDigit(d[i])
    ensures '-' !in d
  {
  }

  /** A tip is shown iff its id has not been dismissed. */
  predicate TipShown(dismissed: seq<string>, name: string, i: nat) {
    TipId(name, i) !in dismissed
  }

  /** The indices of the tips still shown, in order. */
  function VisibleTips(name: string, n: nat, dismissed: seq<string>): (r: seq<nat>)
    ensures forall i: nat :: i in r <==> i < n && TipShown(dismissed, name, i)
    ensures forall a, b :: 0 <= a < b < |r| ==> r[a] < r[b]
  {
    if n == 0 then []
    else
      var init := VisibleTips(name, n - 1, dismissed);
      assert forall a :: 0 <= a < |init| ==> init[a] in init;
      if TipShown(dismissed, name, n - 1) then init + [n - 1] else init
  }

  /** Dismissing a tip hides it and only it; the tips of sections with
      other names are untouched. */
  lemma DismissHidesOneTip(s: State, name: string, i: nat, other: string, j: nat)
    requires other != name || j != i
    ensures !TipShown(DismissTip(s, TipId(name, i)).dismissedTips, name, i)
    ensures TipShown(DismissTip(s, TipId(name, i)).dismissedTips, other, j)
        <==> TipShown(s.dismissedTips, other, j)
  {
    if TipId(other, j) == TipId(name, i) {
      TipIdInjective(other, j, name, i);
    }
  }

  /** After a reset every tip is shown again. */
  lemma ResetShowsAll(s: State, name: string, n: nat)
    ensures |VisibleTips(name, n, ResetTips(s).dismissedTips)| == n
  {
    var r := VisibleTips(name, n, ResetTips(s).dismissedTips);
    SortedBelowIsRange(r, n);
  }

  /** A strictly increasing list holding exactly the numbers below `n` has
      length `n`. */
  lemma {:induction false} SortedBelowIsRange(r: seq<nat>, n: nat)
    requires forall i: nat :: i in r <==> i < n
    requires forall a, b :: 0 <= a < b < |r| ==> r[a] < r[b]
    ensures |r| == n
    decreases n
  {
    if n > 0 {
      assert n - 1 in r;
      var k :| 0 <= k < |r| && r[k] == n - 1;
      assert forall a :: 0 <= a < |r| ==> r[a] <= r[|r| - 1];
      assert r[|r| - 1] in r;
      assert r[|r| - 1] == n - 1;
      var init := r[..|r| - 1];
      forall i: nat
        ensures i in init <==> i < n - 1
      {
        if i in init {
          var m :| 0 <= m < |init| && init[m] == i;
          assert r[m] < r[|r| - 1];
        }
        if i < n - 1 {
          assert i in r;
          var m :| 0 <= m < |r| && r[m] == i;
          assert m != |r| - 1;
          assert init[m] == i;
        }
      }
      SortedBelowIsRange(init, n - 1);
    }
  }

  /** The reset button is shown iff some tip was dismissed. */
  predicate ShowReset(s: State) {
    |s.dismissedTips| > 0
  }

  lemma ResetButtonFollowsDismissals(s: State, tipId: string)
    ensures ShowReset(DismissTip(s, tipId))
    ensures !ShowReset(ResetTips(s))
  {
  }

  // ---------------------------------------------------------------------
  // Collapsible groups and the rotating line
  // ---------------------------------------------------------------------

  const InitialExpanded: set<string> := {"section-tips"}

  /** `toggleSection`: flips membership of exactly one key. */
  function ToggleExpanded(expanded: set<string>, key: string): (r: set<string>)
    ensures (key in r) <==> (key !in expanded)
    ensures forall k :: k != key ==> (k in r <==> k in expanded)
  {
    if key in expanded then expanded - {key} else expanded + {key}
  }

  lemma ToggleExpandedTwice(expanded: set<string>, key: string)
    ensures ToggleExpanded(ToggleExpanded(expanded, key), key) == expanded
  {
  }

  /** The next index of the rotating line. */
  function NextTipIndex(i: nat): (r: nat)
    ensures r < |DidYouKnow|
    ensures i + 1 < |DidYouKnow| ==> r == i + 1
  {
    (i + 1) % |DidYouKnow|
  }

  /** Four ticks bring the line back to where it started. */
  lemma RotationCycles(i: nat)
    requires i < |DidYouKnow|
    ensures NextTipIndex(NextTipIndex(NextTipIndex(NextTipIndex(i)))) == i
  {
  }
}

=== FILE: templates.dfy ===
/**
 * The journal template registry (backend/app/services/template_service.py):
 * six `TemplateFormat` records in an insertion-ordered dictionary keyed by
 * template name, looked up by key, listed as values and as keys.
 */
module Templates {

  import opened Wrappers
  import opened Paper
  import Sidebar

  /** `TemplateFormat` without its floating-point layout fields (line
      spacing and margins); the two limits are optional and default to
      `None` (backend/app/models/schemas.py). */
  datatype TemplateFormat = TemplateFormat(
    name: string,
    displayName: string,
    citationStyle: string,
    fontFamily: string,
    fontSize: nat,
    sections: seq<string>,
    wordLimit: Option<nat>,
    abstractWordLimit: Option<nat>)

  const Ieee := TemplateFormat("ieee", "IEEE", "IEEE", "Times New Roman", 10,
    ["Abstract", "Introduction", "Related Work", "Methodology", "Results", "Discussion",
     "Conclusion", "References"],
    Some(6000), Some(150))

  const Springer := TemplateFormat("springer", "Springer Nature", "APA", "Times New Roman", 12,
    ["Abstract", "Keywords", "Introduction", "Materials and Methods", "Results", "Discussion",
     "Conclusion", "References"],
    Some(8000), Some(250))

  const Elsevier := TemplateFormat("elsevier", "Elsevier", "Harvard", "Arial", 11,
    ["Abstract", "Keywords", "Introduction", "Literature Review", "Methodology",
     "Results and Discussion", "Conclusion", "References"],
    Some(7000), Some(200))

  const Acm := TemplateFormat("acm", "ACM", "ACM", "Libertine", 10,
    ["Abstract", "CCS Concepts", "Keywords", "Introduction", "Background", "Approach",
     "Evaluation", "Related Work", "Conclusion", "References"],
    Some(10000), Some(150))

  const Apa7 := TemplateFormat("apa7", "APA 7th Edition", "APA 7th", "Times New Roman", 12,
    ["Abstract", "Introduction", "Method", "Results", "Discussion", "References"],
    None, Some(250))

  const Mla9 := TemplateFormat("mla9", "MLA 9th Edition", "MLA 9th", "Times New Roman", 12,
    ["Introduction", "Body", "Conclusion", "Works Cited"],
    None, None)

  /** One dictionary item: the key and its value. */
  datatype Entry = Entry(key: string, template: TemplateFormat)

  function EntryKey(e: Entry): string { e.key }

  /** `self.templates`, in insertion order. */
  const Registry: seq<Entry> := [
    Entry("ieee", Ieee), Entry("springer", Springer), Entry("elsevier", Elsevier),
    Entry("acm", Acm), Entry("apa7", Apa7), Entry("mla9", Mla9)]

  /** `get_all_templates`: the values in dictionary order. */
  function AllTemplates(): (r: seq<TemplateFormat>)
    ensures |r| == |Registry|
    ensures forall i :: 0 <= i < |r| ==> r[i] == Registry[i].template
  {
    seq(|Registry|, i requires 0 <= i < |Registry| => Registry[i].template)
  }

  /** `get_template_names`: the keys in dictionary order. */
  function TemplateNames(): (r: seq<string>)
    ensures |r| == |Registry|
    ensures forall i :: 0 <= i < |r| ==> r[i] == Registry[i].key
  {
    seq(|Registry|, i requires 0 <= i < |Registry| => Registry[i].key)
  }

  /** `ValueError(f"Template '{format_name}' not found")`. */
  datatype TemplateError = TemplateNotFound(formatName: string)

  /** `get_template`: the value stored under the key, or the error for a key
      the dictionary does not hold. */
  function GetTemplate(formatName: string): (r: Result<TemplateFormat, TemplateError>)
    ensures r.Ok? <==> formatName in TemplateNames()
    ensures r.Ok? ==> exists i :: 0 <= i < |Registry| && Registry[i] == Entry(formatName, r.value)
    ensures r.Err? ==> r.error == TemplateNotFound(formatName)
  {
    match FindFirst(Registry, EntryKey, formatName)
    case None =>
      assert forall i :: 0 <= i < |Registry| ==> TemplateNames()[i] == EntryKey(Registry[i]);
      Err(TemplateNotFound(formatName))
    case Some(i) =>
      assert TemplateNames()[i] == formatName;
      Ok(Registry[i].template)
  }

  /** Every key is the name of the template stored under it, and no key
      occurs twice. */
  lemma RegistryKeyedByName()
    ensures forall i :: 0 <= i < |Registry| ==> Registry[i].key == Registry[i].template.name
    ensures forall i, j :: 0 <= i < j < |Registry| ==> Registry[i].key != Registry[j].key
  {
    assert |"ieee"| == 4 && |"springer"| == 8 && |"elsevier"| == 8 && |"acm"| == 3
      && |"apa7"| == 4 && |"mla9"| == 4;
    assert "ieee"[0] != "apa7"[0] && "ieee"[0] != "mla9"[0] && "apa7"[0] != "mla9"[0];
    assert "springer"[0] != "elsevier"[0];
  }

  /** The registry's keys are exactly the six options of the sidebar's
      template selector, in the same order. */
  lemma NamesMatchSidebar()
    ensures TemplateNames() == Sidebar.TemplateOptions
  {
  }

  /** `get_template(k)` returns the template whose name is `k`. */
  lemma GetTemplateByName(formatName: string)
    ensures GetTemplate(formatName).Ok? ==> GetTemplate(formatName).value.name == formatName
  {
    RegistryKeyedByName();
  }

  /** The names and the templates are listed in the same order. */
  lemma NamesFollowTemplates()
    ensures |TemplateNames()| == |AllTemplates()| == 6
    ensures forall i :: 0 <= i < 6 ==> TemplateNames()[i] == AllTemplates()[i].name
  {
    RegistryKeyedByName();
  }

  /** Looking up the key of an entry finds that entry's template. */
  lemma GetTemplateAt(i: nat)
    requires i < |Registry|
    ensures GetTemplate(Registry[i].key) == Ok(Registry[i].template)
  {
    RegistryKeyedByName();
    assert HasId(Registry, EntryKey, Registry[i].key) by {
      assert EntryKey(Registry[i]) == Registry[i].key;
    }
  }

  /** The word limits of the six journals; APA 7 and MLA 9 set no overall
      limit, and MLA 9 no abstract limit either. */
  lemma Limits()
    ensures GetTemplate("ieee") == Ok(Ieee) && Ieee.wordLimit == Some(6000) && Ieee.abstractWordLimit == Some(150)
    ensures GetTemplate("springer") == Ok(Springer) && Springer.wordLimit == Some(8000) && Springer.abstractWordLimit == Some(250)
    ensures GetTemplate("elsevier") == Ok(Elsevier) && Elsevier.wordLimit == Some(7000) && Elsevier.abstractWordLimit == Some(200)
    ensures GetTemplate("acm") == Ok(Acm) && Acm.wordLimit == Some(10000) && Acm.abstractWordLimit == Some(150)
    ensures GetTemplate("apa7") == Ok(Apa7) && Apa7.wordLimit.None? && Apa7.abstractWordLimit == Some(250)
    ensures GetTemplate("mla9") == Ok(Mla9) && Mla9.wordLimit.None? && Mla9.abstractWordLimit.None?
  {
    GetTemplateAt(0);
    GetTemplateAt(1);
    GetTemplateAt(2);
    GetTemplateAt(3);
    GetTemplateAt(4);
    GetTemplateAt(5);
  }

  /** Every template lists some sections, and all but MLA 9 open with the
      abstract. */
  lemma SectionsOpenWithAbstract()
    ensures forall i :: 0 <= i < |Registry| ==> |Registry[i].template.sections| > 0
    ensures forall i :: 0 <= i < |Registry| && Registry[i].key != "mla9" ==>
      Registry[i].template.sections[0] == "Abstract"
    ensures Mla9.sections[0] == "Introduction"
  {
    RegistryKeyedByName();
  }
}

=== FILE: wrappers.dfy ===
/** Failure-carrying datatypes used wherever the source raises, rejects or
    returns "nothing". */
module Wrappers {

  datatype Option<+T> = None | Some(value: T) {
    function GetOr(default: T): T {
      match this
      case Some(v) => v
      case None => default
    }
  }

  /** A value or the error the source would raise instead. */
  datatype Result<+R, +E> = Ok(value: R) | Err(error: E)
}
